=== FILE: README.md ===
# simple-model: the query builder, the attribute map and the model collection in Dafny

This project models the pure logic of three PHP classes. For each one it proves
what the class promises to its callers.

- **`QueryBuilder`** (`src/Query/QueryBuilder.php`) is a fluent builder. Its
  state is a record (`Builder.State`): table, from-list, select-list, where and
  having predicate lists, joins, group and order lists, limit, offset and the
  bound-value list. The validating mutators are functions from a state to a new
  state or to the exception the source throws (`Errors.QueryError`). The
  renderers (`getSelectState` … `getLimitState`), `toSql` and the text-building
  half of `insert`/`update`/`delete` return fragments (`Tokens.Frag`). A
  fragment holds the SQL text, the values appended while building it, and a
  token stream in which every `?` the renderer emits is a distinct
  `Placeholder` token. "Placeholders match values" (`Aligned`) can therefore be
  stated without counting `?` characters inside identifiers or raw SQL. The
  model also covers identifier quoting (`quoteColumn`), value escaping
  (`quoteValue`), the query-history log (`putQueryHistory`) and the
  `chunk`/`each` loops. These loops run against a table given as a sequence of
  rows.
- **`Model`** (`src/Model.php`): the attribute map and dirty tracking.
  `fillableFromArray`, `fill`, `forceFill`, `setAttribute`, `getAttribute`,
  `syncOriginal`, `setRawAttributes`, `originalIsEquivalent`, `getDirty`,
  `isDirty`, the key filtering of `toArray`, `updateTimestamps` and
  `getKeyForSaveQuery`. PHP arrays are ordered maps (`OrderedMaps`): a
  sequence of key/value pairs with distinct keys, where assigning an existing
  key overwrites it in place. Four PHP builtins are fields of a `Runtime`
  parameter, because the model cannot see their code: `json_encode`,
  `json_decode`, Carbon's `toAtomString`, and `is_numeric` with the string
  cast. Calling a model method by name, as `getAttribute` does for an unknown key, is a fifth field and is read as a side-effect-free lookup.
- **`Collection`** (`src/Collection.php`): `getDictionary`, `add`, `modelKeys`,
  `merge`, `diff`, `intersect` and the no-key `unique`. A collection is a
  sequence of (primary key, item) pairs.

Files: `results.dfy` (`Option`, `Result`), `errors.dfy`, `values.dfy`, `text.dfy`
(upper-casing, `trim`, `implode`/`explode`, integer formatting), `tokens.dfy`,
`identifiers.dfy`, `vocabulary.dfy` (operator and join-type whitelists),
`predicates.dfy` (where/having rendering), `builder.dfy`, `compile.dfy`,
`builder_render.dfy` (what each builder call does to the compiled statement),
`writes.dfy`, `history.dfy`, `quote_value.dfy`, `chunking.dfy`,
`ordered_maps.dfy`, `attributes.dfy`, `collection.dfy`.

## Model

| member | source | states |
|---|---|---|
| Builder.New | src/Query/QueryBuilder.php:61-65 | A new builder has every query field empty, keeps the fetch class it is given, and has a history bound of 10 (line 22). |
| Builder.Reset | src/Query/QueryBuilder.php:96-113 | `initQuery` clears every query field and keeps the fetch class and the history bound. |
| Builder.ResetIdempotent | src/Query/QueryBuilder.php:96-113 | Resetting twice is the same as resetting once. |
| BuilderRender.TableRenders | src/Query/QueryBuilder.php:132-142 | `table` throws "must be a string" exactly for a raw identifier. For a name, it equals `from` with that one name, and the statement it leaves compiles to `SELECT * FROM` the quoted name with no values. |
| Builder.TableForgets | src/Query/QueryBuilder.php:85-142 | `table` and `from` forget every earlier query field. Two states with the same fetch class and history bound give the same result. |
| BuilderRender.FromRenders | src/Query/QueryBuilder.php:85-91 | `from` leaves a statement that compiles exactly when the list is non-empty: `SELECT * FROM` the quoted sources joined by `,`, binding just their raw values. For one plain name it is the same as `table`. |
| BuilderRender.SelectRenders | src/Query/QueryBuilder.php:149-153 | An empty `select` changes nothing. Otherwise the SELECT text gains `,` (or starts with `SELECT `) and the quoted fields joined by `,`, and its values gain the fields' raw values after the earlier ones. |
| BuilderRender.SelectRawRenders | src/Query/QueryBuilder.php:160-164 | `selectRaw` extends the SELECT text with its SQL after `,` (or `SELECT `) and its values after the earlier ones. |
| Builder.WherePredSpec | src/Query/QueryBuilder.php:174-210 | `where` accepts exactly three forms: a closure without an operator, the two-argument form (operator `=`), or an operator whose upper-case form is whitelisted. It stores the upper-cased operator. A closure given an operator throws with that operator. |
| Builder.WhereCaseInsensitive | src/Query/QueryBuilder.php:196-202 | For `where`, writing an operator in lower or upper case makes no difference. |
| Builder.HavingPredSpec | src/Query/QueryBuilder.php:571-604 | `having` looks its operator up case-sensitively and stores it upper-cased. A closure is accepted whatever operator comes with it. |
| Builder.OperatorCaseExample | src/Query/QueryBuilder.php:585-592 | The same `like` is accepted by `where` and rejected by `having`. |
| BuilderRender.WhereRenders | src/Query/QueryBuilder.php:348-370 | `where`/`orWhere` succeed exactly when the predicate is accepted and change nothing but the where-list. The WHERE clause then renders exactly when it did before and the new predicate renders; its text gains the connector and the predicate, and its values gain the predicate's values at the end. |
| BuilderRender.HavingRenders | src/Query/QueryBuilder.php:613-680 | The same for `having`/`orHaving` and the HAVING clause. |
| Builder.ShorthandStores | src/Query/QueryBuilder.php:215-345 | `whereNull`, `whereIn`, `whereBetween`, `whereLike` and their variants each append one predicate with their fixed operator and never throw. |
| Builder.WhereNotEmptyStores | src/Query/QueryBuilder.php:295-298 | `whereNotEmpty` appends `IS NOT NULL` and then `!= ''` on the same field. |
| BuilderRender.WhereRawRenders | src/Query/QueryBuilder.php:377-400 | `whereRaw`/`orWhereRaw` extend the WHERE clause with the connector and the raw SQL (or start it with `WHERE `), and its values with the raw values. |
| BuilderRender.HavingRawRenders | src/Query/QueryBuilder.php:683-691 | The same for `havingRaw` and the HAVING clause. |
| BuilderRender.JoinRenders | src/Query/QueryBuilder.php:458-477 | `join` succeeds exactly when the upper-cased type is INNER/LEFT/RIGHT and the operator is whitelisted case-sensitively. The join text then gains `TYPE JOIN table ON key OP other`, with the type as written and each name quoted, and the values gain the three names' raw values in that order. |
| BuilderRender.JoinRawRenders | src/Query/QueryBuilder.php:410-425 | `joinRaw` succeeds exactly when the type is valid in any case. The join text gains `TYPE JOIN table ON sql`, and the values gain the table's raw values then the given ones. |
| BuilderRender.LimitRenders | src/Query/QueryBuilder.php:507-514 | `limit` changes only the LIMIT fragment: the statement renders exactly when before, with the same values and the same other fragments. A value `n` renders `LIMIT n`, after the offset and `,` when an offset is set. |
| BuilderRender.OffsetRenders | src/Query/QueryBuilder.php:520-527 | `offset` changes only the LIMIT fragment. With a limit set, an offset `n` renders `LIMIT n,limit`; without one it renders nothing. |
| BuilderRender.OrderByRenders | src/Query/QueryBuilder.php:535-549 | `orderBy` succeeds exactly when the direction is ASC/DESC in any case. The ORDER BY text then gains the quoted field and the upper-cased direction, and its values gain the field's raw values. |
| BuilderRender.GroupByRenders | src/Query/QueryBuilder.php:556-561 | An empty `groupBy` changes nothing. Otherwise the GROUP BY text gains the quoted fields joined by `,`, and its values gain their raw values. |
| BuilderRender.ForPageRenders | src/Query/QueryBuilder.php:1233-1241 | `forPage` changes only the LIMIT fragment, which renders `LIMIT (page-1)·perPage,perPage`. |
| Builder.WherePreservesValid | src/Query/QueryBuilder.php:174-210 | A successful `where` keeps every stored predicate's operator whitelisted, at any depth of grouping. |
| Builder.HavingPreservesValid | src/Query/QueryBuilder.php:571-604 | The same for `having`. |
| Builder.JoinPreservesValid | src/Query/QueryBuilder.php:458-477 | A successful `join` keeps every join type valid and every join operator whitelisted. |
| Builder.JoinRawPreservesValid | src/Query/QueryBuilder.php:410-425 | The same for `joinRaw`. |
| Builder.OrderByPreservesValid | src/Query/QueryBuilder.php:535-549 | A successful `orderBy` keeps every direction ASC or DESC. |
| Vocabulary.OperatorsNormal | src/Query/QueryBuilder.php:33-48 | Every whitelisted operator is already upper-case and trimmed, so `trim(strtoupper($opt))` stores it unchanged. |
| Identifiers.QuoteAligned | src/Query/QueryBuilder.php:1491-1508 | A quoted identifier emits no placeholder. A raw identifier's values are exactly the raw values it inlines, and a plain name binds nothing. |
| Identifiers.QuoteNameStar | src/Query/QueryBuilder.php:1497-1499 | Quoting yields `*` exactly for `*`: every other name is wrapped. |
| Identifiers.QuoteNameSimple | src/Query/QueryBuilder.php:1507 | A name without `.` is wrapped in backticks, and un-doubling the inside gives the name back. |
| Identifiers.QuoteNameDotted | src/Query/QueryBuilder.php:1501-1504 | `a.b.…` quotes the first two segments separately and drops the rest. |
| Identifiers.ExplodeFirstTwo | src/Query/QueryBuilder.php:1502 | `explode('.')` of such a name yields `a` and `b` as its first two pieces. |
| Identifiers.EscapeRoundTrip | src/Query/QueryBuilder.php:1503-1507 | Doubling backticks is undone by collapsing each pair, so the quoted name determines the name. |
| Identifiers.UnescapeAppend | src/Query/QueryBuilder.php:1503-1507 | Collapsing backtick pairs distributes over concatenation of escaped pieces. |
| Predicates.CondNullCheck | src/Query/QueryBuilder.php:1020-1021 | `IS [NOT] NULL` renders `field OP` and emits no placeholder. |
| Predicates.CondBetween | src/Query/QueryBuilder.php:1022-1029 | `[NOT] BETWEEN` throws exactly when the value has fewer than two entries. Otherwise it renders `field OP ? AND ?` and binds `value[0]` and `value[1]`. |
| Predicates.CondIn | src/Query/QueryBuilder.php:1030-1044 | `[NOT] IN` throws exactly on a null value. Otherwise it emits one `?` per flattened element, joined by `,` without spaces, and binds the flattened elements in order. |
| Predicates.InListShape | src/Query/QueryBuilder.php:1036-1043 | The IN list has as many placeholders as values and inlines nothing. An empty list renders as nothing. |
| Predicates.CondCompare | src/Query/QueryBuilder.php:1045-1047 | Any other operator renders `field OP ?` and binds the value. |
| Predicates.StatementOkIff | src/Query/QueryBuilder.php:1001-1048 | One predicate renders exactly when every BETWEEN in it has two bounds and every IN a non-null value, at any depth. |
| Predicates.StatementAligned | src/Query/QueryBuilder.php:1001-1053 | A rendered predicate binds exactly the values its placeholders and raw fragments stand for, in order. A group splices its inner values in at its own position. |
| Predicates.EntriesOkIff | src/Query/QueryBuilder.php:999-1057 | A predicate list renders exactly when each of its predicates does. |
| Predicates.EntriesAligned | src/Query/QueryBuilder.php:999-1057 | A rendered predicate list keeps placeholders and values aligned. |
| Predicates.EntriesText | src/Query/QueryBuilder.php:1050-1057 | The entries are joined by single spaces. The first has no connector, each later one is prefixed by its own AND/OR, and an empty group still counts as the first entry. |
| Predicates.ClauseOkIff | src/Query/QueryBuilder.php:713-778 | The WHERE and HAVING renderers fail exactly when some predicate is malformed. |
| Predicates.ClauseText | src/Query/QueryBuilder.php:993-1058 | An empty list renders as nothing. Otherwise the keyword, a space, and the joined entries. |
| Predicates.ClauseAligned | src/Query/QueryBuilder.php:993-997 | A rendered clause keeps placeholders and values aligned. |
| Compile.SelectAligned | src/Query/QueryBuilder.php:968-977 | The SELECT fragment binds only the values of raw fields, and emits no placeholder. |
| Compile.FromAligned | src/Query/QueryBuilder.php:982-986 | The same for FROM. |
| Compile.JoinsAligned | src/Query/QueryBuilder.php:783-807 | The same for the joins, whose raw ON conditions inline their values. |
| Compile.GroupAligned | src/Query/QueryBuilder.php:1063-1072 | The same for GROUP BY. |
| Compile.OrderAligned | src/Query/QueryBuilder.php:812-825 | The same for ORDER BY. |
| Compile.LimitFrag | src/Query/QueryBuilder.php:830-841 | The LIMIT fragment binds nothing. It is empty exactly when there is no limit, so an offset alone is dropped. |
| Compile.KeepTruthySpec | src/Query/QueryBuilder.php:864 | `array_filter` keeps a fragment exactly when it is in the list and its text is neither empty nor `"0"`. It distributes over concatenation and so keeps the order. |
| Compile.ToSqlOkIff | src/Query/QueryBuilder.php:847-865 | `toSql` throws "Missing FROM statement" on an empty from-list. It succeeds exactly when there is a source and both predicate lists are well formed. |
| Compile.RenderValueOrder | src/Query/QueryBuilder.php:853-862 | The values appended by `toSql` come in clause order: SELECT, FROM, JOIN, WHERE, GROUP BY, HAVING, ORDER BY. |
| Compile.ToSqlAligned | src/Query/QueryBuilder.php:847-865 | The SQL is the trimmed, space-joined text of the non-empty fragments. Its placeholders and raw fragments align with the appended values. |
| Compile.ToSqlIgnoresValues | src/Query/QueryBuilder.php:847-865 | The SQL text does not depend on the values the builder already holds. Those values stay as a prefix of the value list. |
| Compile.SecondToSqlDuplicates | src/Query/QueryBuilder.php:847-865 | A second `toSql` yields the same text, with the rendered values appended a second time. |
| Compile.SecondFetchMismatch | src/Query/QueryBuilder.php:847-865 | Starting from an empty list, the second compilation carries twice as many values as the text has placeholders. |
| Compile.RepeatedCompileStable | src/Query/QueryBuilder.php:847-865 | With the value list treated as an input, any number of fetches compiles to the same statement. |
| Compile.CorrectedFetchAligned | src/Query/QueryBuilder.php:847-865 | Starting from an empty list, every corrected fetch binds exactly the values its placeholders and raw fragments stand for, in order, as many as the first fetch. |
| Compile.AggregateSelect | src/Query/QueryBuilder.php:1166-1173 | An aggregate sets limit 1 and selects `FUNC(quoted field)` as one raw field. The field's raw values go to the value list. |
| Compile.CountStar | src/Query/QueryBuilder.php:1179-1182 | `count()` selects `COUNT(*)`. |
| WriteProps.UpdateOkIff | src/Query/QueryBuilder.php:872-905 | `update` throws on a missing table, then on empty data. Otherwise it succeeds exactly when the where-list renders. |
| WriteProps.UpdateOkValues | src/Query/QueryBuilder.php:872-905 | UPDATE binds the SET values first, then the table's raw values, then the WHERE values. Raw SET entries inline their own values. |
| WriteProps.UpdateAligned | src/Query/QueryBuilder.php:872-905 | The corrected UPDATE text is the trimmed fragment, and its placeholders align with its values for any table: the table's raw values, the SET values, then the WHERE values. |
| WriteProps.UpdateCorrectedAgrees | src/Query/QueryBuilder.php:872-905 | The corrected `update` fails exactly when the original does, with the same error, and has the same text. For a plain table it is the original. |
| WriteProps.UpdateRawMisaligned | src/Query/QueryBuilder.php:872-905 | As written, a raw table `t_?` binding 1 with SET `a = 2` binds `[2, 1]`, while its text calls for `[1, 2]`. |
| WriteProps.InsertOkIff | src/Query/QueryBuilder.php:912-940 | `insert` throws on a missing table, then on empty data, and otherwise succeeds. |
| WriteProps.InsertShape | src/Query/QueryBuilder.php:912-940 | The corrected INSERT lists the quoted columns and one `?` per entry in data order. It binds the table's raw values, then the data values in that order. |
| WriteProps.InsertAligned | src/Query/QueryBuilder.php:912-940 | The corrected INSERT has exactly one placeholder per data entry, inlines only the table's raw values, and its values align with its text. |
| WriteProps.InsertCorrectedAgrees | src/Query/QueryBuilder.php:912-940 | The corrected `insert` fails exactly when the original does, with the same error, and has the same text. For a plain table it is the original. |
| WriteProps.InsertRawMisaligned | src/Query/QueryBuilder.php:912-940 | As written, a raw table `t_?` binding 1 with data `a = 2` binds `[2, 1]`, while its text calls for `[1, 2]`. |
| WriteProps.DeleteOkIff | src/Query/QueryBuilder.php:947-963 | `delete` throws on a missing table, and otherwise succeeds exactly when the where-list renders. |
| WriteProps.DeleteAligned | src/Query/QueryBuilder.php:947-963 | The DELETE text is the trimmed fragment, and its placeholders align with its values. |
| WriteProps.DeleteEverything | src/Query/QueryBuilder.php:947-963 | Without predicates, DELETE is `DELETE FROM` the quoted table and binds nothing. |
| QuoteValue.StepsAreEscape | src/Query/QueryBuilder.php:1599-1610 | The seven sequential `str_replace` passes equal one per-character escape, because a backslash is replaced first. |
| QuoteValue.EscapeRoundTrip | src/Query/QueryBuilder.php:1599-1610 | The escape is undone by reading each backslash pair back, so no two strings escape alike. |
| QuoteValue.EscapeLength | src/Query/QueryBuilder.php:1599-1610 | Escaping never shortens a string. It keeps the length exactly when no special character occurs. |
| QuoteValue.QuoteShape | src/Query/QueryBuilder.php:1599-1610 | A string becomes its escape, which is never shorter. A list keeps its length and each element is quoted in place. Other values are returned unchanged. |
| History.EntryRoundTrip | src/Query/QueryBuilder.php:1264 | A history entry gives back its SQL and its values, and an entry is rebuilt from them, because only a non-empty value list is stored. |
| History.Put | src/Query/QueryBuilder.php:1278-1285 | `putQueryHistory` always ends the log with the new entry. |
| History.PutAllSuffix | src/Query/QueryBuilder.php:1278-1285 | After any sequence of insertions the log is a suffix of everything ever inserted. |
| History.PutAllBound | src/Query/QueryBuilder.php:1278-1285 | When every put uses the same `historyMax`, the log never exceeds `historyMax + 1` entries. |
| History.PutAllReaches | src/Query/QueryBuilder.php:1278-1285 | When every put uses the same `historyMax`, the log grows to exactly `min(n, historyMax + 1)` entries. |
| History.SharedLogMixedBounds | src/Query/QueryBuilder.php:1278-1285 | The log is shared: after eleven statements from builders with the default bound 10, a model's builder (bound 5) puts and sees eleven entries, more than its own `historyMax + 1`. |
| History.ElevenKept | src/Query/QueryBuilder.php:1281 | With the default bound 10, eleven queries are all kept. |
| History.PutBoundedSpec | src/Query/QueryBuilder.php:1278-1285 | The corrected insertion keeps at most `historyMax` entries, ends with the new one, and is a suffix of all insertions. |
| History.PutBoundedAgrees | src/Query/QueryBuilder.php:1278-1285 | Below the bound, the corrected insertion is the original. |
| History.PutAllBoundedLength | src/Query/QueryBuilder.php:1278-1285 | Repeated corrected insertions never exceed `historyMax`. |
| History.PutAllBoundedSuffix | src/Query/QueryBuilder.php:1278-1285 | Repeated corrected insertions keep a suffix of all insertions. |
| Chunking.Chunk | src/Query/QueryBuilder.php:1341-1367 | `chunk` throws "Table name is not specified" first, then "Invalid $callback argument", then `table()`'s "must be a string". A negative size makes the first page query `LIMIT 0,-n`, which the database refuses. Otherwise the callback receives exactly the batches of the table, and none for a size of 0. |
| Chunking.FetchAll | src/Query/QueryBuilder.php:1353-1366 | The fetch loop (offset 0, size, 2·size, … until an empty page) collects exactly the batches. |
| Chunking.BatchesPages | src/Query/QueryBuilder.php:1353-1366 | Batch `i` is the page at offset `i·size`, and the page after the last batch is empty. |
| Chunking.BatchesShape | src/Query/QueryBuilder.php:1358-1366 | Every batch is non-empty and at most `size` long. All but the last are full. |
| Chunking.BatchesConcat | src/Query/QueryBuilder.php:1341-1367 | The batches, concatenated, are the table: every row is visited once, in order. |
| Chunking.BatchesCount | src/Query/QueryBuilder.php:1341-1367 | For `size > 0` the callback runs `ceil(n / size)` times. |
| Chunking.PageQuerySql | src/Query/QueryBuilder.php:1355 | Each page query is `SELECT * FROM` the quoted table `LIMIT offset,size`, with no values. |
| Chunking.PageQueryForgets | src/Query/QueryBuilder.php:1355 | Each page query goes through `table()`, so earlier where/order/select state is discarded. |
| Chunking.EachAsWrittenIndex | src/Query/QueryBuilder.php:1375-1384 | `each` as written passes each row its index within its batch (`p mod size`), because the closure captures `$i` by value. |
| Chunking.EachRestarts | src/Query/QueryBuilder.php:1377-1383 | Two rows in batches of one both receive index 0. |
| Chunking.EachIndex | src/Query/QueryBuilder.php:1375-1384 | The corrected `each` passes every row its position in the whole table. |
| Chunking.EachAgreesOnFirstBatch | src/Query/QueryBuilder.php:1375-1384 | The two agree when the table fits in one batch. |
| Attributes.SetAttribute | src/Model.php:134-141 | `setAttribute` overwrites an existing key in place or appends a new one. It changes nothing but the attributes. |
| Attributes.GetAttribute | src/Model.php:143-167 | A falsy key reads null. A missing key reads what the model method of that name returns, or null when there is none. |
| Attributes.GetAfterSet | src/Model.php:134-167 | Reading a key just set gives the value back: through JSON for a cast key, as an atom date for a timestamp, unchanged otherwise. |
| Attributes.GetOtherAfterSet | src/Model.php:134-167 | Setting one key does not change what another key reads. |
| Attributes.FillableFromArray | src/Model.php:108-115 | The fillable entries are the given ones whose key is fillable. Every key is fillable when the list is empty or the model is unguarded. |
| Attributes.FillableKey | src/Model.php:108-115 | A key survives the filter exactly when it is given and fillable, and keeps its value. |
| Attributes.SetAttributesAssigns | src/Model.php:117-124 | `fill` assigns the filtered entries one after another, each as `setAttribute` stores it. |
| Attributes.FillAssigns | src/Model.php:117-124 | After `fill`, a key is present exactly when it was before or was given and fillable. Given fillable keys hold their stored value, others are unchanged, and nothing but the attributes changes. |
| Attributes.ForceFillAssigns | src/Model.php:126-132 | `forceFill` assigns every given key, whatever the fillable list says, and keeps every other attribute. The guard is on again afterwards, so a later `fill` skips a key a non-empty fillable list does not name. |
| Attributes.RawReads | src/Model.php:362-369 | After `setRawAttributes`, a plain key reads back the value given. Without sync, it is dirty exactly when it is not equivalent to the earlier original. |
| Attributes.GetDirty | src/Model.php:222-231 | `getDirty` is exactly the attributes not equivalent to the original. |
| Attributes.DirtyKey | src/Model.php:222-256 | A key is dirty exactly when it is an attribute whose value is not equivalent to the original. |
| Attributes.IsDirtyIff | src/Model.php:204-220 | `isDirty()` is true exactly when some attribute changed. With names, it is true exactly when some named key changed. |
| Attributes.IsDirtyOne | src/Model.php:204-220 | `isDirty(key)` is true exactly when that key changed. |
| Attributes.SyncClean | src/Model.php:198-202 | After `syncOriginal`, `getDirty` is empty and `isDirty` is false for any names. |
| Attributes.RawSyncClean | src/Model.php:362-369 | The same after `setRawAttributes` with sync. |
| Attributes.AbsentIsDirty | src/Model.php:240-242 | A key missing from the original is dirty. |
| Attributes.NullIsDirty | src/Model.php:246-252 | A null that is not identical to the original is dirty. |
| Attributes.NumericIsClean | src/Model.php:254-255 | Numeric current and original values with equal string forms are not dirty. |
| Attributes.ToArray | src/Model.php:420-444 | `toArray`'s keys are the attribute keys minus the hidden ones, in order. |
| Attributes.ToArrayKeeps | src/Model.php:420-444 | A visible attribute that is neither cast nor a timestamp is serialised as stored. |
| Attributes.DecodeCasts | src/Model.php:424-431 | Decoding casts rewrites only keys already present. |
| Attributes.FormatStamp | src/Model.php:433-439 | Formatting a timestamp rewrites only a key already present. |
| Attributes.TouchUpdatedEffect | src/Model.php:460-462 | `updated_at` is set to the clock unless already dirty. `created_at` and its dirtiness are untouched. |
| Attributes.TouchCreatedEffect | src/Model.php:464-466 | `created_at` is set only for a model not yet stored whose `created_at` is not dirty. |
| Attributes.UpdatedAtEffect | src/Model.php:456-467 | After `updateTimestamps`, `updated_at` holds the clock unless it was dirty. Otherwise it is unchanged. |
| Attributes.CreatedAtEffect | src/Model.php:456-467 | After `updateTimestamps`, `created_at` holds the clock exactly for a new model whose `created_at` was not dirty. |
| Attributes.SaveKeyAfterChange | src/Model.php:328-335 | Once synced, the save key is the original primary key, even after the key attribute is changed. |
| Attributes.SaveKeyUnsynced | src/Model.php:328-335 | Without an original primary key, the save key is the current one. |
| ModelCollection.DictionaryShape | src/Collection.php:345-356 | The dictionary holds each key once, in order of first occurrence, with the last item of that key. |
| ModelCollection.AddDictionary | src/Collection.php:48-53 | After `add`, the dictionary holds the new item under its key, and every other key holds what it held. |
| ModelCollection.DiffIntersectKeys | src/Collection.php:83-88 | The keys left by `diff` are the collection's keys the argument lacks; those left by `intersect` are the ones it has. |
| ModelCollection.AddKeys | src/Collection.php:48-88 | Adding an item adds its key at the end of the keys. |
| ModelCollection.MergeShape | src/Collection.php:96-105 | A merge holds the union of both key sets. Existing keys keep their place and new keys follow in order. An argument item wins on a shared key. |
| ModelCollection.DiffSpec | src/Collection.php:149-162 | `diff` keeps, in order, exactly the items whose key the argument lacks. |
| ModelCollection.IntersectSpec | src/Collection.php:170-183 | `intersect` keeps, in order, exactly the items whose key the argument has. |
| ModelCollection.DiffIntersectPartition | src/Collection.php:149-183 | `diff` and `intersect` with the same argument split the collection: every item lands in exactly one. |
| ModelCollection.UniqueShape | src/Collection.php:190-197 | `unique()` yields pairwise distinct keys, one per key of the collection, each with the last item of that key. |
| OrderedMaps.SetAllGet | src/Collection.php:351-353 | After assigning a sequence of entries, a key reads its last assignment, or its old value if it was not assigned. |
| OrderedMaps.SelectSplits | src/Model.php:441 | Keeping and dropping the same key set partitions a map (`array_intersect_key`/`array_diff_key`). |

## Left out

- Execution through the connection pool and PDO: `query`, `fetchAll`, `get`, `first`, `lists`, row counts, `lastInsertId` and the schema helpers. In the chunk loop a page fetch is a slice of the row sequence. A fetch is otherwise the compilation the model stops at.
- `bindValues`, events, `QueryExecuted` and timing: these are foreign PDO binding and fire-and-forget dispatch with floating-point time.
- Transactions: pure delegation to the connection.
- `toInterpolatedSql`: regex substitution for debugging.
- `__call`'s magic `whereX` dispatch.
- `Helper::flattenArray` is not part of this model. It is given a plain definition (`Values.Flatten`: the non-list leaves in order), and `from`/`select` receive lists that are already flat.
- The `(int)` casts in `limit`/`offset` and the non-numeric arguments they would coerce: the model takes integers.
- `count()` applied to a string (a TypeError in PHP 8): the model counts any non-list value as one entry.
- A closure passed to `where`/`having` is modelled by the predicate list it builds on a fresh builder. The source creates that builder with `new static()`, without the constructor's required connection argument. The model assumes the sub-builder exists.
- `Model`'s queries: `save`, `create`, `delete`, `restore` and `find`. `getKeyForSaveQuery` and `updateTimestamps`, which `save` calls, are modelled. The clock is a parameter.
- JSON encoding and decoding, Carbon parsing, `is_numeric` and the string cast are fields of the `Runtime` parameter. `toArray`'s conversion of a decoded `Arrayable` is folded into the decoding field.
- PHP's key normalisation (the string `"1"` and the integer `1` are one array key): keys are modelled as strings.
- `isDirty` called with several separate string arguments: the model takes them as one list, which `func_get_args()` produces.
- `ArrayAccess`, the magic accessors, hidden-list editing and the other getters and setters.
- `Collection` methods that defer to the framework's base collection (`find`, `contains`, `map`, `fresh`, `only`, `except`, `columns`, `pluck`, `zip`, …) and `unique` with a key.
- `src/Builder.php`, `src/Relation.php`, `src/ModelLite.php` and `src/Query.php`: call forwarding, request access, stack inspection and factories.
- Attributes.GetAttribute: for a key with no attribute the source calls any public method of that name (`method_exists`), Model's own included. The model reads that call as a side-effect-free lookup that leaves the model unchanged. What calling `refresh`, `save`, `fill` and the like does through this path is not modelled: clearing the attributes, writing to the database, or throwing on a missing argument.
- History.PutAllBound: the history is one static array shared by every builder, while model builders bound it by 5 and plain builders by 10. The bound lemmas assume one `historyMax` for the whole life of the log. `History.SharedLogMixedBounds` shows what mixing bounds gives, and the interleavings of builders in general are not modelled.
- Values.Value: floats, objects and resources are not modelled. The timestamp clock (a Carbon instance in the source) is an abstract `Value` parameter, and `originalIsEquivalent`'s `===` is modelled as structural equality. For two distinct objects with the same contents PHP reports dirty and the model reports clean. Floats on the `is_numeric`/string-compare path reach the model only through the abstract `Runtime` functions.
- Chunking.Chunk: a negative chunk size renders `LIMIT 0,-n`. MySQL refuses it, and the model returns `LimitRejected` for it. SQLite instead reads a negative LIMIT as no limit, so the loop would never end; that database-specific path is not modelled.
- Compile.AfterToSql: when `toSql` throws, the model leaves the value list as it was. The source has by then appended the values of the fragments rendered before the failing predicate: SELECT, FROM and the joins, the earlier WHERE predicates, and for a HAVING failure also the WHERE and GROUP BY values. A caller that catches the exception sees that partial list; the model does not state it.
- Attributes.ToArray: states the key set of the result, and the values of visible keys that are neither cast nor timestamps (Attributes.ToArrayKeeps). The values of cast and timestamp keys are stated only through the `Runtime` fields.

## Findings

| source | as written | input that shows it | evidently intended | confidence | as-written member | corrected member |
|---|---|---|---|---|---|---|
| src/Query/QueryBuilder.php:847-865 | Rendering appends the bound values to the builder's value list, and `toSql` never clears that list. | Compile a builder with one `where('a', 1)` twice: the second statement has one `?` and two values. | Each compilation binds the values of its own statement only. | not executed | Compile.SecondFetchMismatch | Compile.CorrectedFetchAligned |
| src/Query/QueryBuilder.php:1375-1384 | The closure captures `$i` by value (`use ($callback, $i)`), so the index restarts at 0 in every batch. | Two rows with chunk size 1: both are passed index 0. | The index counts rows across the whole table. | not executed | Chunking.EachRestarts | Chunking.EachIndex |
| src/Query/QueryBuilder.php:1278-1285 | The oldest entry is shifted only when the log already holds more than `historyMax` entries, so it grows to `historyMax + 1`. | The default bound 10 and eleven queries: all eleven are kept. | At most `historyMax` entries are kept. | not executed | History.ElevenKept | History.PutBoundedSpec |
| src/Query/QueryBuilder.php:872-905 | `update` appends the SET values in its loop, and only afterwards quotes the table, whose raw values go after them. | A raw table `t_?` binding 1 and SET `a = 2`: the text needs `[1, 2]`, the list is `[2, 1]`. | The values follow the text: the table's, the SET values, then the WHERE values. | not executed | WriteProps.UpdateRawMisaligned | WriteProps.UpdateAligned |
| src/Query/QueryBuilder.php:912-940 | `insert` appends the data values in its loop, and only afterwards quotes the table, whose raw values go after them. | A raw table `t_?` binding 1 and data `a = 2`: the text needs `[1, 2]`, the list is `[2, 1]`. | The table's raw values come first, as in the text. | not executed | WriteProps.InsertRawMisaligned | WriteProps.InsertAligned |

=== FILE: attributes.dfy ===
/** The attribute map of a model and its dirty tracking (src/Model.php):
    `attributes` holds the current values, `original` the values as last
    synchronised, and a key is dirty when its current value is not
    equivalent to its original one. */
module Attributes {
  import opened Values
  import opened Results
  import opened OrderedMaps

  /** The library calls the model uses but does not define: `json_encode`,
      `json_decode` (an `Arrayable` result already turned into an array),
      `Carbon::parse($v)->toAtomString()`, `is_numeric`, the `(string)`
      cast, and the result of calling a model method by name (`None` when
      the model has no method of that name), taken to be side-effect free. */
  datatype Runtime = Runtime(
    jsonEncode: Value -> Value,
    jsonDecode: Value -> Value,
    atom: Value -> Value,
    isNumeric: Value -> bool,
    toStr: Value -> string,
    relation: string -> Option<Value>)

  /** The per-instance state the attribute operations touch. `casts` is
      the `$json` list: the keys stored JSON-encoded; `persisted` is the
      public `$exists` flag. */
  datatype Model = Model(
    attributes: seq<(string, Value)>,
    original: seq<(string, Value)>,
    fillable: seq<string>,
    hidden: seq<string>,
    casts: seq<string>,
    primaryKey: string,
    persisted: bool)

  /** Both maps are PHP arrays: every key once. */
  predicate Wf(m: Model)
  {
    Valid(m.attributes) && Valid(m.original)
  }

  const CreatedAt: string := "created_at"
  const UpdatedAt: string := "updated_at"

  // ---------------------------------------------------------------------
  // Writing attributes

  /** What `setAttribute` stores for `value`: its JSON encoding for a cast
      key, the value itself otherwise. */
  function Stored(rt: Runtime, m: Model, key: string, value: Value): Value
  {
    if key in m.casts then rt.jsonEncode(value) else value
  }

  /** `setAttribute`. */
  function SetAttribute(rt: Runtime, m: Model, key: string, value: Value): (r: Model)
    ensures r.(attributes := m.attributes) == m
    ensures Keys(r.attributes) == if key in Keys(m.attributes) then Keys(m.attributes) else Keys(m.attributes) + [key]
    ensures Wf(m) ==> Wf(r)
  {
    SetKeys(m.attributes, key, Stored(rt, m, key, value));
    m.(attributes := Set(m.attributes, key, Stored(rt, m, key, value)))
  }

  /** `fillableFromArray`: a guarded model with a non-empty `fillable`
      list keeps only the listed keys; otherwise everything passes. */
  function FillableFromArray(m: Model, unguarded: bool, attrs: seq<(string, Value)>): (r: seq<(string, Value)>)
    ensures forall e :: e in r <==> e in attrs && (|m.fillable| == 0 || unguarded || e.0 in m.fillable)
    ensures Valid(attrs) ==> Valid(r)
  {
    if |m.fillable| > 0 && !unguarded then
      SelectValidIf(attrs, m.fillable);
      Select(attrs, m.fillable, true)
    else attrs
  }

  lemma SelectValidIf(attrs: seq<(string, Value)>, keys: seq<string>)
    ensures Valid(attrs) ==> Valid(Select(attrs, keys, true))
  {
    if Valid(attrs) {
      SelectValid(attrs, keys, true);
    }
  }

  /** The `setAttribute` loop over a list of entries, in order. */
  function SetAttributes(rt: Runtime, m: Model, es: seq<(string, Value)>): Model
    decreases |es|
  {
    if |es| == 0 then m else SetAttributes(rt, SetAttribute(rt, m, es[0].0, es[0].1), es[1..])
  }

  /** `fill`, with the class-wide `static::$unguarded` flag as a parameter. */
  function Fill(rt: Runtime, m: Model, unguarded: bool, attrs: seq<(string, Value)>): Model
  {
    SetAttributes(rt, m, FillableFromArray(m, unguarded, attrs))
  }

  /** `forceFill`: fill unguarded, then reset the flag; the second component
      is the flag's value afterwards. */
  function ForceFill(rt: Runtime, m: Model, attrs: seq<(string, Value)>): (r: (Model, bool))
    ensures !r.1
  {
    (Fill(rt, m, true, attrs), false)
  }

  /** `setRawAttributes`: replace the attributes wholesale, and synchronise
      the original when asked. */
  function SetRawAttributes(m: Model, attrs: seq<(string, Value)>, sync: bool): (r: Model)
    ensures r.attributes == attrs
    ensures r.original == if sync then attrs else m.original
  {
    var n := m.(attributes := attrs);
    if sync then SyncOriginal(n) else n
  }

  /** After `setRawAttributes`, a plain key reads back exactly the value
      given; without sync, it is dirty exactly when it differs from the
      earlier original. */
  lemma RawReads(rt: Runtime, m: Model, attrs: seq<(string, Value)>, sync: bool, k: string)
    requires Valid(attrs) && !Falsy(k) && k in Keys(attrs)
    requires k !in m.casts && k != CreatedAt && k != UpdatedAt
    ensures GetAttribute(rt, SetRawAttributes(m, attrs, sync), k) == Get(attrs, k)
    ensures Valid(m.original) && !sync ==>
      (k in Keys(GetDirty(rt, SetRawAttributes(m, attrs, sync))) <==>
       !OriginalIsEquivalent(rt, m, k, Get(attrs, k)))
  {
    var r := SetRawAttributes(m, attrs, sync);
    if Valid(m.original) && !sync {
      assert Wf(r);
      DirtyKey(rt, r, k);
      assert r.original == m.original;
    }
  }

  /** `syncOriginal`. */
  function SyncOriginal(m: Model): Model
  {
    m.(original := m.attributes)
  }

  // ---------------------------------------------------------------------
  // Reading attributes

  /** PHP's `! $key` for a string: true for `""` and `"0"`. */
  predicate Falsy(key: string)
  {
    key == "" || key == "0"
  }

  /** `getAttribute`: nothing for a falsy key; a stored key is decoded when
      cast, rendered as an atom date when it is a timestamp and returned
      as it is otherwise; an unknown key calls the model's method of that
      name when there is one (read here as a pure lookup that leaves the
      model as it is), or gives nothing. */
  function GetAttribute(rt: Runtime, m: Model, key: string): (r: Value)
    ensures Falsy(key) ==> r == Null
    ensures !Falsy(key) && key !in Keys(m.attributes) ==> r == rt.relation(key).GetOr(Null)
  {
    if Falsy(key) then Null
    else if key in Keys(m.attributes) then
      var v := Get(m.attributes, key);
      if key in m.casts then rt.jsonDecode(v)
      else if key == CreatedAt || key == UpdatedAt then rt.atom(v)
      else v
    else rt.relation(key).GetOr(Null)
  }

  /** What was set reads back: the value itself for a plain key, its JSON
      round trip for a cast key, its atom date for a timestamp. */
  lemma GetAfterSet(rt: Runtime, m: Model, key: string, value: Value)
    requires Wf(m) && !Falsy(key)
    ensures GetAttribute(rt, SetAttribute(rt, m, key, value), key) ==
      if key in m.casts then rt.jsonDecode(rt.jsonEncode(value))
      else if key == CreatedAt || key == UpdatedAt then rt.atom(value)
      else value
  {
    GetSet(m.attributes, key, Stored(rt, m, key, value), key);
  }

  /** Setting one key leaves every other key's reading alone. */
  lemma GetOtherAfterSet(rt: Runtime, m: Model, key: string, value: Value, other: string)
    requires Wf(m) && other != key
    ensures GetAttribute(rt, SetAttribute(rt, m, key, value), other) == GetAttribute(rt, m, other)
  {
    var n := SetAttribute(rt, m, key, value);
    if other in Keys(m.attributes) {
      GetSet(m.attributes, key, Stored(rt, m, key, value), other);
      ReadsSame(rt, n, m, other);
    } else {
      assert other !in Keys(n.attributes);
    }
  }

  /** Two models with the same casts that hold the same value for `k` read
      it the same way. */
  lemma ReadsSame(rt: Runtime, n: Model, m: Model, k: string)
    requires n.casts == m.casts
    requires k in Keys(n.attributes) && k in Keys(m.attributes)
    requires Get(n.attributes, k) == Get(m.attributes, k)
    ensures GetAttribute(rt, n, k) == GetAttribute(rt, m, k)
  {
  }

  // ---------------------------------------------------------------------
  // Dirty tracking

  /** `originalIsEquivalent`: a key missing from the original is never
      equivalent; an identical value is; a null that is not identical is
      not; otherwise both must be numeric with equal string forms. */
  predicate OriginalIsEquivalent(rt: Runtime, m: Model, key: string, current: Value)
  {
    if key !in Keys(m.original) then false
    else
      var original := Get(m.original, key);
      if current == original then true
      else if current.Null? then false
      else rt.isNumeric(current) && rt.isNumeric(original) && rt.toStr(current) == rt.toStr(original)
  }

  /** The entries of `es` whose value is not equivalent to the original. */
  function DirtyEntries(rt: Runtime, m: Model, es: seq<(string, Value)>): (r: seq<(string, Value)>)
    ensures forall e :: e in r <==> e in es && !OriginalIsEquivalent(rt, m, e.0, e.1)
    decreases |es|
  {
    if |es| == 0 then []
    else
      var rest := DirtyEntries(rt, m, es[1..]);
      if OriginalIsEquivalent(rt, m, es[0].0, es[0].1) then rest else [es[0]] + rest
  }

  /** `getDirty`. */
  function GetDirty(rt: Runtime, m: Model): (r: seq<(string, Value)>)
    ensures forall e :: e in r <==> e in m.attributes && !OriginalIsEquivalent(rt, m, e.0, e.1)
  {
    DirtyEntries(rt, m, m.attributes)
  }

  /** A key is dirty exactly when it is an attribute whose value is not
      equivalent to the original. */
  lemma DirtyKey(rt: Runtime, m: Model, k: string)
    requires Wf(m)
    ensures k in Keys(GetDirty(rt, m)) <==> k in Keys(m.attributes) && !OriginalIsEquivalent(rt, m, k, Get(m.attributes, k))
  {
    var d := GetDirty(rt, m);
    if k in Keys(d) {
      var i :| 0 <= i < |d| && Keys(d)[i] == k;
      assert d[i] in m.attributes;
      GetEntry(m.attributes, k, d[i].1);
    }
    if k in Keys(m.attributes) && !OriginalIsEquivalent(rt, m, k, Get(m.attributes, k)) {
      var v := Get(m.attributes, k);
      GetEntry(m.attributes, k, v);
      assert (k, v) in d;
      KeyOfEntry(d, (k, v));
    }
  }

  /** `isDirty`: with no names, whether anything is dirty; with names,
      whether one of them is a dirty key (stopping at the first). */
  function IsDirty(rt: Runtime, m: Model, names: seq<string>): bool
  {
    var dirty := GetDirty(rt, m);
    if |names| == 0 then |dirty| > 0 else AnyIn(names, Keys(dirty))
  }

  /** The `foreach ... return true` scan. */
  function AnyIn(names: seq<string>, ks: seq<string>): (r: bool)
    ensures r <==> exists i :: 0 <= i < |names| && names[i] in ks
    decreases |names|
  {
    if |names| == 0 then false
    else if names[0] in ks then true
    else
      assert forall i :: 1 <= i < |names| ==> names[i] == names[1..][i - 1];
      AnyIn(names[1..], ks)
  }

  /** The attribute `k` holds a value not equivalent to its original. */
  predicate Changed(rt: Runtime, m: Model, k: string)
    requires Valid(m.attributes)
  {
    k in Keys(m.attributes) && !OriginalIsEquivalent(rt, m, k, Get(m.attributes, k))
  }

  /** `isDirty()` is true iff some attribute changed; `isDirty(names)` iff
      one of the named attributes changed. */
  lemma IsDirtyIff(rt: Runtime, m: Model, names: seq<string>)
    requires Wf(m)
    ensures |names| == 0 ==> (IsDirty(rt, m, names) <==> exists k :: k in Keys(m.attributes) && Changed(rt, m, k))
    ensures |names| > 0 ==> (IsDirty(rt, m, names) <==> exists i :: 0 <= i < |names| && Changed(rt, m, names[i]))
  {
    var d := GetDirty(rt, m);
    forall k
      ensures k in Keys(d) <==> Changed(rt, m, k)
    {
      DirtyKey(rt, m, k);
    }
    if |names| == 0 && |d| > 0 {
      assert d[0] in d;
      assert Keys(d)[0] in Keys(d);
    }
    if |names| == 0 && (exists k :: k in Keys(m.attributes) && Changed(rt, m, k)) {
      var k :| k in Keys(m.attributes) && Changed(rt, m, k);
      assert k in Keys(d);
    }
  }

  /** After `syncOriginal` nothing is dirty. */
  lemma SyncClean(rt: Runtime, m: Model, names: seq<string>)
    requires Valid(m.attributes)
    ensures GetDirty(rt, SyncOriginal(m)) == []
    ensures !IsDirty(rt, SyncOriginal(m), names)
  {
    var s := SyncOriginal(m);
    var d := GetDirty(rt, s);
    forall e | e in m.attributes
      ensures OriginalIsEquivalent(rt, s, e.0, e.1)
    {
      GetEntry(m.attributes, e.0, e.1);
    }
    NothingDirty(rt, s, m.attributes);
  }

  /** ... and the same after `setRawAttributes` with synchronisation. */
  lemma RawSyncClean(rt: Runtime, m: Model, attrs: seq<(string, Value)>, names: seq<string>)
    requires Valid(attrs)
    ensures GetDirty(rt, SetRawAttributes(m, attrs, true)) == []
    ensures !IsDirty(rt, SetRawAttributes(m, attrs, true), names)
  {
    SyncClean(rt, m.(attributes := attrs), names);
  }

  /** An attribute the original does not have is dirty, whatever its value. */
  lemma AbsentIsDirty(rt: Runtime, m: Model, k: string)
    requires Wf(m) && k in Keys(m.attributes) && k !in Keys(m.original)
    ensures k in Keys(GetDirty(rt, m))
  {
    DirtyKey(rt, m, k);
  }

  /** A null that replaced a non-null original is dirty. */
  lemma NullIsDirty(rt: Runtime, m: Model, k: string)
    requires Wf(m) && k in Keys(m.attributes) && Get(m.attributes, k) == Null
    requires k in Keys(m.original) && Get(m.original, k) != Null
    ensures k in Keys(GetDirty(rt, m))
  {
    DirtyKey(rt, m, k);
  }

  /** Numeric values with the same string form, such as `1` and `"1"`, are
      not dirty (`is_numeric(null)` is false, so the current value is not
      null). */
  lemma NumericIsClean(rt: Runtime, m: Model, k: string)
    requires Wf(m) && k in Keys(m.attributes) && k in Keys(m.original)
    requires Get(m.attributes, k) != Null
    requires rt.isNumeric(Get(m.attributes, k)) && rt.isNumeric(Get(m.original, k))
    requires rt.toStr(Get(m.attributes, k)) == rt.toStr(Get(m.original, k))
    ensures k !in Keys(GetDirty(rt, m))
  {
    DirtyKey(rt, m, k);
  }

  // ---------------------------------------------------------------------
  // Filling

  /** The entries as `setAttribute` stores them. */
  function Encoded(rt: Runtime, m: Model, es: seq<(string, Value)>): (r: seq<(string, Value)>)
    ensures Keys(r) == Keys(es)
    ensures forall i :: 0 <= i < |es| ==> r[i] == (es[i].0, Stored(rt, m, es[i].0, es[i].1))
    decreases |es|
  {
    if |es| == 0 then [] else [(es[0].0, Stored(rt, m, es[0].0, es[0].1))] + Encoded(rt, m, es[1..])
  }

  /** The `setAttribute` loop is a run of assignments of the stored forms. */
  lemma {:induction false} SetAttributesAssigns(rt: Runtime, m: Model, es: seq<(string, Value)>)
    ensures SetAttributes(rt, m, es) == m.(attributes := SetAll(m.attributes, Encoded(rt, m, es)))
    decreases |es|
  {
    if |es| > 0 {
      var m1 := SetAttribute(rt, m, es[0].0, es[0].1);
      var enc := Encoded(rt, m, es);
      SetAttributesAssigns(rt, m1, es[1..]);
      assert m1.casts == m.casts;
      EncodedSameCasts(rt, m1, m, es[1..]);
      assert enc[0] == (es[0].0, Stored(rt, m, es[0].0, es[0].1)) && enc[1..] == Encoded(rt, m, es[1..]);
      assert SetAll(m.attributes, enc) == SetAll(m1.attributes, enc[1..]);
    }
  }

  /** The `setAttribute` loop keeps both key lists free of repeats. */
  lemma {:induction false} SetAttributesWf(rt: Runtime, m: Model, es: seq<(string, Value)>)
    requires Wf(m)
    ensures Wf(SetAttributes(rt, m, es))
    decreases |es|
  {
    if |es| > 0 {
      SetAttributesWf(rt, SetAttribute(rt, m, es[0].0, es[0].1), es[1..]);
    }
  }

  /** The stored forms depend on the model only through its casts. */
  lemma EncodedSameCasts(rt: Runtime, n: Model, m: Model, es: seq<(string, Value)>)
    requires n.casts == m.casts
    ensures Encoded(rt, n, es) == Encoded(rt, m, es)
  {
    assert forall i :: 0 <= i < |es| ==> Stored(rt, n, es[i].0, es[i].1) == Stored(rt, m, es[i].0, es[i].1);
  }

  /** The entries `fill` lets through. */
  predicate Fillable(m: Model, unguarded: bool, k: string)
  {
    |m.fillable| == 0 || unguarded || k in m.fillable
  }

  lemma FillableKey(m: Model, unguarded: bool, attrs: seq<(string, Value)>, k: string)
    requires Valid(attrs)
    ensures k in Keys(FillableFromArray(m, unguarded, attrs)) <==> k in Keys(attrs) && Fillable(m, unguarded, k)
    ensures k in Keys(attrs) && Fillable(m, unguarded, k) ==> Get(FillableFromArray(m, unguarded, attrs), k) == Get(attrs, k)
  {
    var f := FillableFromArray(m, unguarded, attrs);
    if k in Keys(f) {
      var v := Get(f, k);
      KeyOfEntry(attrs, (k, v));
    }
    if k in Keys(attrs) && Fillable(m, unguarded, k) {
      var v := Get(attrs, k);
      assert (k, v) in f;
      GetEntry(f, k, v);
    }
  }

  /** `fill` assigns exactly the fillable keys of its argument (all of
      them when `fillable` is empty or the model is unguarded), each with
      its stored form; every other attribute and every other field keeps
      its value. */
  lemma FillAssigns(rt: Runtime, m: Model, unguarded: bool, attrs: seq<(string, Value)>, k: string)
    requires Wf(m) && Valid(attrs)
    ensures Fill(rt, m, unguarded, attrs).(attributes := m.attributes) == m
    ensures k in Keys(Fill(rt, m, unguarded, attrs).attributes) <==>
      k in Keys(m.attributes) || (k in Keys(attrs) && Fillable(m, unguarded, k))
    ensures k in Keys(attrs) && Fillable(m, unguarded, k) ==>
      Get(Fill(rt, m, unguarded, attrs).attributes, k) == Stored(rt, m, k, Get(attrs, k))
    ensures k in Keys(m.attributes) && !(k in Keys(attrs) && Fillable(m, unguarded, k)) ==>
      Get(Fill(rt, m, unguarded, attrs).attributes, k) == Get(m.attributes, k)
  {
    var f := FillableFromArray(m, unguarded, attrs);
    var enc := Encoded(rt, m, f);
    SetAttributesAssigns(rt, m, f);
    SetAllKeys(m.attributes, enc);
    FillableKey(m, unguarded, attrs, k);
    if k in Keys(m.attributes) || k in Keys(f) {
      SetAllGet(m.attributes, enc, k);
    }
    if k in Keys(f) {
      var v := Get(f, k);
      assert Valid(enc);
      var i :| 0 <= i < |f| && f[i] == (k, v);
      assert enc[i] == (k, Stored(rt, m, k, v));
      GetEntry(enc, k, Stored(rt, m, k, v));
      LastIsGet(enc, k);
    }
  }

  /** `forceFill` assigns every key of its argument, whatever `fillable`
      says, and keeps every other attribute; the guard is back on
      afterwards, so a later `fill` with the flag it leaves skips a key
      that a non-empty `fillable` list does not name. */
  lemma ForceFillAssigns(rt: Runtime, m: Model, attrs: seq<(string, Value)>, k: string, later: seq<(string, Value)>)
    requires Wf(m) && Valid(attrs) && Valid(later)
    ensures k in Keys(attrs) ==> k in Keys(ForceFill(rt, m, attrs).0.attributes)
    ensures k in Keys(attrs) ==> Get(ForceFill(rt, m, attrs).0.attributes, k) == Stored(rt, m, k, Get(attrs, k))
    ensures k !in Keys(attrs) ==>
      (k in Keys(ForceFill(rt, m, attrs).0.attributes) <==> k in Keys(m.attributes))
    ensures k !in Keys(attrs) && k in Keys(m.attributes) ==>
      Get(ForceFill(rt, m, attrs).0.attributes, k) == Get(m.attributes, k)
    ensures var (n, unguarded) := ForceFill(rt, m, attrs);
      |m.fillable| > 0 && k !in m.fillable && k !in Keys(n.attributes) ==>
        k !in Keys(Fill(rt, n, unguarded, later).attributes)
  {
    FillAssigns(rt, m, true, attrs, k);
    var n := ForceFill(rt, m, attrs).0;
    assert n.fillable == m.fillable;
    SetAttributesWf(rt, m, FillableFromArray(m, true, attrs));
    FillAssigns(rt, n, false, later, k);
  }

  // ---------------------------------------------------------------------
  // Serialising

  /** The cast loop of `toArray`: each cast key that is present is
      replaced by its JSON decoding. */
  function DecodeCasts(rt: Runtime, attrs: seq<(string, Value)>, casts: seq<string>): (r: seq<(string, Value)>)
    ensures Keys(r) == Keys(attrs)
    decreases |casts|
  {
    if |casts| == 0 then attrs
    else
      var c := casts[0];
      if c in Keys(attrs) then
        SetKeys(attrs, c, rt.jsonDecode(Get(attrs, c)));
        DecodeCasts(rt, Set(attrs, c, rt.jsonDecode(Get(attrs, c))), casts[1..])
      else DecodeCasts(rt, attrs, casts[1..])
  }

  /** `if (isset($attributes[$key]))` rewrite it as an atom date. */
  function FormatStamp(rt: Runtime, attrs: seq<(string, Value)>, key: string): (r: seq<(string, Value)>)
    ensures Keys(r) == Keys(attrs)
  {
    if key in Keys(attrs) && Get(attrs, key) != Null then
      SetKeys(attrs, key, rt.atom(Get(attrs, key)));
      Set(attrs, key, rt.atom(Get(attrs, key)))
    else attrs
  }

  /** `toArray`: its keys are the attribute keys minus the hidden ones, in
      their order; decoding and date formatting only rewrite values. */
  function ToArray(rt: Runtime, m: Model): (r: seq<(string, Value)>)
    ensures Keys(r) == SelectKeys(Keys(m.attributes), m.hidden, false)
  {
    var decoded := DecodeCasts(rt, m.attributes, m.casts);
    Select(FormatStamp(rt, FormatStamp(rt, decoded, CreatedAt), UpdatedAt), m.hidden, false)
  }

  lemma {:induction false} DecodeCastsOther(rt: Runtime, attrs: seq<(string, Value)>, casts: seq<string>, k: string)
    requires Valid(attrs) && k in Keys(attrs) && k !in casts
    ensures Valid(DecodeCasts(rt, attrs, casts))
    ensures Get(DecodeCasts(rt, attrs, casts), k) == Get(attrs, k)
    decreases |casts|
  {
    if |casts| > 0 {
      var c := casts[0];
      if c in Keys(attrs) {
        var next := Set(attrs, c, rt.jsonDecode(Get(attrs, c)));
        SetEntries(attrs, c, rt.jsonDecode(Get(attrs, c)));
        GetSet(attrs, c, rt.jsonDecode(Get(attrs, c)), k);
        DecodeCastsOther(rt, next, casts[1..], k);
      } else {
        DecodeCastsOther(rt, attrs, casts[1..], k);
      }
    }
  }

  lemma FormatStampOther(rt: Runtime, attrs: seq<(string, Value)>, key: string, k: string)
    requires Valid(attrs) && k in Keys(attrs) && k != key
    ensures Valid(FormatStamp(rt, attrs, key))
    ensures Get(FormatStamp(rt, attrs, key), k) == Get(attrs, k)
  {
    if key in Keys(attrs) && Get(attrs, key) != Null {
      SetEntries(attrs, key, rt.atom(Get(attrs, key)));
      GetSet(attrs, key, rt.atom(Get(attrs, key)), k);
    }
  }

  /** A visible attribute that is neither cast nor a timestamp is
      serialised as it is stored. */
  lemma ToArrayKeeps(rt: Runtime, m: Model, k: string)
    requires Wf(m) && k in Keys(m.attributes) && k !in m.hidden
    requires k !in m.casts && k != CreatedAt && k != UpdatedAt
    ensures k in Keys(ToArray(rt, m))
    ensures Get(ToArray(rt, m), k) == Get(m.attributes, k)
  {
    var decoded := DecodeCasts(rt, m.attributes, m.casts);
    DecodeCastsOther(rt, m.attributes, m.casts, k);
    var c := FormatStamp(rt, decoded, CreatedAt);
    FormatStampOther(rt, decoded, CreatedAt, k);
    var u := FormatStamp(rt, c, UpdatedAt);
    FormatStampOther(rt, c, UpdatedAt, k);
    var v := Get(m.attributes, k);
    assert (k, v) in u;
    SelectValid(u, m.hidden, false);
    GetEntry(ToArray(rt, m), k, v);
  }

  // ---------------------------------------------------------------------
  // Saving

  /** `updateTimestamps`, with the clock reading `time` as a parameter:
      `updated_at` is set unless already dirty, then `created_at` for a
      model not yet stored unless it is dirty. */
  function UpdateTimestamps(rt: Runtime, m: Model, time: Value): Model
  {
    TouchCreated(rt, TouchUpdated(rt, m, time), time)
  }

  /** The first step: `if (! $this->isDirty('updated_at'))`. */
  function TouchUpdated(rt: Runtime, m: Model, time: Value): Model
  {
    if !IsDirty(rt, m, [UpdatedAt]) then SetAttribute(rt, m, UpdatedAt, time) else m
  }

  /** The second step: `if (! $this->exists and ! $this->isDirty('created_at'))`. */
  function TouchCreated(rt: Runtime, m: Model, time: Value): Model
  {
    if !m.persisted && !IsDirty(rt, m, [CreatedAt]) then SetAttribute(rt, m, CreatedAt, time) else m
  }

  /** `isDirty($key)` for one key is whether that key changed. */
  lemma IsDirtyOne(rt: Runtime, m: Model, k: string)
    requires Wf(m)
    ensures IsDirty(rt, m, [k]) <==> Changed(rt, m, k)
  {
    IsDirtyIff(rt, m, [k]);
    assert [k][0] == k;
  }

  /** The attribute `k` is present in `n` exactly when in `m`, with the
      same value. */
  predicate SameAt(n: Model, m: Model, k: string)
  {
    (k in Keys(n.attributes) <==> k in Keys(m.attributes)) &&
    (k in Keys(m.attributes) ==> k in Keys(n.attributes) && Get(n.attributes, k) == Get(m.attributes, k))
  }

  /** The stored clock reading is the value of `k`. */
  predicate Stamped(rt: Runtime, n: Model, m: Model, k: string, time: Value)
  {
    k in Keys(n.attributes) && Get(n.attributes, k) == Stored(rt, m, k, time)
  }

  lemma TouchUpdatedEffect(rt: Runtime, m: Model, time: Value)
    requires Wf(m)
    ensures Wf(TouchUpdated(rt, m, time))
    ensures TouchUpdated(rt, m, time).(attributes := m.attributes) == m
    ensures !Changed(rt, m, UpdatedAt) ==> Stamped(rt, TouchUpdated(rt, m, time), m, UpdatedAt, time)
    ensures Changed(rt, m, UpdatedAt) ==> SameAt(TouchUpdated(rt, m, time), m, UpdatedAt)
    ensures SameAt(TouchUpdated(rt, m, time), m, CreatedAt)
    ensures Changed(rt, TouchUpdated(rt, m, time), CreatedAt) <==> Changed(rt, m, CreatedAt)
  {
    IsDirtyOne(rt, m, UpdatedAt);
    if !Changed(rt, m, UpdatedAt) {
      var st := Stored(rt, m, UpdatedAt, time);
      GetSet(m.attributes, UpdatedAt, st, UpdatedAt);
      if CreatedAt in Keys(m.attributes) {
        GetSet(m.attributes, UpdatedAt, st, CreatedAt);
      }
    }
  }

  lemma TouchCreatedEffect(rt: Runtime, m: Model, time: Value)
    requires Wf(m)
    ensures TouchCreated(rt, m, time).(attributes := m.attributes) == m
    ensures !m.persisted && !Changed(rt, m, CreatedAt) ==> Stamped(rt, TouchCreated(rt, m, time), m, CreatedAt, time)
    ensures m.persisted || Changed(rt, m, CreatedAt) ==> SameAt(TouchCreated(rt, m, time), m, CreatedAt)
    ensures SameAt(TouchCreated(rt, m, time), m, UpdatedAt)
  {
    IsDirtyOne(rt, m, CreatedAt);
    if !m.persisted && !Changed(rt, m, CreatedAt) {
      var st := Stored(rt, m, CreatedAt, time);
      GetSet(m.attributes, CreatedAt, st, CreatedAt);
      if UpdatedAt in Keys(m.attributes) {
        GetSet(m.attributes, CreatedAt, st, UpdatedAt);
      }
    }
  }

  /** After `updateTimestamps`, `updated_at` holds the stored clock reading
      unless it was already dirty, in which case it keeps its value; nothing
      but the attributes changes. */
  lemma UpdatedAtEffect(rt: Runtime, m: Model, time: Value)
    requires Wf(m)
    ensures UpdateTimestamps(rt, m, time).(attributes := m.attributes) == m
    ensures !Changed(rt, m, UpdatedAt) ==> Stamped(rt, UpdateTimestamps(rt, m, time), m, UpdatedAt, time)
    ensures Changed(rt, m, UpdatedAt) ==> SameAt(UpdateTimestamps(rt, m, time), m, UpdatedAt)
  {
    var m1 := TouchUpdated(rt, m, time);
    TouchUpdatedEffect(rt, m, time);
    TouchCreatedEffect(rt, m1, time);
  }

  /** ... and `created_at` holds it for a model not yet stored whose
      `created_at` was not dirty, and keeps its value otherwise. */
  lemma CreatedAtEffect(rt: Runtime, m: Model, time: Value)
    requires Wf(m)
    ensures !m.persisted && !Changed(rt, m, CreatedAt) ==> Stamped(rt, UpdateTimestamps(rt, m, time), m, CreatedAt, time)
    ensures m.persisted || Changed(rt, m, CreatedAt) ==> SameAt(UpdateTimestamps(rt, m, time), m, CreatedAt)
  {
    var m1 := TouchUpdated(rt, m, time);
    TouchUpdatedEffect(rt, m, time);
    assert m1.casts == m.casts && m1.persisted == m.persisted;
    assert Changed(rt, m1, CreatedAt) == Changed(rt, m, CreatedAt);
    assert Stored(rt, m1, CreatedAt, time) == Stored(rt, m, CreatedAt, time);
    TouchCreatedEffect(rt, m1, time);
  }

  /** `getKeyForSaveQuery`: the original primary-key value when it is set
      and not null, else the current one. */
  function GetKeyForSaveQuery(rt: Runtime, m: Model): Value
  {
    var pk := m.primaryKey;
    if pk in Keys(m.original) && Get(m.original, pk) != Null then Get(m.original, pk)
    else GetAttribute(rt, m, pk)
  }

  /** An update addresses the row the model was loaded as: changing the
      key attribute after synchronisation does not change the key used. */
  lemma SaveKeyAfterChange(rt: Runtime, m: Model, v: Value)
    requires Wf(m) && m.primaryKey in Keys(m.attributes) && Get(m.attributes, m.primaryKey) != Null
    ensures GetKeyForSaveQuery(rt, SetAttribute(rt, SyncOriginal(m), m.primaryKey, v)) == Get(m.attributes, m.primaryKey)
  {
  }

  /** A model never synchronised with a key uses its current key. */
  lemma SaveKeyUnsynced(rt: Runtime, m: Model)
    requires m.primaryKey !in Keys(m.original)
    ensures GetKeyForSaveQuery(rt, m) == GetAttribute(rt, m, m.primaryKey)
  {
  }

  /** Nothing is dirty when every entry is equivalent to the original. */
  lemma {:induction false} NothingDirty(rt: Runtime, m: Model, es: seq<(string, Value)>)
    requires forall e :: e in es ==> OriginalIsEquivalent(rt, m, e.0, e.1)
    ensures DirtyEntries(rt, m, es) == []
    decreases |es|
  {
    if |es| > 0 {
      assert es[0] in es;
      NothingDirty(rt, m, es[1..]);
    }
  }

}

=== FILE: builder.dfy ===
/** The query builder's state and its validating mutators
    (src/Query/QueryBuilder.php): `initQuery`, `table`, `from`, `select`,
    the where/having family, joins, `limit`, `offset`, `orderBy` and
    `groupBy`. Every mutator is a function from a state to a new state, or
    to the exception the source throws. */
module Builder {
  import opened Values
  import opened Identifiers
  import opened Predicates
  import opened Results
  import opened Errors
  import Text
  import opened Vocabulary

  /** A stored join: `join()` keeps its operator and both sides as
      identifiers; `joinRaw()` keeps a raw ON condition. The join type is
      kept exactly as the caller wrote it. */
  datatype JoinSpec =
    | JoinOn(kind: string, table: Ident, key: Ident, op: string, other: Ident)
    | JoinRaw(kind: string, table: Ident, sql: string, values: seq<Value>)

  /** An ORDER BY entry; the direction is stored upper-cased. */
  datatype Order = Order(field: Ident, dir: string)

  /** The builder's fields, less the connection, the statement handle and
      the event dispatcher. */
  datatype State = State(
    table: Option<Ident>,
    from: seq<Ident>,
    select: seq<Ident>,
    wheres: seq<Pred>,
    havings: seq<Pred>,
    joins: seq<JoinSpec>,
    groups: seq<Ident>,
    orders: seq<Order>,
    limit: Option<int>,
    offset: Option<int>,
    values: seq<Value>,
    lastSql: Option<string>,
    fetchClass: string,
    historyMax: int)

  /** A fresh builder: every query field empty, at most 10 history entries. */
  function New(fetchClass: string): (r: State)
    ensures Cleared(r) && r.fetchClass == fetchClass && r.historyMax == 10
  {
    State(None, [], [], [], [], [], [], [], None, None, [], None, fetchClass, 10)
  }

  /** Every field `initQuery` resets is empty. */
  predicate Cleared(q: State)
  {
    && q.table == None && q.from == [] && q.select == [] && q.wheres == []
    && q.havings == [] && q.joins == [] && q.groups == [] && q.orders == []
    && q.limit == None && q.offset == None && q.values == [] && q.lastSql == None
  }

  /** `initQuery`: clears every query field; the fetch class and the
      history bound survive. */
  function Reset(q: State): (r: State)
    ensures Cleared(r)
    ensures r.fetchClass == q.fetchClass && r.historyMax == q.historyMax
  {
    State(None, [], [], [], [], [], [], [], None, None, [], None, q.fetchClass, q.historyMax)
  }

  function SetHistoryMax(q: State, max: int): State
  {
    q.(historyMax := max)
  }

  /** `table($name)`: a raw identifier is not a string and is refused;
      otherwise the query is reset and the table is the only source. */
  function Table(q: State, name: Ident): (r: Result<State, QueryError>)
    ensures name.Raw? <==> r == Err(TableNotString)
    ensures r.Ok? ==> r.value == Reset(q).(table := Some(name), from := [name])
  {
    if name.Raw? then Err(TableNotString)
    else Ok(Reset(q).(table := Some(name), from := [name]))
  }

  /** `from(...)` with its arguments already flattened: the query is reset,
      the list becomes the sources and its first entry the table. */
  function From(q: State, tables: seq<Ident>): (r: State)
    ensures r.from == tables
    ensures r.table == (if |tables| > 0 then Some(tables[0]) else None)
  {
    Reset(q).(from := tables, table := if |tables| > 0 then Some(tables[0]) else None)
  }

  function Select(q: State, fields: seq<Ident>): (r: State)
    ensures r.select == q.select + fields
  {
    q.(select := q.select + fields)
  }

  function SelectRaw(q: State, sql: string, values: seq<Value>): (r: State)
    ensures r.select == q.select + [Raw(sql, values)]
  {
    q.(select := q.select + [Raw(sql, values)])
  }

  /** The argument shapes of `where`/`having`:
      - `Pair`: two arguments, field and value; the operator defaults to `=`;
      - `Triple`: field, operator and value (the one-argument form is a
        `Triple` whose operator is empty, which no whitelist accepts);
      - `Callback`: a closure, modelled by the predicate list it builds,
        with the operator argument if one was passed. */
  datatype Args =
    | Pair(field: Ident, value: Value)
    | Triple(field: Ident, op: string, value: Value)
    | Callback(group: seq<Pred>, given: Option<string>)

  /** The predicate `addWhereQuery` stores: operators are upper-cased and
      whitelisted (the lookup upper-cases too), a closure must come without
      an operator. */
  function WherePred(conn: Conn, args: Args): (r: Result<Pred, QueryError>)
  {
    match args
    case Callback(g, op) =>
      if op.Some? then Err(CallbackWithOperator(op.value)) else Ok(Group(conn, g))
    case Pair(f, v) => Ok(Cond(conn, f, "=", v))
    case Triple(f, op, v) =>
      if Text.Upper(op) !in Operators then Err(InvalidOperator(op))
      else Ok(Cond(conn, f, Text.Trim(Text.Upper(op)), v))
  }

  /** The predicate `addHavingQuery` stores: the whitelist lookup is
      case-sensitive, and a closure's operator is ignored. */
  function HavingPred(conn: Conn, args: Args): (r: Result<Pred, QueryError>)
  {
    match args
    case Callback(g, _) => Ok(Group(conn, g))
    case Pair(f, v) => Ok(Cond(conn, f, "=", v))
    case Triple(f, op, v) =>
      if op !in Operators then Err(InvalidOperator(op))
      else Ok(Cond(conn, f, Text.Trim(Text.Upper(op)), v))
  }

  function AddWhere(q: State, conn: Conn, args: Args): (r: Result<State, QueryError>)
  {
    var p :- WherePred(conn, args);
    Ok(q.(wheres := q.wheres + [p]))
  }

  function AddHaving(q: State, conn: Conn, args: Args): (r: Result<State, QueryError>)
  {
    var p :- HavingPred(conn, args);
    Ok(q.(havings := q.havings + [p]))
  }

  function Where(q: State, args: Args): Result<State, QueryError> { AddWhere(q, And, args) }
  function OrWhere(q: State, args: Args): Result<State, QueryError> { AddWhere(q, Or, args) }
  function Having(q: State, args: Args): Result<State, QueryError> { AddHaving(q, And, args) }
  function OrHaving(q: State, args: Args): Result<State, QueryError> { AddHaving(q, Or, args) }

  /** `whereNull`, `whereBetween`, `whereIn`, `whereLike` and their `or`/`Not`
      variants: a fixed whitelisted operator through the four-argument path. */
  function WhereShorthand(q: State, conn: Conn, field: Ident, op: string, value: Value): Result<State, QueryError>
  {
    AddWhere(q, conn, Triple(field, op, value))
  }

  /** `whereNotEmpty`: `whereNotNull($field)->where($field, '!=', '')`. */
  function WhereNotEmpty(q: State, field: Ident): (r: Result<State, QueryError>)
  {
    var q1 :- WhereShorthand(q, And, field, "IS NOT NULL", Null);
    WhereShorthand(q1, And, field, "!=", Str(""))
  }

  function WhereRaw(q: State, conn: Conn, sql: string, values: seq<Value>): (r: State)
    ensures r.wheres == q.wheres + [RawPred(conn, sql, values)]
  {
    q.(wheres := q.wheres + [RawPred(conn, sql, values)])
  }

  function HavingRaw(q: State, conn: Conn, sql: string, values: seq<Value>): (r: State)
    ensures r.havings == q.havings + [RawPred(conn, sql, values)]
  {
    q.(havings := q.havings + [RawPred(conn, sql, values)])
  }

  /** `join()`: the type is checked upper-cased first, then the operator
      case-sensitively; both are stored as given. */
  function Join(q: State, table: Ident, key: Ident, op: string, other: Ident, kind: string)
    : (r: Result<State, QueryError>)
  {
    if Text.Upper(kind) !in JoinTypes then Err(InvalidJoinType)
    else if op !in Operators then Err(InvalidOperator(op))
    else Ok(q.(joins := q.joins + [JoinOn(kind, table, key, op, other)]))
  }

  /** `joinRaw()`: only the type is checked. */
  function JoinRawOn(q: State, table: Ident, sql: string, values: seq<Value>, kind: string)
    : (r: Result<State, QueryError>)
  {
    if Text.Upper(kind) !in JoinTypes then Err(InvalidJoinType)
    else Ok(q.(joins := q.joins + [JoinRaw(kind, table, sql, values)]))
  }

  /** `limit`/`offset`: a null argument leaves the state alone. */
  function Limit(q: State, n: Option<int>): (r: State)
    ensures r.limit == (if n.Some? then n else q.limit)
    ensures r.(limit := q.limit) == q
  {
    if n.Some? then q.(limit := n) else q
  }

  function Offset(q: State, n: Option<int>): (r: State)
    ensures r.offset == (if n.Some? then n else q.offset)
    ensures r.(offset := q.offset) == q
  {
    if n.Some? then q.(offset := n) else q
  }

  /** `orderBy`: the direction is upper-cased and must be ASC or DESC. */
  function OrderBy(q: State, field: Ident, dir: string): (r: Result<State, QueryError>)
  {
    var d := Text.Upper(dir);
    if d != "ASC" && d != "DESC" then Err(InvalidOrderDirection)
    else Ok(q.(orders := q.orders + [Order(field, d)]))
  }

  function GroupBy(q: State, fields: seq<Ident>): (r: State)
    ensures r.groups == q.groups + fields
  {
    q.(groups := q.groups + fields)
  }

  /** `forPage($page, $perPage)`: `perPage` rows starting after the first
      `page - 1` pages. */
  function ForPage(q: State, page: int, perPage: int): (r: State)
  {
    Offset(Limit(q, Some(perPage)), Some((page - 1) * perPage))
  }

  // ---------------------------------------------------------------------
  // Properties

  /** A stored predicate's operator is one of the whitelist, at any depth. */
  predicate OpsValid(p: Pred)
    decreases p
  {
    match p
    case Cond(_, _, op, _) => op in Operators
    case RawPred(_, _, _) => true
    case Group(_, qs) => forall k :: 0 <= k < |qs| ==> OpsValid(qs[k])
  }

  /** What the mutators maintain: whitelisted operators in both predicate
      lists and in joins, join types valid in any case, directions ASC or
      DESC. */
  predicate Valid(q: State)
  {
    && (forall k :: 0 <= k < |q.wheres| ==> OpsValid(q.wheres[k]))
    && (forall k :: 0 <= k < |q.havings| ==> OpsValid(q.havings[k]))
    && (forall k :: 0 <= k < |q.joins| ==> Text.Upper(q.joins[k].kind) in JoinTypes)
    && (forall k :: 0 <= k < |q.joins| ==> q.joins[k].JoinOn? ==> q.joins[k].op in Operators)
    && (forall k :: 0 <= k < |q.orders| ==> q.orders[k].dir in {"ASC", "DESC"})
  }

  /** `where` accepts exactly: a closure without operator, the two-argument
      form, or an operator whose upper-case form is whitelisted; the stored
      operator is that upper-case form. */
  lemma WherePredSpec(conn: Conn, args: Args)
    ensures WherePred(conn, args).Ok? <==>
      match args
      case Callback(_, op) => op.None?
      case Pair(_, _) => true
      case Triple(_, op, _) => Text.Upper(op) in Operators
    ensures args.Triple? && WherePred(conn, args).Ok? ==>
      WherePred(conn, args).value == Cond(conn, args.field, Text.Upper(args.op), args.value)
    ensures args.Pair? ==> WherePred(conn, args).value == Cond(conn, args.field, "=", args.value)
    ensures args.Callback? && args.given.Some? ==> WherePred(conn, args) == Err(CallbackWithOperator(args.given.value))
  {
    if args.Triple? && Text.Upper(args.op) in Operators {
      OperatorsNormal(Text.Upper(args.op));
    }
  }

  /** `having` looks operators up exactly as written (so `like` is refused
      where `where` accepts it) and keeps a closure even when an operator
      was passed. */
  lemma HavingPredSpec(conn: Conn, args: Args)
    ensures HavingPred(conn, args).Ok? <==> (args.Triple? ==> args.op in Operators)
    ensures args.Triple? && HavingPred(conn, args).Ok? ==>
      HavingPred(conn, args).value == Cond(conn, args.field, args.op, args.value)
    ensures args.Callback? ==> HavingPred(conn, args) == Ok(Group(conn, args.group))
  {
    if args.Triple? && args.op in Operators {
      OperatorsNormal(args.op);
    }
  }

  /** A lower-case operator: accepted by `where`, refused by `having`. */
  lemma OperatorCaseExample(f: Ident, v: Value)
    ensures WherePred(And, Triple(f, "like", v)) == Ok(Cond(And, f, "LIKE", v))
    ensures HavingPred(And, Triple(f, "like", v)) == Err(InvalidOperator("like"))
  {
    assert Text.Upper("like") == "LIKE";
    OperatorsNormal("LIKE");
  }

  /** `where` is insensitive to the case of the operator. */
  lemma WhereCaseInsensitive(conn: Conn, f: Ident, op: string, v: Value)
    ensures WherePred(conn, Triple(f, op, v)).Ok? <==> WherePred(conn, Triple(f, Text.Upper(op), v)).Ok?
    ensures WherePred(conn, Triple(f, op, v)).Ok? ==>
      WherePred(conn, Triple(f, op, v)) == WherePred(conn, Triple(f, Text.Upper(op), v))
  {
    Text.UpperIdempotent(op);
  }

  /** A successful where/having call appends exactly one predicate and
      touches nothing else; a failing one reports why. */
  lemma AddWhereAppends(q: State, conn: Conn, args: Args)
    ensures AddWhere(q, conn, args).Ok? <==> WherePred(conn, args).Ok?
    ensures AddWhere(q, conn, args).Ok? ==>
      AddWhere(q, conn, args).value == q.(wheres := q.wheres + [WherePred(conn, args).value])
    ensures AddWhere(q, conn, args).Err? ==> AddWhere(q, conn, args).error == WherePred(conn, args).error
  {
  }

  lemma AddHavingAppends(q: State, conn: Conn, args: Args)
    ensures AddHaving(q, conn, args).Ok? <==> HavingPred(conn, args).Ok?
    ensures AddHaving(q, conn, args).Ok? ==>
      AddHaving(q, conn, args).value == q.(havings := q.havings + [HavingPred(conn, args).value])
  {
  }

  /** Each shorthand stores its fixed operator unchanged. */
  lemma ShorthandStores(q: State, conn: Conn, field: Ident, op: string, value: Value)
    requires op in Operators
    ensures WhereShorthand(q, conn, field, op, value) == Ok(q.(wheres := q.wheres + [Cond(conn, field, op, value)]))
  {
    OperatorsNormal(op);
    assert WherePred(conn, Triple(field, op, value)) == Ok(Cond(conn, field, op, value));
    AddWhereOk(q, conn, Triple(field, op, value), Cond(conn, field, op, value));
  }

  /** A predicate `where` accepts is appended to the conditions. */
  lemma AddWhereOk(q: State, conn: Conn, args: Args, p: Pred)
    requires WherePred(conn, args) == Ok(p)
    ensures AddWhere(q, conn, args) == Ok(q.(wheres := q.wheres + [p]))
  {
  }

  lemma WhereNotEmptyStores(q: State, field: Ident)
    ensures WhereNotEmpty(q, field)
         == Ok(q.(wheres := q.wheres + [Cond(And, field, "IS NOT NULL", Null), Cond(And, field, "!=", Str(""))]))
  {
    var q1 := q.(wheres := q.wheres + [Cond(And, field, "IS NOT NULL", Null)]);
    NotNullStep(q, field);
    NotEqualStep(q1, field);
    assert q1.wheres + [Cond(And, field, "!=", Str(""))]
        == q.wheres + [Cond(And, field, "IS NOT NULL", Null), Cond(And, field, "!=", Str(""))];
  }

  lemma NotNullStep(q: State, field: Ident)
    ensures WhereShorthand(q, And, field, "IS NOT NULL", Null)
         == Ok(q.(wheres := q.wheres + [Cond(And, field, "IS NOT NULL", Null)]))
  {
    assert "IS NOT NULL" in Operators;
    ShorthandStores(q, And, field, "IS NOT NULL", Null);
  }

  lemma NotEqualStep(q: State, field: Ident)
    ensures WhereShorthand(q, And, field, "!=", Str(""))
         == Ok(q.(wheres := q.wheres + [Cond(And, field, "!=", Str(""))]))
  {
    assert "!=" in Operators;
    ShorthandStores(q, And, field, "!=", Str(""));
  }

  /** `table()` and `from()` forget every earlier query field: two states
      that agree on the fetch class and history bound give the same
      result. */
  lemma TableForgets(q1: State, q2: State, name: Ident)
    requires q1.fetchClass == q2.fetchClass && q1.historyMax == q2.historyMax
    ensures Table(q1, name) == Table(q2, name)
    ensures From(q1, [name]) == From(q2, [name])
  {
  }

  /** Resetting twice is resetting once. */
  lemma ResetIdempotent(q: State)
    ensures Reset(Reset(q)) == Reset(q)
  {
  }

  /** The mutators preserve `Valid`, provided a closure's predicate list was
      itself built by them. */
  lemma WherePreservesValid(q: State, conn: Conn, args: Args)
    requires Valid(q)
    requires args.Callback? ==> forall k :: 0 <= k < |args.group| ==> OpsValid(args.group[k])
    ensures AddWhere(q, conn, args).Ok? ==> Valid(AddWhere(q, conn, args).value)
  {
    WherePredSpec(conn, args);
    if WherePred(conn, args).Ok? {
      var p := WherePred(conn, args).value;
      assert OpsValid(p);
      AddWhereOk(q, conn, args, p);
      AppendValid(q, p, true);
    }
  }

  lemma HavingPreservesValid(q: State, conn: Conn, args: Args)
    requires Valid(q)
    requires args.Callback? ==> forall k :: 0 <= k < |args.group| ==> OpsValid(args.group[k])
    ensures AddHaving(q, conn, args).Ok? ==> Valid(AddHaving(q, conn, args).value)
  {
    HavingPredSpec(conn, args);
    if HavingPred(conn, args).Ok? {
      var p := HavingPred(conn, args).value;
      assert OpsValid(p);
      assert AddHaving(q, conn, args) == Ok(q.(havings := q.havings + [p]));
      AppendValid(q, p, false);
    }
  }

  /** Appending a predicate with whitelisted operators to the WHERE
      (`toWheres`) or HAVING list keeps the state valid. */
  lemma AppendValid(q: State, p: Pred, toWheres: bool)
    requires Valid(q) && OpsValid(p)
    ensures toWheres ==> Valid(q.(wheres := q.wheres + [p]))
    ensures !toWheres ==> Valid(q.(havings := q.havings + [p]))
  {
    var ws, hs := q.wheres + [p], q.havings + [p];
    assert forall k :: 0 <= k < |ws| ==> ws[k] == if k < |q.wheres| then q.wheres[k] else p;
    assert forall k :: 0 <= k < |hs| ==> hs[k] == if k < |q.havings| then q.havings[k] else p;
  }

  lemma JoinPreservesValid(q: State, table: Ident, key: Ident, op: string, other: Ident, kind: string)
    requires Valid(q)
    ensures Join(q, table, key, op, other, kind).Ok? ==> Valid(Join(q, table, key, op, other, kind).value)
  {
  }

  lemma JoinRawPreservesValid(q: State, table: Ident, sql: string, values: seq<Value>, kind: string)
    requires Valid(q)
    ensures JoinRawOn(q, table, sql, values, kind).Ok? ==> Valid(JoinRawOn(q, table, sql, values, kind).value)
  {
  }

  lemma OrderByPreservesValid(q: State, field: Ident, dir: string)
    requires Valid(q)
    ensures OrderBy(q, field, dir).Ok? ==> Valid(OrderBy(q, field, dir).value)
  {
  }
}

=== FILE: builder_render.dfy ===
/** What each mutator of src/Query/QueryBuilder.php does to the SQL that
    `toSql` renders: `table`/`from` start a fresh `SELECT * FROM` query,
    and every other mutator extends or replaces exactly its own fragment,
    with the values it carries bound at that fragment's position. */
module BuilderRender {
  import opened Values
  import opened Tokens
  import opened Identifiers
  import opened Predicates
  import opened Builder
  import opened Results
  import opened Errors
  import opened Compile
  import opened Vocabulary
  import Text

  // ---------------------------------------------------------------------
  // table and from

  /** `from` starts a fresh query: it compiles exactly when the list is not
      empty, to `SELECT * FROM` and the quoted sources, binding only the
      raw sources' values. One plain source is the same as `table`. */
  lemma FromRenders(q: State, tables: seq<Ident>)
    ensures ToSql(From(q, tables)).Ok? <==> |tables| > 0
    ensures |tables| > 0 ==>
      var sources := JoinFrags(",", Quotes(tables));
      ToSql(From(q, tables)) == Ok(Compiled(Text.Trim("SELECT * FROM " + sources.text), sources.vals))
    ensures |tables| == 1 && tables[0].Plain? ==> Table(q, tables[0]) == Ok(From(q, tables))
  {
    var r := From(q, tables);
    var query := QueryOf(r);
    assert r.values == [];
    assert query == Query([], tables, [], [], [], [], [], None, None);
    if |tables| > 0 {
      assert Clause(query.wheres, "WHERE") == Ok(Empty);
      assert Clause(query.havings, "HAVING") == Ok(Empty);
      var a := Assemble(Parts(query, Empty, Empty));
      assert Render(query) == Ok(a);
      SourcesAssembled(tables);
      var sources := JoinFrags(",", Quotes(tables));
      assert a == Rendered(Text.Trim("SELECT * FROM " + sources.text), sources.vals);
      assert ToSql(r) == Ok(Compiled(a.sql, [] + a.appended));
      assert [] + a.appended == sources.vals;
    }
    if |tables| == 1 {
      assert tables == [tables[0]];
    }
  }

  /** The eight parts of a fresh query over `tables` assemble to
      `SELECT * FROM` and the sources. */
  lemma SourcesAssembled(tables: seq<Ident>)
    requires |tables| > 0
    ensures var sources := JoinFrags(",", Quotes(tables));
      Assemble(Parts(Query([], tables, [], [], [], [], [], None, None), Empty, Empty))
      == Rendered(Text.Trim("SELECT * FROM " + sources.text), sources.vals)
  {
    var sel := SelectFrag([]);
    var from := FromFrag(tables);
    var e := Empty;
    var parts := Parts(Query([], tables, [], [], [], [], [], None, None), Empty, Empty);
    assert JoinsFrag([]) == Empty;
    assert parts == [sel, from] + [e, e, e, e, e, e];
    FreshKept(sel, from);
    var sources := JoinFrags(",", Quotes(tables));
    assert Texts([sel, from]) == [sel.text, from.text];
    assert Text.Join(" ", [sel.text, from.text]) == sel.text + " " + from.text by {
      assert [sel.text, from.text][1..] == [from.text];
    }
    assert sel.text == "SELECT *";
    assert from.text == "FROM " + sources.text;
    SelectFromText(sources.text);
    assert [sel, from] + [e, e, e, e, e, e] == [sel, from, e, e, e, e, e, e];
    EightVals(sel, from, e, e, e, e, e, e);
    assert AllVals(parts) == sources.vals;
  }

  lemma SelectFromText(x: string)
    ensures "SELECT *" + " " + ("FROM " + x) == "SELECT * FROM " + x
  {
    var a := "SELECT *" + " " + ("FROM " + x);
    var b := "SELECT * FROM " + x;
    assert |a| == |b|;
    forall k | 0 <= k < |a|
      ensures a[k] == b[k]
    {
    }
  }

  /** Of a fresh query's parts only SELECT and FROM are kept. */
  lemma FreshKept(sel: Frag, from: Frag)
    requires sel == SelectFrag([]) && Truthy(from.text)
    ensures KeepTruthy([sel, from] + [Empty, Empty, Empty, Empty, Empty, Empty]) == [sel, from]
  {
    var e := Empty;
    KeepTruthyAppend([sel, from], [e, e, e, e, e, e]);
    KeepTruthyNone([e, e, e, e, e, e]);
    KeepTruthyAppend([sel], [from]);
    assert [sel] + [from] == [sel, from];
    KeepTruthyOne(sel);
    KeepTruthyOne(from);
  }

  /** `table` on a plain name is `from` with that one source, and renders
      exactly `SELECT * FROM` and the quoted name, with no values; a raw
      identifier is refused. */
  lemma TableRenders(q: State, name: Ident)
    ensures name.Raw? ==> Table(q, name) == Err(TableNotString)
    ensures name.Plain? ==>
      && Table(q, name) == Ok(From(q, [name]))
      && ToSql(Table(q, name).value) == Ok(Compiled("SELECT * FROM " + QuoteName(name.name), []))
  {
    if name.Plain? {
      FromRenders(q, [name]);
      PlainSource(name.name);
      SelectAllTrimmed(name.name);
    }
  }

  lemma PlainSource(n: string)
    ensures JoinFrags(",", Quotes([Plain(n)])) == Literal(QuoteName(n))
  {
    assert Quotes([Plain(n)]) == [Literal(QuoteName(n))];
  }

  /** `SELECT * FROM` and a quoted name end with a backtick or `*`, so
      `trim` leaves them alone. */
  lemma SelectAllTrimmed(n: string)
    ensures Text.Trim("SELECT * FROM " + QuoteName(n)) == "SELECT * FROM " + QuoteName(n)
  {
    var s := "SELECT * FROM " + QuoteName(n);
    QuoteNameEnds(n);
    assert s[|s| - 1] == QuoteName(n)[|QuoteName(n)| - 1];
    assert s[0] == 'S';
    Text.TrimKeeps(s);
  }

  // ---------------------------------------------------------------------
  // select, selectRaw, groupBy

  lemma QuotesAppend(a: seq<Ident>, b: seq<Ident>)
    ensures Quotes(a + b) == Quotes(a) + Quotes(b)
  {
  }

  /** Quoting a longer field list extends the shorter one's text after a
      `,`, and its values after the earlier ones. */
  lemma FieldsAppend(earlier: seq<Ident>, fields: seq<Ident>)
    requires |fields| > 0
    ensures var before := JoinFrags(",", Quotes(earlier));
            var added := JoinFrags(",", Quotes(fields));
            var after := JoinFrags(",", Quotes(earlier + fields));
      && after.text == (if |earlier| == 0 then "" else before.text + ",") + added.text
      && after.vals == before.vals + added.vals
  {
    QuotesAppend(earlier, fields);
    if |earlier| > 0 {
      JoinFragsAppend(",", Quotes(earlier), Quotes(fields));
    } else {
      assert earlier + fields == fields;
    }
  }

  /** After `select`, the SELECT fragment is the earlier one followed by `,`
      and the new quoted fields (`SELECT *` gives way to `SELECT ` and the
      fields), and it binds the old values and then the new fields' raw
      values. */
  lemma SelectRenders(q: State, fields: seq<Ident>)
    ensures |fields| == 0 ==> Select(q, fields) == q
    ensures |fields| > 0 ==>
      && SelectFrag(Select(q, fields).select).text
         == (if |q.select| == 0 then "SELECT " else SelectFrag(q.select).text + ",") + JoinFrags(",", Quotes(fields)).text
      && SelectFrag(Select(q, fields).select).vals == SelectFrag(q.select).vals + JoinFrags(",", Quotes(fields)).vals
  {
    if |fields| == 0 {
      assert q.select + fields == q.select;
    } else {
      FieldsAppend(q.select, fields);
    }
  }

  /** After `selectRaw`, the SELECT fragment ends with `,` and the raw SQL
      (or is `SELECT ` and the SQL in place of `SELECT *`), and binds the
      raw values after the old ones. */
  lemma SelectRawRenders(q: State, sql: string, values: seq<Value>)
    ensures SelectFrag(SelectRaw(q, sql, values).select).text
         == (if |q.select| == 0 then "SELECT " else SelectFrag(q.select).text + ",") + sql
    ensures SelectFrag(SelectRaw(q, sql, values).select).vals == SelectFrag(q.select).vals + values
  {
    assert SelectRaw(q, sql, values) == Select(q, [Raw(sql, values)]);
    assert Quotes([Raw(sql, values)]) == [RawSql(sql, values)];
    SelectRenders(q, [Raw(sql, values)]);
  }

  /** After `groupBy`, the GROUP BY fragment is the old one followed by `,`
      and the new quoted fields (or `GROUP BY ` and the fields, when there
      was none), binding the new raw values after the old. */
  lemma GroupByRenders(q: State, fields: seq<Ident>)
    ensures |fields| == 0 ==> GroupBy(q, fields) == q
    ensures |fields| > 0 ==>
      && GroupFrag(GroupBy(q, fields).groups).text
         == (if |q.groups| == 0 then "GROUP BY " else GroupFrag(q.groups).text + ",") + JoinFrags(",", Quotes(fields)).text
      && GroupFrag(GroupBy(q, fields).groups).vals == GroupFrag(q.groups).vals + JoinFrags(",", Quotes(fields)).vals
  {
    if |fields| == 0 {
      assert q.groups + fields == q.groups;
    } else {
      FieldsAppend(q.groups, fields);
    }
  }

  // ---------------------------------------------------------------------
  // orderBy

  /** `orderBy` succeeds exactly for ASC or DESC in any case; the ORDER BY
      fragment then gains `,` (or starts with `ORDER BY `), the quoted
      field, a space and the upper-cased direction, and binds the field's
      raw values after the old ones. */
  lemma OrderByRenders(q: State, field: Ident, dir: string)
    ensures OrderBy(q, field, dir).Ok? <==> Text.Upper(dir) in {"ASC", "DESC"}
    ensures OrderBy(q, field, dir).Ok? ==>
      && OrderFrag(OrderBy(q, field, dir).value.orders).text
         == (if |q.orders| == 0 then "ORDER BY " else OrderFrag(q.orders).text + ",")
            + (QuoteText(field) + " " + Text.Upper(dir))
      && OrderFrag(OrderBy(q, field, dir).value.orders).vals == OrderFrag(q.orders).vals + IdentValues(field)
  {
    if OrderBy(q, field, dir).Ok? {
      var o := Order(field, Text.Upper(dir));
      assert OrderBy(q, field, dir).value.orders == q.orders + [o];
      OrdersAppend(q.orders, o);
    }
  }

  /** One more ORDER BY entry: `,` (or `ORDER BY `) and the quoted field
      with its direction, its values after the earlier ones. */
  lemma OrdersAppend(os: seq<Order>, o: Order)
    ensures OrderFrag(os + [o]).text
         == (if |os| == 0 then "ORDER BY " else OrderFrag(os).text + ",") + (QuoteText(o.field) + " " + o.dir)
    ensures OrderFrag(os + [o]).vals == OrderFrag(os).vals + IdentValues(o.field)
  {
    if |os| > 0 {
      OrdersAppendLater(os, o);
    } else {
      var entry := Quote(o.field).Then(Literal(" " + o.dir));
      assert OrderList(os + [o]) == [entry];
      assert JoinFrags(",", [entry]) == entry;
      assert OrderFrag(os + [o]) == Literal("ORDER BY ").Then(entry);
    }
  }

  lemma OrdersAppendLater(os: seq<Order>, o: Order)
    requires |os| > 0
    ensures OrderFrag(os + [o]).text == OrderFrag(os).text + "," + (QuoteText(o.field) + " " + o.dir)
    ensures OrderFrag(os + [o]).vals == OrderFrag(os).vals + IdentValues(o.field)
  {
    OrdersLaterText(os, o);
    OrdersLaterVals(os, o);
  }

  lemma OrdersLaterText(os: seq<Order>, o: Order)
    requires |os| > 0
    ensures OrderFrag(os + [o]).text == OrderFrag(os).text + "," + (QuoteText(o.field) + " " + o.dir)
  {
    var entry := Quote(o.field).Then(Literal(" " + o.dir));
    OrderListAppend(os, o);
    PrefixedSnocText("ORDER BY ", OrderList(os), entry);
    assert entry.text == QuoteText(o.field) + (" " + o.dir);
  }

  /** A keyword followed by a `,`-joined list, extended by one entry. */
  lemma PrefixedSnocText(keyword: string, parts: seq<Frag>, e: Frag)
    requires |parts| > 0
    ensures Literal(keyword).Then(JoinFrags(",", parts + [e])).text
         == Literal(keyword).Then(JoinFrags(",", parts)).text + "," + e.text
  {
    var init := JoinFrags(",", parts);
    JoinFragsAppend(",", parts, [e]);
    assert JoinFrags(",", [e]) == e;
    Text.Regroup(keyword, init.text, ",", e.text);
  }

  lemma OrdersLaterVals(os: seq<Order>, o: Order)
    requires |os| > 0
    ensures OrderFrag(os + [o]).vals == OrderFrag(os).vals + IdentValues(o.field)
  {
    var entry := Quote(o.field).Then(Literal(" " + o.dir));
    var init := JoinFrags(",", OrderList(os));
    assert OrderFrag(os) == Literal("ORDER BY ").Then(init);
    assert OrderFrag(os + [o]).vals == [] + (init.vals + entry.vals) by {
      OrdersJoined(os, o);
    }
    assert entry.vals == IdentValues(o.field);
  }

  /** The entry list after one more order is the earlier one, `,` and the
      new entry. */
  lemma OrdersJoined(os: seq<Order>, o: Order)
    requires |os| > 0
    ensures var entry := Quote(o.field).Then(Literal(" " + o.dir));
      && JoinFrags(",", OrderList(os + [o])).text == JoinFrags(",", OrderList(os)).text + "," + entry.text
      && JoinFrags(",", OrderList(os + [o])).vals == JoinFrags(",", OrderList(os)).vals + entry.vals
  {
    var entry := Quote(o.field).Then(Literal(" " + o.dir));
    OrderListAppend(os, o);
    JoinFragsAppend(",", OrderList(os), [entry]);
    assert JoinFrags(",", [entry]) == entry;
  }

  lemma OrderListAppend(os: seq<Order>, o: Order)
    ensures OrderList(os + [o]) == OrderList(os) + [Quote(o.field).Then(Literal(" " + o.dir))]
  {
    var entry := Quote(o.field).Then(Literal(" " + o.dir));
    forall k | 0 <= k < |os| + 1
      ensures OrderList(os + [o])[k] == (OrderList(os) + [entry])[k]
    {
    }
  }

  // ---------------------------------------------------------------------
  // join and joinRaw

  /** One more join adds a space (after any earlier join) and its text, and
      its values after the earlier ones. */
  lemma JoinsAppend(js: seq<JoinSpec>, j: JoinSpec)
    ensures JoinsFrag(js + [j]).text == (if |js| == 0 then "" else JoinsFrag(js).text + " ") + JoinFrag(j).text
    ensures JoinsFrag(js + [j]).vals == JoinsFrag(js).vals + JoinFrag(j).vals
  {
    forall k | 0 <= k < |js| + 1
      ensures JoinFragList(js + [j])[k] == (JoinFragList(js) + [JoinFrag(j)])[k]
    {
    }
    assert JoinFragList(js + [j]) == JoinFragList(js) + [JoinFrag(j)];
    if |js| > 0 {
      JoinFragsAppend(" ", JoinFragList(js), [JoinFrag(j)]);
    } else {
      assert JoinFragList(js + [j]) == [JoinFrag(j)];
    }
  }

  /** The text and values of one join entry. */
  lemma JoinEntry(j: JoinSpec)
    ensures j.JoinOn? ==>
      && JoinFrag(j).text == j.kind + " JOIN " + QuoteText(j.table) + " ON " + QuoteText(j.key) + " " + j.op + " " + QuoteText(j.other)
      && JoinFrag(j).vals == IdentValues(j.table) + IdentValues(j.key) + IdentValues(j.other)
    ensures j.JoinRaw? ==>
      && JoinFrag(j).text == j.kind + " JOIN " + QuoteText(j.table) + " ON " + j.sql
      && JoinFrag(j).vals == IdentValues(j.table) + j.values
  {
  }

  /** `join` succeeds exactly when the upper-cased type is INNER, LEFT or
      RIGHT and the operator is whitelisted as written; the JOIN fragment
      then gains `TYPE JOIN table ON key OP other`, with the type as the
      caller wrote it, binding the three identifiers' raw values in that
      order. */
  lemma JoinRenders(q: State, table: Ident, key: Ident, op: string, other: Ident, kind: string)
    ensures Join(q, table, key, op, other, kind).Ok? <==> Text.Upper(kind) in JoinTypes && op in Operators
    ensures Join(q, table, key, op, other, kind).Ok? ==>
      && JoinsFrag(Join(q, table, key, op, other, kind).value.joins).text
         == (if |q.joins| == 0 then "" else JoinsFrag(q.joins).text + " ")
            + (kind + " JOIN " + QuoteText(table) + " ON " + QuoteText(key) + " " + op + " " + QuoteText(other))
      && JoinsFrag(Join(q, table, key, op, other, kind).value.joins).vals
         == JoinsFrag(q.joins).vals + (IdentValues(table) + IdentValues(key) + IdentValues(other))
  {
    if Join(q, table, key, op, other, kind).Ok? {
      var j := JoinOn(kind, table, key, op, other);
      assert Join(q, table, key, op, other, kind).value.joins == q.joins + [j];
      JoinsAppend(q.joins, j);
      JoinEntry(j);
    }
  }

  /** `joinRaw` succeeds exactly when the upper-cased type is INNER, LEFT
      or RIGHT; the JOIN fragment then gains `TYPE JOIN table ON sql`,
      binding the table's raw values and then the condition's values. */
  lemma JoinRawRenders(q: State, table: Ident, sql: string, values: seq<Value>, kind: string)
    ensures JoinRawOn(q, table, sql, values, kind).Ok? <==> Text.Upper(kind) in JoinTypes
    ensures JoinRawOn(q, table, sql, values, kind).Ok? ==>
      && JoinsFrag(JoinRawOn(q, table, sql, values, kind).value.joins).text
         == (if |q.joins| == 0 then "" else JoinsFrag(q.joins).text + " ")
            + (kind + " JOIN " + QuoteText(table) + " ON " + sql)
      && JoinsFrag(JoinRawOn(q, table, sql, values, kind).value.joins).vals
         == JoinsFrag(q.joins).vals + (IdentValues(table) + values)
  {
    if JoinRawOn(q, table, sql, values, kind).Ok? {
      var j := JoinRaw(kind, table, sql, values);
      assert JoinRawOn(q, table, sql, values, kind).value.joins == q.joins + [j];
      JoinsAppend(q.joins, j);
      JoinEntry(j);
    }
  }

  // ---------------------------------------------------------------------
  // where, having and their raw forms

  /** A successful `where`/`orWhere` changes nothing but the WHERE list.
      The WHERE clause then renders exactly when the old one and the new
      predicate's statement do, and is the old clause followed by the
      connector and the statement (or `WHERE ` and the statement, for the
      first predicate), binding the statement's values after the old. */
  lemma WhereRenders(q: State, conn: Conn, args: Args)
    ensures AddWhere(q, conn, args).Ok? <==> WherePred(conn, args).Ok?
    ensures AddWhere(q, conn, args).Ok? ==>
      var p := WherePred(conn, args).value;
      var r := AddWhere(q, conn, args).value;
      && r.(wheres := q.wheres) == q
      && (Clause(r.wheres, "WHERE").Ok? <==> Clause(q.wheres, "WHERE").Ok? && Statement(p).Ok?)
      && (Clause(r.wheres, "WHERE").Ok? ==>
          && Clause(r.wheres, "WHERE").value.text
             == (if |q.wheres| == 0 then "WHERE " + Statement(p).value.text
                 else Clause(q.wheres, "WHERE").value.text + " " + ConnText(conn) + " " + Statement(p).value.text)
          && Clause(r.wheres, "WHERE").value.vals == Clause(q.wheres, "WHERE").value.vals + Statement(p).value.vals)
  {
    AddWhereAppends(q, conn, args);
    WherePredConn(conn, args);
    if WherePred(conn, args).Ok? {
      WhereAppended(q, WherePred(conn, args).value, AddWhere(q, conn, args).value);
    }
  }

  /** The WHERE clause of a state with one more predicate. */
  lemma WhereAppended(q: State, p: Pred, r: State)
    requires r == q.(wheres := q.wheres + [p])
    ensures r.(wheres := q.wheres) == q
    ensures Clause(r.wheres, "WHERE").Ok? <==> Clause(q.wheres, "WHERE").Ok? && Statement(p).Ok?
    ensures Clause(r.wheres, "WHERE").Ok? ==>
      && Clause(r.wheres, "WHERE").value.text
         == (if |q.wheres| == 0 then "WHERE " + Statement(p).value.text
             else Clause(q.wheres, "WHERE").value.text + " " + ConnText(p.conn) + " " + Statement(p).value.text)
      && Clause(r.wheres, "WHERE").value.vals == Clause(q.wheres, "WHERE").value.vals + Statement(p).value.vals
  {
    ClauseSnoc(q.wheres, p, "WHERE");
  }

  /** The same for `having`/`orHaving` and the HAVING clause. */
  lemma HavingRenders(q: State, conn: Conn, args: Args)
    ensures AddHaving(q, conn, args).Ok? <==> HavingPred(conn, args).Ok?
    ensures AddHaving(q, conn, args).Ok? ==>
      var p := HavingPred(conn, args).value;
      var r := AddHaving(q, conn, args).value;
      && r.(havings := q.havings) == q
      && (Clause(r.havings, "HAVING").Ok? <==> Clause(q.havings, "HAVING").Ok? && Statement(p).Ok?)
      && (Clause(r.havings, "HAVING").Ok? ==>
          && Clause(r.havings, "HAVING").value.text
             == (if |q.havings| == 0 then "HAVING " + Statement(p).value.text
                 else Clause(q.havings, "HAVING").value.text + " " + ConnText(conn) + " " + Statement(p).value.text)
          && Clause(r.havings, "HAVING").value.vals == Clause(q.havings, "HAVING").value.vals + Statement(p).value.vals)
  {
    AddHavingAppends(q, conn, args);
    HavingPredConn(conn, args);
    if HavingPred(conn, args).Ok? {
      HavingAppended(q, HavingPred(conn, args).value, AddHaving(q, conn, args).value);
    }
  }

  /** The HAVING clause of a state with one more predicate. */
  lemma HavingAppended(q: State, p: Pred, r: State)
    requires r == q.(havings := q.havings + [p])
    ensures r.(havings := q.havings) == q
    ensures Clause(r.havings, "HAVING").Ok? <==> Clause(q.havings, "HAVING").Ok? && Statement(p).Ok?
    ensures Clause(r.havings, "HAVING").Ok? ==>
      && Clause(r.havings, "HAVING").value.text
         == (if |q.havings| == 0 then "HAVING " + Statement(p).value.text
             else Clause(q.havings, "HAVING").value.text + " " + ConnText(p.conn) + " " + Statement(p).value.text)
      && Clause(r.havings, "HAVING").value.vals == Clause(q.havings, "HAVING").value.vals + Statement(p).value.vals
  {
    ClauseSnoc(q.havings, p, "HAVING");
  }

  /** A predicate carries the connector it was added with. */
  lemma WherePredConn(conn: Conn, args: Args)
    ensures WherePred(conn, args).Ok? ==> WherePred(conn, args).value.conn == conn
  {
  }

  lemma HavingPredConn(conn: Conn, args: Args)
    ensures HavingPred(conn, args).Ok? ==> HavingPred(conn, args).value.conn == conn
  {
  }

  /** After `whereRaw`/`orWhereRaw`, the WHERE clause renders exactly when
      it did before; it ends with the connector and the raw SQL verbatim
      (or is `WHERE ` and the SQL), and binds the raw values last. */
  lemma WhereRawRenders(q: State, conn: Conn, sql: string, values: seq<Value>)
    ensures Clause(WhereRaw(q, conn, sql, values).wheres, "WHERE").Ok? <==> Clause(q.wheres, "WHERE").Ok?
    ensures Clause(q.wheres, "WHERE").Ok? ==>
      && Clause(WhereRaw(q, conn, sql, values).wheres, "WHERE").value.text
         == (if |q.wheres| == 0 then "WHERE " + sql
             else Clause(q.wheres, "WHERE").value.text + " " + ConnText(conn) + " " + sql)
      && Clause(WhereRaw(q, conn, sql, values).wheres, "WHERE").value.vals
         == Clause(q.wheres, "WHERE").value.vals + values
  {
    ClauseSnoc(q.wheres, RawPred(conn, sql, values), "WHERE");
  }

  /** The same for `havingRaw` and the HAVING clause. */
  lemma HavingRawRenders(q: State, conn: Conn, sql: string, values: seq<Value>)
    ensures Clause(HavingRaw(q, conn, sql, values).havings, "HAVING").Ok? <==> Clause(q.havings, "HAVING").Ok?
    ensures Clause(q.havings, "HAVING").Ok? ==>
      && Clause(HavingRaw(q, conn, sql, values).havings, "HAVING").value.text
         == (if |q.havings| == 0 then "HAVING " + sql
             else Clause(q.havings, "HAVING").value.text + " " + ConnText(conn) + " " + sql)
      && Clause(HavingRaw(q, conn, sql, values).havings, "HAVING").value.vals
         == Clause(q.havings, "HAVING").value.vals + values
  {
    ClauseSnoc(q.havings, RawPred(conn, sql, values), "HAVING");
  }

  // ---------------------------------------------------------------------
  // limit, offset, forPage

  /** Two states that differ at most in limit and offset compile alike
      except for the LIMIT fragment: the same success, the same values,
      and the same other seven fragments. */
  lemma OnlyLimitDiffers(q: State, r: State)
    requires r.(limit := q.limit, offset := q.offset) == q
    ensures ToSql(r).Ok? <==> ToSql(q).Ok?
    ensures ToSql(q).Ok? ==> ToSql(r).value.values == ToSql(q).value.values
    ensures forall w, h :: Parts(QueryOf(r), w, h)[..7] == Parts(QueryOf(q), w, h)[..7]
  {
    ToSqlOkIff(q);
    ToSqlOkIff(r);
    if ToSql(q).Ok? {
      SameValuesBesidesLimit(q, r);
    }
  }

  lemma SameValuesBesidesLimit(q: State, r: State)
    requires r.(limit := q.limit, offset := q.offset) == q
    requires ToSql(q).Ok? && ToSql(r).Ok?
    ensures ToSql(r).value.values == ToSql(q).value.values
  {
    RenderValueOrder(QueryOf(q));
    RenderValueOrder(QueryOf(r));
  }

  /** `limit(n)` changes only the LIMIT fragment, which becomes `LIMIT n`,
      or `LIMIT offset,n` when an offset is set; the statement binds the
      same values. */
  lemma LimitRenders(q: State, n: Option<int>)
    ensures ToSql(Limit(q, n)).Ok? <==> ToSql(q).Ok?
    ensures ToSql(q).Ok? ==> ToSql(Limit(q, n)).value.values == ToSql(q).value.values
    ensures forall w, h :: Parts(QueryOf(Limit(q, n)), w, h)[..7] == Parts(QueryOf(q), w, h)[..7]
    ensures n.Some? ==>
      LimitFrag(Limit(q, n).limit, Limit(q, n).offset).text
      == "LIMIT " + (if q.offset.None? then "" else Text.IntStr(q.offset.value) + ",") + Text.IntStr(n.value)
  {
    OnlyLimitDiffers(q, Limit(q, n));
  }

  /** `offset(n)` changes only the LIMIT fragment: without a limit the
      offset is not rendered at all, otherwise it becomes `LIMIT n,limit`. */
  lemma OffsetRenders(q: State, n: Option<int>)
    ensures ToSql(Offset(q, n)).Ok? <==> ToSql(q).Ok?
    ensures ToSql(q).Ok? ==> ToSql(Offset(q, n)).value.values == ToSql(q).value.values
    ensures forall w, h :: Parts(QueryOf(Offset(q, n)), w, h)[..7] == Parts(QueryOf(q), w, h)[..7]
    ensures n.Some? ==>
      LimitFrag(Offset(q, n).limit, Offset(q, n).offset).text
      == (if q.limit.None? then "" else "LIMIT " + Text.IntStr(n.value) + "," + Text.IntStr(q.limit.value))
  {
    OnlyLimitDiffers(q, Offset(q, n));
  }

  /** `forPage(page, perPage)` renders `LIMIT (page-1)*perPage,perPage`
      and changes nothing else in the statement. */
  lemma ForPageRenders(q: State, page: int, perPage: int)
    ensures LimitFrag(ForPage(q, page, perPage).limit, ForPage(q, page, perPage).offset).text
         == "LIMIT " + Text.IntStr((page - 1) * perPage) + "," + Text.IntStr(perPage)
    ensures ToSql(ForPage(q, page, perPage)).Ok? <==> ToSql(q).Ok?
    ensures ToSql(q).Ok? ==> ToSql(ForPage(q, page, perPage)).value.values == ToSql(q).value.values
    ensures forall w, h :: Parts(QueryOf(ForPage(q, page, perPage)), w, h)[..7] == Parts(QueryOf(q), w, h)[..7]
  {
    OnlyLimitDiffers(q, ForPage(q, page, perPage));
  }
}

=== FILE: chunking.dfy ===
/** `chunk` and `each` (src/Query/QueryBuilder.php): the table is read page
    by page through `table()->get($limit, $offset)` and every non-empty
    page is handed to the callback. The database is an abstract table, a
    sequence of rows in the order the unordered `SELECT` returns them. */
module Chunking {
  import opened Values
  import opened Identifiers
  import opened Tokens
  import opened Builder
  import opened Compile
  import opened Results
  import opened Errors
  import opened Writes
  import opened Predicates
  import Text

  /** The rows after the first `n`. */
  function Drop<T>(rows: seq<T>, n: nat): (r: seq<T>)
    ensures |r| == if n >= |rows| then 0 else |rows| - n
  {
    if n >= |rows| then [] else rows[n..]
  }

  /** What `LIMIT offset,size` returns from the table for a size of zero or
      more: at most `size` rows starting after the first `offset`, so nothing
      for a size of zero. A negative size never reaches a page (`Chunk`
      stops with the database's refusal first); the `size <= 0` branch only
      makes the function total. */
  function Page<T>(rows: seq<T>, size: int, offset: nat): (r: seq<T>)
  {
    var rest := Drop(rows, offset);
    if size <= 0 then [] else if |rest| <= size then rest else rest[..size]
  }

  /** The page query: `table($this->_table)` resets every query field,
      `fetchClass` is `'array'`, then `get($limit, $offset)` sets both. */
  function PageQuery(q: State, table: Ident, size: int, offset: int): Result<State, QueryError>
  {
    var p :- Table(q.(fetchClass := "array"), table);
    Ok(Offset(Limit(p, Some(size)), Some(offset)))
  }

  /** The reference split of the table into consecutive pages of `size`
      rows, the last one possibly shorter; no pages for a size of zero. */
  function Batches<T>(rows: seq<T>, size: int): seq<seq<T>>
    decreases |rows|
  {
    if size <= 0 || |rows| == 0 then []
    else if |rows| <= size then [rows]
    else [rows[..size]] + Batches(rows[size..], size)
  }

  function Concat<T>(bs: seq<seq<T>>): seq<T>
  {
    if |bs| == 0 then [] else bs[0] + Concat(bs[1..])
  }

  /** `chunk($chunkSize, $callback)`: the table check, then the callable
      check, then `table()` (which refuses a non-string table); then the
      pages fetched until one comes back empty. Returns the batches handed
      to the callback, in call order. `limit()` stores the size through
      `(int)` and the first page renders `LIMIT 0,size`; for a negative size
      that is `LIMIT 0,-n`, which MySQL refuses, so the first `get` throws
      before the callback runs. */
  method Chunk<T>(q: State, size: int, callable: bool, rows: seq<T>)
    returns (r: Result<seq<seq<T>>, QueryError>)
    ensures TableEmpty(q.table) ==> r == Err(TableNotSpecified)
    ensures !TableEmpty(q.table) && !callable ==> r == Err(InvalidCallback)
    ensures !TableEmpty(q.table) && callable && q.table.value.Raw? ==> r == Err(TableNotString)
    ensures !TableEmpty(q.table) && callable && q.table.value.Plain? && size < 0 ==> r == Err(LimitRejected)
    ensures r.Ok? <==> !TableEmpty(q.table) && callable && q.table.value.Plain? && size >= 0
    ensures r.Ok? ==> r.value == Batches(rows, size)
    ensures r.Ok? && size == 0 ==> r.value == []
  {
    if TableEmpty(q.table) {
      return Err(TableNotSpecified);
    }
    if !callable {
      return Err(InvalidCallback);
    }
    if q.table.value.Raw? {
      return Err(TableNotString);
    }
    if size < 0 {
      return Err(LimitRejected);
    }
    var batches := FetchAll(rows, size);
    r := Ok(batches);
  }

  /** The fetch loop of `chunk`: pages at offsets 0, size, 2·size, … until
      one comes back empty; every non-empty page is kept. */
  method FetchAll<T>(rows: seq<T>, size: nat) returns (batches: seq<seq<T>>)
    ensures batches == Batches(rows, size)
  {
    var offset: nat := 0;
    var batch := Page(rows, size, offset);
    batches := [];
    var isEmpty := |batch| == 0;
    while !isEmpty
      invariant batch == Page(rows, size, offset) && isEmpty == (|batch| == 0)
      invariant Fetched(rows, size, offset, batches)
      decreases |rows| - offset
    {
      batches, offset, batch := FetchNext(rows, size, offset, batches, batch);
      isEmpty := |batch| == 0;
    }
    BatchesDone(rows, size, offset, batches);
  }

  /** One turn of the fetch loop: hand the page over, move the offset on by
      one page, fetch the next page. */
  method FetchNext<T>(rows: seq<T>, size: int, offset: nat, batches: seq<seq<T>>, batch: seq<T>)
    returns (batches': seq<seq<T>>, offset': nat, batch': seq<T>)
    requires batch == Page(rows, size, offset) && |batch| > 0
    requires Fetched(rows, size, offset, batches)
    ensures Fetched(rows, size, offset', batches') && batch' == Page(rows, size, offset')
    ensures offset < |rows| && offset < offset'
  {
    FetchStep(rows, size, offset, batches);
    batches' := batches + [batch];
    offset' := offset + size;
    batch' := Page(rows, size, offset');
  }

  /** The batches fetched before `offset` followed by the batches of the
      rest of the table are all the batches. */
  ghost predicate Fetched<T>(rows: seq<T>, size: int, offset: nat, batches: seq<seq<T>>)
  {
    batches + Batches(Drop(rows, offset), size) == Batches(rows, size)
  }

  /** The batches are the pages at offsets 0, size, 2·size, …, and the page
      after the last batch is empty, which ends the loop. */
  lemma BatchesPages<T>(rows: seq<T>, size: int)
    requires size > 0
    ensures forall i :: 0 <= i < |Batches(rows, size)| ==> Batches(rows, size)[i] == Page(rows, size, i * size)
    ensures Page(rows, size, |Batches(rows, size)| * size) == []
  {
    forall i | 0 <= i < |Batches(rows, size)|
      ensures Batches(rows, size)[i] == Page(rows, size, i * size)
    {
      BatchPage(rows, size, i);
    }
    BatchesEnd(rows, size);
  }

  /** Batch `i` is the page at offset `i`·size. */
  lemma {:induction false} BatchPage<T>(rows: seq<T>, size: int, i: nat)
    requires size > 0 && i < |Batches(rows, size)|
    ensures Batches(rows, size)[i] == Page(rows, size, i * size)
    decreases |rows|
  {
    if |rows| <= size {
      assert |Batches(rows, size)| <= 1;
      assert i == 0;
      BatchFirst(rows, size);
    } else if i == 0 {
      BatchFirst(rows, size);
    } else {
      var rest := rows[size..];
      var j := i - 1;
      assert Batches(rows, size) == [rows[..size]] + Batches(rest, size);
      assert Batches(rows, size)[i] == Batches(rest, size)[j];
      BatchPage(rest, size, j);
      PageShift(rows, size, j);
      assert j + 1 == i;
    }
  }

  /** The first batch is the page at offset 0. */
  lemma BatchFirst<T>(rows: seq<T>, size: int)
    requires size > 0 && |Batches(rows, size)| > 0
    ensures Batches(rows, size)[0] == Page(rows, size, 0)
  {
    assert rows[0..] == rows;
    assert Drop(rows, 0) == rows;
    if |rows| <= size {
      assert Batches(rows, size) == [rows];
    } else {
      assert Batches(rows, size)[0] == rows[..size];
    }
  }

  /** The page after the last batch is empty. */
  lemma {:induction false} BatchesEnd<T>(rows: seq<T>, size: int)
    requires size > 0
    ensures Page(rows, size, |Batches(rows, size)| * size) == []
    decreases |rows|
  {
    if |rows| > size {
      var rest := rows[size..];
      var n := |Batches(rest, size)|;
      assert Batches(rows, size) == [rows[..size]] + Batches(rest, size);
      assert |Batches(rows, size)| == n + 1;
      BatchesEnd(rest, size);
      PageShift(rows, size, n);
    }
  }

  /** A page of the rest after the first batch is a later page of the table. */
  lemma PageShift<T>(rows: seq<T>, size: int, i: nat)
    requires 0 < size < |rows|
    ensures Page(rows[size..], size, i * size) == Page(rows, size, (i + 1) * size)
  {
    assert (i + 1) * size == i * size + size;
    if i * size < |rows| - size {
      assert rows[size..][i * size..] == rows[i * size + size..];
    }
  }

  /** One fetch takes the next batch off the rest of the table. */
  lemma BatchesStep<T>(rows: seq<T>, size: int, offset: nat)
    requires Page(rows, size, offset) != []
    ensures size > 0 && offset < |rows|
    ensures Batches(Drop(rows, offset), size) == [Page(rows, size, offset)] + Batches(Drop(rows, offset + size), size)
  {
    var rest := Drop(rows, offset);
    if |rest| > size {
      assert rest[size..] == Drop(rows, offset + size);
    }
  }

  /** One turn of the fetch loop keeps the batches so far followed by those
      of the rest equal to all the batches. */
  lemma FetchStep<T>(rows: seq<T>, size: int, offset: nat, batches: seq<seq<T>>)
    requires |Page(rows, size, offset)| > 0
    requires Fetched(rows, size, offset, batches)
    ensures size > 0 && offset < |rows|
    ensures Fetched(rows, size, offset + size, batches + [Page(rows, size, offset)])
  {
    BatchesStep(rows, size, offset);
    var later := Batches(Drop(rows, offset + size), size);
    assert batches + ([Page(rows, size, offset)] + later) == (batches + [Page(rows, size, offset)]) + later;
  }

  /** An empty fetch means the rest of the table has no more batches, so
      the batches fetched are all of them. */
  lemma BatchesDone<T>(rows: seq<T>, size: int, offset: nat, batches: seq<seq<T>>)
    requires |Page(rows, size, offset)| == 0
    requires Fetched(rows, size, offset, batches)
    ensures batches == Batches(rows, size)
  {
    assert Batches(Drop(rows, offset), size) == [];
    assert batches + [] == batches;
  }

  // ---------------------------------------------------------------------
  // What the callback sees

  /** Every batch is non-empty and holds at most `size` rows; all but the
      last hold exactly `size`. */
  lemma {:induction false} BatchesShape<T>(rows: seq<T>, size: int)
    ensures forall i :: 0 <= i < |Batches(rows, size)| ==> 0 < |Batches(rows, size)[i]| <= size
    ensures forall i :: 0 <= i < |Batches(rows, size)| - 1 ==> |Batches(rows, size)[i]| == size
    decreases |rows|
  {
    if size > 0 && |rows| > size {
      BatchesShape(rows[size..], size);
    }
  }

  /** Put back together, the batches are the whole table in order. */
  lemma {:induction false} BatchesConcat<T>(rows: seq<T>, size: int)
    requires size > 0
    ensures Concat(Batches(rows, size)) == rows
    decreases |rows|
  {
    if |rows| > size {
      var bs := Batches(rows, size);
      BatchesConcat(rows[size..], size);
      assert bs[1..] == Batches(rows[size..], size);
      assert rows == rows[..size] + rows[size..];
    } else if |rows| > 0 {
      assert Concat([rows]) == rows + Concat([]);
    }
  }

  /** The callback runs ceil(n / size) times. */
  lemma {:induction false} BatchesCount<T>(rows: seq<T>, size: int)
    requires size > 0
    ensures |Batches(rows, size)| == (|rows| + size - 1) / size
    decreases |rows|
  {
    if |rows| > size {
      BatchesCount(rows[size..], size);
      DivPlus(|rows| - size + size - 1, size);
    } else if |rows| > 0 {
      DivPlus(|rows| - 1, size);
      DivSmall(|rows| - 1, size);
    } else {
      DivSmall(size - 1, size);
    }
  }

  lemma MulPos(s: int, k: int)
    requires s > 0 && k >= 1
    ensures s * k >= s
    decreases k
  {
    if k > 1 {
      MulPos(s, k - 1);
      assert s * k == s * (k - 1) + s;
    }
  }

  /** Euclidean division is determined by quotient and remainder. */
  lemma DivUnique(a: int, s: int, q: int, r: int)
    requires s > 0 && 0 <= r < s && a == s * q + r
    ensures a / s == q && a % s == r
  {
    var q2, r2 := a / s, a % s;
    assert a == s * q2 + r2;
    if q2 > q {
      MulPos(s, q2 - q);
    }
    if q > q2 {
      MulPos(s, q - q2);
    }
  }

  lemma DivPlus(a: int, s: int)
    requires s > 0
    ensures (a + s) / s == a / s + 1 && (a + s) % s == a % s
  {
    var q, r := a / s, a % s;
    assert a + s == s * (q + 1) + r;
    DivUnique(a + s, s, q + 1, r);
  }

  lemma DivSmall(a: int, s: int)
    requires 0 <= a < s
    ensures a / s == 0
  {
    DivUnique(a, s, 0, a);
  }

  lemma ModMinus(p: int, s: int)
    requires s > 0
    ensures (p - s) % s == p % s
  {
    DivPlus(p - s, s);
  }

  // ---------------------------------------------------------------------
  // The page query

  /** `table()` discards the earlier query: the page query depends on the
      table, the size and the offset only (and the history bound, which
      `initQuery` keeps). */
  lemma PageQueryForgets(q1: State, q2: State, table: Ident, size: int, offset: int)
    requires q1.historyMax == q2.historyMax
    ensures PageQuery(q1, table, size, offset) == PageQuery(q2, table, size, offset)
  {
  }

  /** The statement a page query compiles to. */
  function PageSql(t: string, size: int, offset: int): string
  {
    "SELECT *" + " " + "FROM " + QuoteName(t) + " " + "LIMIT " + Text.IntStr(offset) + "," + Text.IntStr(size)
  }

  /** A page query compiles to `SELECT * FROM t LIMIT offset,size` and binds
      nothing. */
  lemma PageQuerySql(q: State, t: string, size: int, offset: int)
    ensures PageQuery(q, Plain(t), size, offset).Ok?
    ensures ToSql(PageQuery(q, Plain(t), size, offset).value) == Ok(Compiled(PageSql(t, size, offset), []))
  {
    var p := PageQuery(q, Plain(t), size, offset).value;
    assert QueryOf(p) == PageOf(t, size, offset);
    PageRender(t, size, offset);
  }

  function PageOf(t: string, size: int, offset: int): Query
  {
    Query([], [Plain(t)], [], [], [], [], [], Some(size), Some(offset))
  }

  lemma PageRender(t: string, size: int, offset: int)
    ensures Render(PageOf(t, size, offset)) == Ok(Rendered(PageSql(t, size, offset), []))
  {
    var query := PageOf(t, size, offset);
    var sel := SelectFrag([]);
    var from := FromFrag([Plain(t)]);
    var lim := LimitFrag(Some(size), Some(offset));
    assert Clause([], "WHERE") == Ok(Empty);
    assert Clause([], "HAVING") == Ok(Empty);
    assert JoinsFrag([]) == Empty;
    PageParts(t, size, offset);
    PageAssembled(sel, from, lim, t, size, offset);
  }

  lemma PageParts(t: string, size: int, offset: int)
    ensures Parts(PageOf(t, size, offset), Empty, Empty)
         == [SelectFrag([]), FromFrag([Plain(t)]), Empty, Empty, Empty, Empty, Empty, LimitFrag(Some(size), Some(offset))]
  {
    assert JoinsFrag([]) == Empty;
  }

  lemma FromOne(t: string)
    ensures FromFrag([Plain(t)]).text == "FROM " + QuoteName(t) && FromFrag([Plain(t)]).vals == []
  {
    assert Quotes([Plain(t)]) == [Quote(Plain(t))];
  }

  lemma PageAssembled(sel: Frag, from: Frag, lim: Frag, t: string, size: int, offset: int)
    requires sel == SelectFrag([]) && from == FromFrag([Plain(t)]) && lim == LimitFrag(Some(size), Some(offset))
    ensures Assemble([sel, from, Empty, Empty, Empty, Empty, Empty, lim]) == Rendered(PageSql(t, size, offset), [])
  {
    PageJoined(sel, from, lim, t, size, offset);
    PageTrimmed(t, size, offset);
    FromOne(t);
    EightVals(sel, from, Empty, Empty, Empty, Empty, Empty, lim);
  }

  lemma PageJoined(sel: Frag, from: Frag, lim: Frag, t: string, size: int, offset: int)
    requires sel == SelectFrag([]) && from == FromFrag([Plain(t)]) && lim == LimitFrag(Some(size), Some(offset))
    ensures Text.Join(" ", Texts(KeepTruthy([sel, from, Empty, Empty, Empty, Empty, Empty, lim]))) == PageSql(t, size, offset)
  {
    FromOne(t);
    assert sel.text == "SELECT *";
    assert lim.text == "LIMIT " + Text.IntStr(offset) + "," + Text.IntStr(size);
    PageKept(sel, from, lim);
    TextsThree(sel, from, lim);
    JoinThree(sel.text, from.text, lim.text);
    PageSqlParts(t, size, offset);
  }

  lemma TextsThree(a: Frag, b: Frag, c: Frag)
    ensures Texts([a, b, c]) == [a.text, b.text, c.text]
  {
  }

  lemma JoinThree(a: string, b: string, c: string)
    ensures Text.Join(" ", [a, b, c]) == a + " " + b + " " + c
  {
    assert [a, b, c][1..] == [b, c];
    assert [b, c][1..] == [c];
    assert Text.Join(" ", [b, c]) == b + " " + c;
    assert Text.Join(" ", [a, b, c]) == a + " " + (b + " " + c);
  }

  lemma PageSqlParts(t: string, size: int, offset: int)
    ensures PageSql(t, size, offset)
         == "SELECT *" + " " + ("FROM " + QuoteName(t)) + " " + ("LIMIT " + Text.IntStr(offset) + "," + Text.IntStr(size))
  {
    Assoc("SELECT *" + " ", "FROM ", QuoteName(t), " ", "LIMIT ", Text.IntStr(offset), ",", Text.IntStr(size));
  }

  lemma Assoc(a: string, b: string, c: string, d: string, e: string, f: string, g: string, h: string)
    ensures a + b + c + d + e + f + g + h == a + (b + c) + d + (e + f + g + h)
  {
  }

  lemma KeepTruthySnoc(parts: seq<Frag>, last: Frag)
    ensures KeepTruthy(parts + [last]) == KeepTruthy(parts) + (if Truthy(last.text) then [last] else [])
  {
    assert (parts + [last])[..|parts|] == parts;
  }

  /** Of the eight parts only SELECT, FROM and LIMIT are non-empty. */
  lemma PageKept(sel: Frag, from: Frag, lim: Frag)
    requires Truthy(sel.text) && Truthy(from.text) && Truthy(lim.text)
    ensures KeepTruthy([sel, from, Empty, Empty, Empty, Empty, Empty, lim]) == [sel, from, lim]
  {
    var e := Empty;
    KeptFront(sel, from);
    KeepTruthySnoc([sel, from, e, e, e], e);
    assert [sel, from, e, e, e] + [e] == [sel, from, e, e, e, e];
    KeepTruthySnoc([sel, from, e, e, e, e], e);
    assert [sel, from, e, e, e, e] + [e] == [sel, from, e, e, e, e, e];
    KeepTruthySnoc([sel, from, e, e, e, e, e], lim);
    assert [sel, from, e, e, e, e, e] + [lim] == [sel, from, e, e, e, e, e, lim];
  }

  lemma KeptFront(sel: Frag, from: Frag)
    requires Truthy(sel.text) && Truthy(from.text)
    ensures KeepTruthy([sel, from, Empty, Empty, Empty]) == [sel, from]
  {
    var e := Empty;
    KeptPair(sel, from);
    KeepTruthySnoc([sel, from], e);
    assert [sel, from] + [e] == [sel, from, e];
    KeepTruthySnoc([sel, from, e], e);
    assert [sel, from, e] + [e] == [sel, from, e, e];
    KeepTruthySnoc([sel, from, e, e], e);
    assert [sel, from, e, e] + [e] == [sel, from, e, e, e];
  }

  lemma KeptPair(sel: Frag, from: Frag)
    requires Truthy(sel.text) && Truthy(from.text)
    ensures KeepTruthy([sel, from]) == [sel, from]
  {
    KeepTruthySnoc([], sel);
    assert [] + [sel] == [sel];
    KeepTruthySnoc([sel], from);
    assert [sel] + [from] == [sel, from];
  }

  lemma IntStrLast(i: int)
    ensures '0' <= Text.IntStr(i)[|Text.IntStr(i)| - 1] <= '9'
  {
    if i < 0 {
      var n := Text.NatStr(-i);
      assert Text.IntStr(i)[|Text.IntStr(i)| - 1] == n[|n| - 1];
    }
  }

  lemma PageTrimmed(t: string, size: int, offset: int)
    ensures Text.Trim(PageSql(t, size, offset)) == PageSql(t, size, offset)
  {
    var s := PageSql(t, size, offset);
    var n := Text.IntStr(size);
    IntStrLast(size);
    assert s[|s| - 1] == n[|n| - 1];
    assert s[0] == 'S';
    Text.TrimKeeps(s);
  }

  // ---------------------------------------------------------------------
  // each

  /** The rows of one batch with the index the callback receives. */
  function Numbered<T>(b: seq<T>, from: int): (r: seq<(T, int)>)
    ensures |r| == |b|
  {
    seq(|b|, j requires 0 <= j < |b| => (b[j], from + j))
  }

  /** `each` as written: the closure receives `$i` by value, so every batch
      starts counting again from 0. */
  function EachAsWritten<T>(bs: seq<seq<T>>): seq<(T, int)>
  {
    if |bs| == 0 then [] else Numbered(bs[0], 0) + EachAsWritten(bs[1..])
  }

  /** The evidently intended `each`: one running index over the whole table. */
  function EachFrom<T>(bs: seq<seq<T>>, start: int): seq<(T, int)>
  {
    if |bs| == 0 then [] else Numbered(bs[0], start) + EachFrom(bs[1..], start + |bs[0]|)
  }

  function Each<T>(rows: seq<T>, size: int): seq<(T, int)>
  {
    EachFrom(Batches(rows, size), 0)
  }

  /** Each row paired with its position modulo `size`. */
  function ModIndexed<T>(rows: seq<T>, size: int): (r: seq<(T, int)>)
    requires size > 0
    ensures |r| == |rows|
  {
    seq(|rows|, p requires 0 <= p < |rows| => (rows[p], p % size))
  }

  /** As written, the row at position `p` receives `p mod size`. */
  lemma {:induction false} EachAsWrittenIndex<T>(rows: seq<T>, size: int)
    requires size > 0
    ensures EachAsWritten(Batches(rows, size)) == ModIndexed(rows, size)
    decreases |rows|
  {
    var bs := Batches(rows, size);
    if |rows| > size {
      var rest := rows[size..];
      EachAsWrittenIndex(rest, size);
      assert bs[1..] == Batches(rest, size);
      assert EachAsWritten(bs) == Numbered(rows[..size], 0) + EachAsWritten(Batches(rest, size));
      ModJoin(rows, size);
    } else if |rows| > 0 {
      assert EachAsWritten(bs) == Numbered(rows, 0) + EachAsWritten([]);
      assert forall p :: 0 <= p < |rows| ==> ModIndexed(rows, size)[p] == (rows[p], p);
    }
  }

  lemma ModJoin<T>(rows: seq<T>, size: int)
    requires 0 < size < |rows|
    ensures Numbered(rows[..size], 0) + ModIndexed(rows[size..], size) == ModIndexed(rows, size)
  {
    var lhs := Numbered(rows[..size], 0) + ModIndexed(rows[size..], size);
    forall p | 0 <= p < |rows|
      ensures lhs[p] == ModIndexed(rows, size)[p]
    {
      if p >= size {
        assert lhs[p] == ModIndexed(rows[size..], size)[p - size];
        ModMinus(p, size);
      } else {
        DivSmall(p, size);
        DivUnique(p, size, 0, p);
      }
    }
  }

  /** Two rows, one per batch: both are numbered 0. */
  lemma EachRestarts<T>(a: T, b: T)
    ensures EachAsWritten(Batches([a, b], 1)) == [(a, 0), (b, 0)]
  {
    EachAsWrittenIndex([a, b], 1);
    assert ModIndexed([a, b], 1) == [(a, 0), (b, 0)];
  }

  /** Corrected, the row at position `p` receives `p`. */
  lemma {:induction false} EachFromIndex<T>(rows: seq<T>, size: int, start: int)
    requires size > 0
    ensures EachFrom(Batches(rows, size), start) == seq(|rows|, p requires 0 <= p < |rows| => (rows[p], start + p))
    decreases |rows|
  {
    var bs := Batches(rows, size);
    if |rows| > size {
      var rest := rows[size..];
      EachFromIndex(rest, size, start + size);
      assert bs[1..] == Batches(rest, size);
      assert EachFrom(bs, start) == Numbered(rows[..size], start) + Numbered(rest, start + size);
      NumberedSplit(rows, size, start);
    } else if |rows| > 0 {
      assert EachFrom(bs, start) == Numbered(rows, start) + EachFrom([], start + |rows|);
    }
  }

  /** Numbering the two halves of a list, the second from where the first
      stops, numbers the whole list. */
  lemma NumberedSplit<T>(rows: seq<T>, k: int, start: int)
    requires 0 <= k <= |rows|
    ensures Numbered(rows[..k], start) + Numbered(rows[k..], start + k) == Numbered(rows, start)
  {
    var lhs := Numbered(rows[..k], start) + Numbered(rows[k..], start + k);
    forall p | 0 <= p < |rows|
      ensures lhs[p] == Numbered(rows, start)[p]
    {
      if p >= k {
        assert lhs[p] == Numbered(rows[k..], start + k)[p - k];
      }
    }
  }

  lemma EachIndex<T>(rows: seq<T>, size: int)
    requires size > 0
    ensures Each(rows, size) == seq(|rows|, p requires 0 <= p < |rows| => (rows[p], p))
  {
    EachFromIndex(rows, size, 0);
  }

  /** The two agree on the first batch and nowhere after it. */
  lemma EachAgreesOnFirstBatch<T>(rows: seq<T>, size: int)
    requires 0 < size && |rows| <= size
    ensures EachAsWritten(Batches(rows, size)) == Each(rows, size)
  {
    EachAsWrittenIndex(rows, size);
    EachIndex(rows, size);
    forall p | 0 <= p < |rows|
      ensures ModIndexed(rows, size)[p] == (rows[p], p)
    {
      DivUnique(p, size, 0, p);
    }
  }
}

=== FILE: collection.dfy ===
/** The model collection's key-based operations (src/Collection.php). A
    collection is a list of items, each paired with its primary key (what
    `getKey()` returns); the dictionary built from it is a PHP array from
    key to item. */
module ModelCollection {
  import opened OrderedMaps

  /** `getDictionary`: every item under its key. A later item with a key
      already seen replaces the earlier one where it stands. */
  function Dictionary<K(==,!new), T(!new)>(items: seq<(K, T)>): seq<(K, T)>
  {
    SetAll([], items)
  }

  /** The dictionary has each key of the items once, in order of first
      occurrence, holding the last item with that key. */
  lemma DictionaryShape<K(!new), T(!new)>(items: seq<(K, T)>, k: K)
    ensures Valid(Dictionary(items))
    ensures Keys(Dictionary(items)) == NewKeys(Keys(items), [])
    ensures k in Keys(Dictionary(items)) <==> k in Keys(items)
    ensures k in Keys(items) ==> Get(Dictionary(items), k) == Last(items, k)
  {
    SetAllValid([], items);
    SetAllKeys([], items);
    if k in Keys(items) {
      SetAllGet([], items, k);
    }
  }

  /** `add`: the item goes at the end. */
  function Add<K, T>(items: seq<(K, T)>, item: (K, T)): (r: seq<(K, T)>)
    ensures |r| == |items| + 1 && r[|items|] == item
    ensures r[..|items|] == items
  {
    items + [item]
  }

  /** `modelKeys`: the key of every item, in order. */
  function ModelKeys<K(!new), T(!new)>(items: seq<(K, T)>): (r: seq<K>)
    ensures |r| == |items|
    ensures forall i :: 0 <= i < |items| ==> r[i] == items[i].0
  {
    Keys(items)
  }

  /** Adding an item adds its key at the end of the key list. */
  lemma AddKeys<K(!new), T(!new)>(items: seq<(K, T)>, item: (K, T))
    ensures ModelKeys(Add(items, item)) == ModelKeys(items) + [item.0]
  {
  }

  /** After `add`, the dictionary holds the new item under its key and
      every other key as before. */
  lemma AddDictionary<K(!new), T(!new)>(items: seq<(K, T)>, item: (K, T), k: K)
    ensures k in Keys(Dictionary(Add(items, item))) <==> k == item.0 || k in Keys(Dictionary(items))
    ensures k == item.0 ==> Get(Dictionary(Add(items, item)), k) == item.1
    ensures k != item.0 && k in Keys(Dictionary(items)) ==>
      Get(Dictionary(Add(items, item)), k) == Get(Dictionary(items), k)
  {
    var es := Add(items, item);
    DictionaryShape(es, k);
    DictionaryShape(items, k);
    AddLast(items, item, k);
  }

  /** The last item of a key in `items + [item]`. */
  lemma AddLast<K(!new), T(!new)>(items: seq<(K, T)>, item: (K, T), k: K)
    ensures k in Keys(items + [item]) <==> k == item.0 || k in Keys(items)
    ensures k == item.0 ==> Last(items + [item], k) == item.1
    ensures k != item.0 && k in Keys(items) ==> Last(items + [item], k) == Last(items, k)
  {
    var es := items + [item];
    assert Keys(es)[|items|] == item.0;
    if k in Keys(items) {
      var i :| 0 <= i < |items| && Keys(items)[i] == k;
      assert Keys(es)[i] == k;
    }
    if k in Keys(es) && k != item.0 {
      var i :| 0 <= i < |es| && Keys(es)[i] == k;
      assert Keys(items)[i] == k;
    }
    if k == item.0 {
      LastAt(es, k, |items|);
    } else if k in Keys(items) {
      var r := Last(items, k);
      var i :| 0 <= i < |items| && items[i] == (k, r) && forall j :: i < j < |items| ==> items[j].0 != k;
      assert es[i] == items[i];
      forall j | i < j < |es|
        ensures es[j].0 != k
      {
        if j < |items| {
          assert es[j] == items[j];
        }
      }
      LastAt(es, k, i);
    }
  }

  /** The item at the last position carrying a key is its last item. */
  lemma LastAt<K(!new), T(!new)>(es: seq<(K, T)>, k: K, i: nat)
    requires i < |es| && es[i].0 == k
    requires forall j :: i < j < |es| ==> es[j].0 != k
    ensures k in Keys(es) && Last(es, k) == es[i].1
  {
    assert Keys(es)[i] == k;
    var r := Last(es, k);
    var i' :| 0 <= i' < |es| && es[i'] == (k, r) && forall j :: i' < j < |es| ==> es[j].0 != k;
    assert i' == i;
  }

  /** `merge`: the collection's dictionary with the given items assigned
      over it, in order. */
  function Merge<K(==,!new), T(!new)>(items: seq<(K, T)>, others: seq<(K, T)>): seq<(K, T)>
  {
    SetAll(Dictionary(items), others)
  }

  /** A merge holds each key of either side once: the collection's keys
      first, where they were, then the new keys of the argument in order;
      a key of the argument holds its last item there, any other key the
      collection's last item. */
  lemma MergeShape<K(!new), T(!new)>(items: seq<(K, T)>, others: seq<(K, T)>, k: K)
    ensures Valid(Merge(items, others))
    ensures Keys(Merge(items, others)) == NewKeys(Keys(items), []) + NewKeys(Keys(others), NewKeys(Keys(items), []))
    ensures k in Keys(Merge(items, others)) <==> k in Keys(items) || k in Keys(others)
    ensures k in Keys(others) ==> Get(Merge(items, others), k) == Last(others, k)
    ensures k in Keys(items) && k !in Keys(others) ==> Get(Merge(items, others), k) == Last(items, k)
  {
    var d := Dictionary(items);
    DictionaryShape(items, k);
    SetAllValid(d, others);
    SetAllKeys(d, others);
    if k in Keys(items) || k in Keys(others) {
      SetAllGet(d, others, k);
    }
  }

  /** `diff`: the items, in order, whose key is not in the argument's
      dictionary. */
  function Diff<K(==,!new), T(!new)>(items: seq<(K, T)>, others: seq<(K, T)>): seq<(K, T)>
  {
    Select(items, Keys(Dictionary(others)), false)
  }

  /** `intersect`: the items, in order, whose key is in the argument's
      dictionary. */
  function Intersect<K(==,!new), T(!new)>(items: seq<(K, T)>, others: seq<(K, T)>): seq<(K, T)>
  {
    Select(items, Keys(Dictionary(others)), true)
  }

  /** Looking a key up in the argument's dictionary is asking whether one
      of its items has that key. */
  lemma DictionaryKeys<K(!new), T(!new)>(others: seq<(K, T)>)
    ensures forall x :: x in Keys(Dictionary(others)) <==> x in Keys(others)
  {
    forall x
      ensures x in Keys(Dictionary(others)) <==> x in Keys(others)
    {
      DictionaryShape(others, x);
    }
  }

  /** `diff` keeps exactly the items whose key the argument does not have,
      in their order. */
  lemma DiffSpec<K(!new), T(!new)>(items: seq<(K, T)>, others: seq<(K, T)>)
    ensures Diff(items, others) == Select(items, Keys(others), false)
    ensures forall e :: e in Diff(items, others) <==> e in items && e.0 !in Keys(others)
  {
    DictionaryKeys(others);
    SelectSameKeys(items, Keys(Dictionary(others)), Keys(others), false);
  }

  /** `intersect` keeps exactly the items whose key the argument has, in
      their order. */
  lemma IntersectSpec<K(!new), T(!new)>(items: seq<(K, T)>, others: seq<(K, T)>)
    ensures Intersect(items, others) == Select(items, Keys(others), true)
    ensures forall e :: e in Intersect(items, others) <==> e in items && e.0 in Keys(others)
  {
    DictionaryKeys(others);
    SelectSameKeys(items, Keys(Dictionary(others)), Keys(others), true);
  }

  /** The keys left after `diff` are the collection's keys the argument
      lacks; after `intersect`, the ones it has. */
  lemma DiffIntersectKeys<K(!new), T(!new)>(items: seq<(K, T)>, others: seq<(K, T)>, k: K)
    ensures k in ModelKeys(Diff(items, others)) <==> k in ModelKeys(items) && k !in ModelKeys(others)
    ensures k in ModelKeys(Intersect(items, others)) <==> k in ModelKeys(items) && k in ModelKeys(others)
  {
    DiffSpec(items, others);
    IntersectSpec(items, others);
    KeyIn(Diff(items, others), k);
    KeyIn(Intersect(items, others), k);
    KeyIn(items, k);
  }

  /** A key is in the key list exactly when some item carries it. */
  lemma KeyIn<K(!new), T(!new)>(items: seq<(K, T)>, k: K)
    ensures k in ModelKeys(items) <==> exists v :: (k, v) in items
  {
    if k in ModelKeys(items) {
      var i :| 0 <= i < |items| && ModelKeys(items)[i] == k;
      assert (k, items[i].1) == items[i];
    }
    if exists v :: (k, v) in items {
      var v :| (k, v) in items;
      var i :| 0 <= i < |items| && items[i] == (k, v);
      assert ModelKeys(items)[i] == k;
    }
  }

  /** `diff` and `intersect` against the same items split the collection:
      every item lands in exactly one of them. */
  lemma DiffIntersectPartition<K(!new), T(!new)>(items: seq<(K, T)>, others: seq<(K, T)>)
    ensures multiset(Diff(items, others)) + multiset(Intersect(items, others)) == multiset(items)
    ensures |Diff(items, others)| + |Intersect(items, others)| == |items|
  {
    SelectSplits(items, Keys(Dictionary(others)));
  }

  /** `unique()` without a key: the values of the dictionary. */
  function Unique<K(==,!new), T(!new)>(items: seq<(K, T)>): seq<(K, T)>
  {
    Dictionary(items)
  }

  /** The unique items have pairwise distinct keys, one for each key of
      the collection, each holding the last item with that key. */
  lemma UniqueShape<K(!new), T(!new)>(items: seq<(K, T)>)
    ensures Distinct(Keys(Unique(items)))
    ensures forall k :: k in Keys(Unique(items)) <==> k in Keys(items)
    ensures forall e :: e in Unique(items) ==> e.0 in Keys(items) && e.1 == Last(items, e.0)
    ensures |Unique(items)| <= |items|
  {
    var u := Unique(items);
    DictionaryKeys(items);
    forall e | e in u
      ensures e.0 in Keys(items) && e.1 == Last(items, e.0)
    {
      DictionaryShape(items, e.0);
      GetEntry(u, e.0, e.1);
    }
    SetAllValid([], items);
    SetAllKeys([], items);
    NewKeysLength(Keys(items), []);
  }

  lemma {:induction false} NewKeysLength<K(!new)>(ks: seq<K>, seen: seq<K>)
    ensures |NewKeys(ks, seen)| <= |ks|
    decreases |ks|
  {
    if |ks| > 0 {
      NewKeysLength(ks[1..], seen);
      NewKeysLength(ks[1..], seen + [ks[0]]);
    }
  }
}

=== FILE: compile.dfy ===
/** Compiling a builder state to SQL text and a value list: the state
    renderers, `toSql`, and the text-building half of `insert`, `update`
    and `delete` (src/Query/QueryBuilder.php). Each renderer returns a
    fragment: the text the source builds and the values it appends to the
    builder's value list while building it. */
module Compile {
  import opened Values
  import opened Tokens
  import opened Identifiers
  import opened Predicates
  import opened Builder
  import opened Results
  import opened Errors
  import Text

  /** `array_map(array($this, 'quoteColumn'), ...)`. */
  function Quotes(ids: seq<Ident>): seq<Frag>
  {
    seq(|ids|, k requires 0 <= k < |ids| => Quote(ids[k]))
  }

  /** `getSelectState`: `SELECT *`, or the quoted fields joined by `,`. */
  function SelectFrag(fields: seq<Ident>): Frag
  {
    if |fields| == 0 then Literal("SELECT *")
    else Literal("SELECT ").Then(JoinFrags(",", Quotes(fields)))
  }

  /** `getFromState`. */
  function FromFrag(tables: seq<Ident>): Frag
  {
    Literal("FROM ").Then(JoinFrags(",", Quotes(tables)))
  }

  /** One entry of `getJoinState`; the type is written as the caller gave it. */
  function JoinFrag(j: JoinSpec): Frag
  {
    match j
    case JoinOn(kind, table, key, op, other) =>
      Literal(kind + " JOIN ").Then(Quote(table)).Then(Literal(" ON ")).Then(Quote(key))
        .Then(Literal(" " + op + " ")).Then(Quote(other))
    case JoinRaw(kind, table, sql, vs) =>
      Literal(kind + " JOIN ").Then(Quote(table)).Then(Literal(" ON ")).Then(RawSql(sql, vs))
  }

  function JoinFragList(js: seq<JoinSpec>): seq<Frag>
  {
    seq(|js|, k requires 0 <= k < |js| => JoinFrag(js[k]))
  }

  /** `getJoinState`: the joins separated by single spaces. */
  function JoinsFrag(js: seq<JoinSpec>): Frag
  {
    JoinFrags(" ", JoinFragList(js))
  }

  /** `getGroupByState`. */
  function GroupFrag(fields: seq<Ident>): Frag
  {
    if |fields| == 0 then Empty
    else Literal("GROUP BY ").Then(JoinFrags(",", Quotes(fields)))
  }

  function OrderList(os: seq<Order>): seq<Frag>
  {
    seq(|os|, k requires 0 <= k < |os| => Quote(os[k].field).Then(Literal(" " + os[k].dir)))
  }

  /** `getOrderByState`. */
  function OrderFrag(os: seq<Order>): Frag
  {
    if |os| == 0 then Empty
    else Literal("ORDER BY ").Then(JoinFrags(",", OrderList(os)))
  }

  /** `getLimitState`: an offset without a limit is not rendered. */
  function LimitFrag(limit: Option<int>, offset: Option<int>): (r: Frag)
    ensures r.vals == [] && (r.text == "" <==> limit.None?)
  {
    if limit.None? then Empty
    else if offset.None? then Literal("LIMIT " + Text.IntStr(limit.value))
    else Literal("LIMIT " + Text.IntStr(offset.value) + "," + Text.IntStr(limit.value))
  }

  /** The part of a builder state that `toSql` renders. */
  datatype Query = Query(
    select: seq<Ident>, from: seq<Ident>, joins: seq<JoinSpec>, wheres: seq<Pred>,
    groups: seq<Ident>, havings: seq<Pred>, orders: seq<Order>,
    limit: Option<int>, offset: Option<int>)

  function QueryOf(q: State): Query
  {
    Query(q.select, q.from, q.joins, q.wheres, q.groups, q.havings, q.orders, q.limit, q.offset)
  }

  /** The eight fragments of `toSql`, in the order it renders them. */
  function Parts(query: Query, wheres: Frag, havings: Frag): seq<Frag>
  {
    [SelectFrag(query.select), FromFrag(query.from), JoinsFrag(query.joins), wheres,
     GroupFrag(query.groups), havings, OrderFrag(query.orders), LimitFrag(query.limit, query.offset)]
  }

  /** `array_filter` on strings keeps the truthy ones: not `""`, not `"0"`. */
  predicate Truthy(s: string)
  {
    s != "" && s != "0"
  }

  function KeepTruthy(parts: seq<Frag>): (r: seq<Frag>)
    ensures forall k :: 0 <= k < |r| ==> r[k] in parts && Truthy(r[k].text)
  {
    if |parts| == 0 then []
    else
      var init := KeepTruthy(parts[..|parts| - 1]);
      var last := parts[|parts| - 1];
      if Truthy(last.text) then init + [last] else init
  }

  /** `array_filter` works fragment by fragment: filtering a concatenation
      filters each half, so the kept fragments keep their order. */
  lemma {:induction false} KeepTruthyAppend(a: seq<Frag>, b: seq<Frag>)
    ensures KeepTruthy(a + b) == KeepTruthy(a) + KeepTruthy(b)
    decreases |b|
  {
    if |b| == 0 {
      assert a + b == a;
    } else {
      var ab := a + b;
      assert ab[..|ab| - 1] == a + b[..|b| - 1];
      assert ab[|ab| - 1] == b[|b| - 1];
      KeepTruthyAppend(a, b[..|b| - 1]);
    }
  }

  /** One fragment is kept exactly when its text is truthy. */
  lemma KeepTruthyOne(p: Frag)
    ensures KeepTruthy([p]) == (if Truthy(p.text) then [p] else [])
  {
    assert [p][..0] == [];
  }

  /** A fragment survives `array_filter` exactly when it is in the list and
      its text is truthy; with `KeepTruthyAppend` and `KeepTruthyOne` this
      says that every truthy fragment is kept, in order, and nothing else. */
  lemma {:induction false} KeepTruthySpec(parts: seq<Frag>)
    ensures forall p :: p in KeepTruthy(parts) <==> p in parts && Truthy(p.text)
    ensures forall a, b :: KeepTruthy(a + b) == KeepTruthy(a) + KeepTruthy(b)
    ensures forall p :: KeepTruthy([p]) == (if Truthy(p.text) then [p] else [])
  {
    forall a, b {
      KeepTruthyAppend(a, b);
    }
    forall p {
      KeepTruthyOne(p);
    }
    KeepTruthyMembers(parts);
  }

  lemma {:induction false} KeepTruthyMembers(parts: seq<Frag>)
    ensures forall p :: p in KeepTruthy(parts) <==> p in parts && Truthy(p.text)
  {
    if |parts| > 0 {
      var init := parts[..|parts| - 1];
      KeepTruthyMembers(init);
      assert parts == init + [parts[|parts| - 1]];
    }
  }

  /** A list of falsy fragments filters to nothing. */
  lemma {:induction false} KeepTruthyNone(parts: seq<Frag>)
    requires forall k :: 0 <= k < |parts| ==> !Truthy(parts[k].text)
    ensures KeepTruthy(parts) == []
  {
    if |parts| > 0 {
      KeepTruthyNone(parts[..|parts| - 1]);
    }
  }

  /** The text `toSql` builds and the values it appends while building it. */
  datatype Rendered = Rendered(sql: string, appended: seq<Value>)

  /** The rendering half of `toSql`: fails without a source; the WHERE list
      is rendered (and may fail) before the HAVING list; the fragments are
      joined by single spaces, the empty ones dropped, and the result
      trimmed. */
  function Render(query: Query): (r: Result<Rendered, QueryError>)
  {
    if |query.from| == 0 then Err(MissingFrom)
    else
      var w :- Clause(query.wheres, "WHERE");
      var h :- Clause(query.havings, "HAVING");
      Ok(Assemble(Parts(query, w, h)))
  }

  /** `trim(implode(' ', array_filter($sql)))`, and the values appended
      while the fragments were built. */
  function Assemble(parts: seq<Frag>): Rendered
  {
    Rendered(Text.Trim(Text.Join(" ", Texts(KeepTruthy(parts)))), AllVals(parts))
  }

  /** What `toSql` leaves behind: the SQL text, and the builder's value list
      after rendering. */
  datatype Compiled = Compiled(sql: string, values: seq<Value>)

  /** `toSql` as written: the rendered values are appended to the list the
      builder already holds, which is never cleared. */
  function ToSql(q: State): (r: Result<Compiled, QueryError>)
  {
    var rendered :- Render(QueryOf(q));
    Ok(Compiled(rendered.sql, q.values + rendered.appended))
  }

  /** The builder after `toSql` (and after a fetch, which also records the
      text as the last SQL): its value list is the compiled one. */
  function AfterToSql(q: State): State
  {
    match ToSql(q)
    case Ok(c) => q.(values := c.values, lastSql := Some(c.sql))
    case Err(_) => q
  }

  /** Corrected fetch: the builder after a fetch records the compiled text
      as the last SQL but leaves its own value list alone, so the values
      `toSql` renders are bound once and the builder compiles to the same
      statement however often it is fetched. */
  function AfterCompile(q: State): State
  {
    match ToSql(q)
    case Ok(c) => q.(lastSql := Some(c.sql))
    case Err(_) => q
  }

  // ---------------------------------------------------------------------
  // toSql: when it fails

  /** `toSql` succeeds exactly when there is a source and both predicate
      lists are well formed; a missing source is reported first. */
  lemma ToSqlOkIff(q: State)
    ensures |q.from| == 0 ==> ToSql(q) == Err(MissingFrom)
    ensures ToSql(q).Ok? <==>
      && |q.from| > 0
      && (forall k :: 0 <= k < |q.wheres| ==> WellFormed(q.wheres[k]))
      && (forall k :: 0 <= k < |q.havings| ==> WellFormed(q.havings[k]))
  {
    ClauseOkIff(q.wheres, "WHERE");
    ClauseOkIff(q.havings, "HAVING");
  }

  // ---------------------------------------------------------------------
  // Every fragment is aligned, and empty exactly when it has nothing to say

  /** Either the empty fragment, or a text of at least two characters:
      `array_filter` then drops exactly the empty fragments. */
  predicate Solid(f: Frag)
  {
    f == Empty || |f.text| >= 2
  }

  lemma JoinFragsFirst(sep: string, parts: seq<Frag>)
    requires |parts| > 0
    ensures |JoinFrags(sep, parts).text| >= |parts[0].text|
  {
    JoinFragsShape(sep, parts);
    assert Texts(parts)[0] == parts[0].text;
  }

  lemma SelectSolid(fields: seq<Ident>)
    ensures Solid(SelectFrag(fields))
  {
  }

  lemma FromSolid(tables: seq<Ident>)
    ensures Solid(FromFrag(tables))
  {
  }

  lemma JoinsSolid(js: seq<JoinSpec>)
    ensures Solid(JoinsFrag(js))
  {
    if |js| > 0 {
      JoinFragsFirst(" ", JoinFragList(js));
      assert |JoinFrag(js[0]).text| >= 6;
    }
  }

  lemma GroupSolid(fields: seq<Ident>)
    ensures Solid(GroupFrag(fields))
  {
  }

  lemma OrderSolid(os: seq<Order>)
    ensures Solid(OrderFrag(os))
  {
  }

  lemma LimitSolid(limit: Option<int>, offset: Option<int>)
    ensures Solid(LimitFrag(limit, offset))
  {
  }

  lemma ClauseSolid(ps: seq<Pred>, keyword: string)
    requires |keyword| > 0 && Clause(ps, keyword).Ok?
    ensures Solid(Clause(ps, keyword).value)
  {
  }

  lemma PartsSolid(query: Query, w: Frag, h: Frag)
    requires Solid(w) && Solid(h)
    ensures forall k :: 0 <= k < |Parts(query, w, h)| ==> Solid(Parts(query, w, h)[k])
  {
    SelectSolid(query.select);
    FromSolid(query.from);
    JoinsSolid(query.joins);
    GroupSolid(query.groups);
    OrderSolid(query.orders);
    LimitSolid(query.limit, query.offset);
    EightSolid(SelectFrag(query.select), FromFrag(query.from), JoinsFrag(query.joins), w,
               GroupFrag(query.groups), h, OrderFrag(query.orders), LimitFrag(query.limit, query.offset));
  }

  lemma EightSolid(a: Frag, b: Frag, c: Frag, d: Frag, e: Frag, f: Frag, g: Frag, h: Frag)
    requires Solid(a) && Solid(b) && Solid(c) && Solid(d) && Solid(e) && Solid(f) && Solid(g) && Solid(h)
    ensures forall k :: 0 <= k < 8 ==> Solid([a, b, c, d, e, f, g, h][k])
  {
  }

  /** Dropping empty fragments drops no values. */
  lemma {:induction false} KeepTruthyVals(parts: seq<Frag>)
    requires forall k :: 0 <= k < |parts| ==> Solid(parts[k])
    ensures AllVals(KeepTruthy(parts)) == AllVals(parts)
  {
    if |parts| > 0 {
      var init := parts[..|parts| - 1];
      var last := parts[|parts| - 1];
      KeepTruthyVals(init);
      if Truthy(last.text) {
        AllValsSnoc(KeepTruthy(init), last);
      } else {
        assert last == Empty;
      }
    }
  }

  lemma AllValsSnoc(parts: seq<Frag>, last: Frag)
    ensures AllVals(parts + [last]) == AllVals(parts) + last.vals
  {
    assert (parts + [last])[..|parts|] == parts;
  }

  lemma QuotesAligned(ids: seq<Ident>)
    ensures forall k :: 0 <= k < |Quotes(ids)| ==> Quotes(ids)[k].Aligned()
  {
    forall k | 0 <= k < |ids|
      ensures Quotes(ids)[k].Aligned()
    {
      QuoteAligned(ids[k]);
    }
  }

  lemma JoinFragAligned(j: JoinSpec)
    ensures JoinFrag(j).Aligned()
  {
    var a := Literal(j.kind + " JOIN ").Then(Quote(j.table));
    var b := a.Then(Literal(" ON "));
    LiteralAligned(j.kind + " JOIN ");
    LiteralAligned(" ON ");
    QuoteAligned(j.table);
    ThenAligned(Literal(j.kind + " JOIN "), Quote(j.table));
    ThenAligned(a, Literal(" ON "));
    match j
    case JoinOn(_, _, key, op, other) =>
      QuoteAligned(key);
      QuoteAligned(other);
      LiteralAligned(" " + op + " ");
      ThenAligned(b, Quote(key));
      ThenAligned(b.Then(Quote(key)), Literal(" " + op + " "));
      ThenAligned(b.Then(Quote(key)).Then(Literal(" " + op + " ")), Quote(other));
    case JoinRaw(_, _, sql, vs) =>
      RawSqlAligned(sql, vs);
      ThenAligned(b, RawSql(sql, vs));
  }

  lemma ListFragAligned(keyword: string, parts: seq<Frag>)
    requires forall k :: 0 <= k < |parts| ==> parts[k].Aligned()
    ensures Literal(keyword).Then(JoinFrags(",", parts)).Aligned()
  {
    LiteralAligned(keyword);
    JoinFragsAligned(",", parts);
    ThenAligned(Literal(keyword), JoinFrags(",", parts));
  }

  lemma SelectAligned(fields: seq<Ident>)
    ensures SelectFrag(fields).Aligned()
  {
    LiteralAligned("SELECT *");
    QuotesAligned(fields);
    ListFragAligned("SELECT ", Quotes(fields));
  }

  lemma FromAligned(tables: seq<Ident>)
    ensures FromFrag(tables).Aligned()
  {
    QuotesAligned(tables);
    ListFragAligned("FROM ", Quotes(tables));
  }

  lemma JoinsAligned(js: seq<JoinSpec>)
    ensures JoinsFrag(js).Aligned()
  {
    forall k | 0 <= k < |js|
      ensures JoinFragList(js)[k].Aligned()
    {
      JoinFragAligned(js[k]);
    }
    JoinFragsAligned(" ", JoinFragList(js));
  }

  lemma GroupAligned(fields: seq<Ident>)
    ensures GroupFrag(fields).Aligned()
  {
    assert Empty.toks == [];
    QuotesAligned(fields);
    ListFragAligned("GROUP BY ", Quotes(fields));
  }

  lemma OrderAligned(os: seq<Order>)
    ensures OrderFrag(os).Aligned()
  {
    assert Empty.toks == [];
    forall k | 0 <= k < |os|
      ensures OrderList(os)[k].Aligned()
    {
      LiteralAligned(" " + os[k].dir);
      QuoteAligned(os[k].field);
      ThenAligned(Quote(os[k].field), Literal(" " + os[k].dir));
    }
    ListFragAligned("ORDER BY ", OrderList(os));
  }

  lemma LimitAligned(limit: Option<int>, offset: Option<int>)
    ensures LimitFrag(limit, offset).Aligned()
  {
    assert Empty.toks == [];
    if limit.Some? {
      if offset.None? {
        LiteralAligned("LIMIT " + Text.IntStr(limit.value));
      } else {
        LiteralAligned("LIMIT " + Text.IntStr(offset.value) + "," + Text.IntStr(limit.value));
      }
    }
  }

  lemma EightAligned(a: Frag, b: Frag, c: Frag, d: Frag, e: Frag, f: Frag, g: Frag, h: Frag)
    requires a.Aligned() && b.Aligned() && c.Aligned() && d.Aligned()
    requires e.Aligned() && f.Aligned() && g.Aligned() && h.Aligned()
    ensures forall k :: 0 <= k < 8 ==> [a, b, c, d, e, f, g, h][k].Aligned()
  {
  }

  lemma PartsAligned(query: Query, w: Frag, h: Frag)
    requires w.Aligned() && h.Aligned()
    ensures forall k :: 0 <= k < |Parts(query, w, h)| ==> Parts(query, w, h)[k].Aligned()
  {
    SelectAligned(query.select);
    FromAligned(query.from);
    JoinsAligned(query.joins);
    GroupAligned(query.groups);
    OrderAligned(query.orders);
    LimitAligned(query.limit, query.offset);
    EightAligned(SelectFrag(query.select), FromFrag(query.from), JoinsFrag(query.joins), w,
                 GroupFrag(query.groups), h, OrderFrag(query.orders), LimitFrag(query.limit, query.offset));
  }

  /** The central alignment property: the rendered text is the trimmed
      text of a fragment whose tokens spell it, and the values rendering
      appends are exactly that fragment's bindings, one per placeholder
      and a raw fragment's values at its position, in text order. */
  lemma RenderAligned(query: Query)
    requires Render(query).Ok?
    ensures var w := Clause(query.wheres, "WHERE").value;
            var h := Clause(query.havings, "HAVING").value;
            var body := JoinFrags(" ", KeepTruthy(Parts(query, w, h)));
      && body.Aligned()
      && Render(query).value.sql == Text.Trim(body.text)
      && Render(query).value.appended == body.vals
  {
    var w := Clause(query.wheres, "WHERE").value;
    var h := Clause(query.havings, "HAVING").value;
    var parts := Parts(query, w, h);
    ClauseAligned(query.wheres, "WHERE");
    ClauseAligned(query.havings, "HAVING");
    ClauseSolid(query.wheres, "WHERE");
    ClauseSolid(query.havings, "HAVING");
    PartsAligned(query, w, h);
    PartsSolid(query, w, h);
    KeepTruthyVals(parts);
    JoinFragsAligned(" ", KeepTruthy(parts));
    JoinFragsShape(" ", KeepTruthy(parts));
  }

  lemma EightVals(a: Frag, b: Frag, c: Frag, d: Frag, e: Frag, f: Frag, g: Frag, h: Frag)
    ensures AllVals([a, b, c, d, e, f, g, h])
         == a.vals + b.vals + c.vals + d.vals + e.vals + f.vals + g.vals + h.vals
  {
    assert [a] == [] + [a];
    AllValsSnoc([], a);
    AllValsSnoc([a], b);
    assert [a] + [b] == [a, b];
    AllValsSnoc([a, b], c);
    assert [a, b] + [c] == [a, b, c];
    AllValsSnoc([a, b, c], d);
    assert [a, b, c] + [d] == [a, b, c, d];
    AllValsSnoc([a, b, c, d], e);
    assert [a, b, c, d] + [e] == [a, b, c, d, e];
    AllValsSnoc([a, b, c, d, e], f);
    assert [a, b, c, d, e] + [f] == [a, b, c, d, e, f];
    AllValsSnoc([a, b, c, d, e, f], g);
    assert [a, b, c, d, e, f] + [g] == [a, b, c, d, e, f, g];
    AllValsSnoc([a, b, c, d, e, f, g], h);
    assert [a, b, c, d, e, f, g] + [h] == [a, b, c, d, e, f, g, h];
  }

  /** The values are appended in rendering order: raw selected fields,
      sources, joins, WHERE, GROUP BY, HAVING, ORDER BY (a limit binds
      nothing). */
  lemma RenderValueOrder(query: Query)
    requires Render(query).Ok?
    ensures Render(query).value.appended
         == SelectFrag(query.select).vals + FromFrag(query.from).vals + JoinsFrag(query.joins).vals
            + Clause(query.wheres, "WHERE").value.vals + GroupFrag(query.groups).vals
            + Clause(query.havings, "HAVING").value.vals + OrderFrag(query.orders).vals
  {
    var w := Clause(query.wheres, "WHERE").value;
    var h := Clause(query.havings, "HAVING").value;
    EightVals(SelectFrag(query.select), FromFrag(query.from), JoinsFrag(query.joins), w,
              GroupFrag(query.groups), h, OrderFrag(query.orders), LimitFrag(query.limit, query.offset));
  }

  /** `toSql` binds, after whatever the builder already holds, exactly the
      values its text calls for, in text order. */
  lemma ToSqlAligned(q: State)
    requires ToSql(q).Ok?
    ensures var query := QueryOf(q);
            var w := Clause(query.wheres, "WHERE").value;
            var h := Clause(query.havings, "HAVING").value;
            var body := JoinFrags(" ", KeepTruthy(Parts(query, w, h)));
      && body.Aligned()
      && ToSql(q).value.sql == Text.Trim(body.text)
      && ToSql(q).value.values == q.values + body.vals
  {
    RenderAligned(QueryOf(q));
  }

  // ---------------------------------------------------------------------
  // Repeated compilation

  function FetchesCorrected(q: State, n: nat): State
  {
    if n == 0 then q else AfterCompile(FetchesCorrected(q, n - 1))
  }

  /** Compilation reads the builder's value list only to extend it. */
  lemma ToSqlIgnoresValues(q: State, vs: seq<Value>, sql: Option<string>)
    ensures ToSql(q.(values := vs, lastSql := sql)).Ok? <==> ToSql(q).Ok?
    ensures ToSql(q).Ok? ==>
      && ToSql(q.(values := vs, lastSql := sql)).value.sql == ToSql(q).value.sql
      && ToSql(q.(values := vs, lastSql := sql)).value.values == vs + ToSql(q).value.values[|q.values|..]
  {
    assert QueryOf(q.(values := vs, lastSql := sql)) == QueryOf(q);
  }

  /** A successful `toSql` extends the builder's list by what rendering
      appends, and a fetch keeps that list. */
  lemma ToSqlOkRender(q: State)
    ensures ToSql(q).Ok? <==> Render(QueryOf(q)).Ok?
  {
  }

  lemma AfterToSqlOk(p: State)
    requires Render(QueryOf(p)).Ok?
    ensures ToSql(p) == Ok(Compiled(Render(QueryOf(p)).value.sql, p.values + Render(QueryOf(p)).value.appended))
    ensures AfterToSql(p).values == p.values + Render(QueryOf(p)).value.appended
  {
  }

  /** As written, compiling a builder a second time binds every rendered
      value a second time, while its text is unchanged. */
  lemma SecondToSqlDuplicates(q: State)
    requires ToSql(q).Ok?
    ensures ToSql(AfterToSql(q)).Ok?
    ensures ToSql(AfterToSql(q)).value.sql == ToSql(q).value.sql
    ensures ToSql(AfterToSql(q)).value.values == ToSql(q).value.values + Render(QueryOf(q)).value.appended
  {
    ToSqlOkRender(q);
    AfterToSqlOk(q);
    assert QueryOf(AfterToSql(q)) == QueryOf(q);
    AfterToSqlOk(AfterToSql(q));
  }

  /** For a fresh builder that binds anything, the second fetch passes
      twice as many values as the first, for the same text. */
  lemma SecondFetchMismatch(q: State)
    requires ToSql(q).Ok? && q.values == [] && |ToSql(q).value.values| > 0
    ensures ToSql(AfterToSql(q)).value.sql == ToSql(q).value.sql
    ensures |ToSql(AfterToSql(q)).value.values| == 2 * |ToSql(q).value.values|
  {
    ToSqlOkRender(q);
    AfterToSqlOk(q);
    SecondToSqlDuplicates(q);
  }

  /** Corrected: however many times a builder is fetched, it compiles to
      the same text and the same values. */
  lemma {:induction false} RepeatedCompileStable(q: State, n: nat)
    ensures FetchesCorrected(q, n).(lastSql := q.lastSql) == q
    ensures ToSql(FetchesCorrected(q, n)) == ToSql(q)
  {
    if n > 0 {
      RepeatedCompileStable(q, n - 1);
    }
    var p := FetchesCorrected(q, n);
    ToSqlIgnoresValues(q, q.values, p.lastSql);
    assert p == q.(values := q.values, lastSql := p.lastSql);
  }

  /** Corrected, for a builder that holds no values yet: every fetch,
      however many came before, binds exactly the values its statement's
      placeholders and raw fragments call for, in text order, and as many
      as the first fetch. */
  lemma CorrectedFetchAligned(q: State, n: nat)
    requires ToSql(q).Ok? && q.values == []
    ensures ToSql(FetchesCorrected(q, n)).Ok?
    ensures var query := QueryOf(q);
            var w := Clause(query.wheres, "WHERE").value;
            var h := Clause(query.havings, "HAVING").value;
            var body := JoinFrags(" ", KeepTruthy(Parts(query, w, h)));
            var c := ToSql(FetchesCorrected(q, n)).value;
      && body.Aligned()
      && c.sql == Text.Trim(body.text)
      && c.values == body.vals
      && |c.values| == Holes(body.toks) + RawCount(body.toks)
    ensures |ToSql(FetchesCorrected(q, n)).value.values| == |ToSql(q).value.values|
  {
    RepeatedCompileStable(q, n);
    ToSqlAligned(q);
    var query := QueryOf(q);
    var w := Clause(query.wheres, "WHERE").value;
    var h := Clause(query.havings, "HAVING").value;
    var body := JoinFrags(" ", KeepTruthy(Parts(query, w, h)));
    assert [] + body.vals == body.vals;
    BindingCount(body.toks);
  }

  // ---------------------------------------------------------------------
  // Aggregates

  /** `aggregate($func, $field)` up to the fetch: limit 1, the quoted
      field's raw values appended right away, and the select list
      replaced by the raw text `FUNC(quoted)`. */
  function Aggregate(q: State, func: string, field: Ident): State
  {
    Limit(q, Some(1)).(
      values := q.values + IdentValues(field),
      select := [Raw(func + "(" + QuoteText(field) + ")", [])])
  }

  /** A select list of one raw expression renders as that expression. */
  lemma SelectOneRaw(sql: string)
    ensures SelectFrag([Raw(sql, [])]).text == "SELECT " + sql
    ensures SelectFrag([Raw(sql, [])]).vals == []
  {
    assert Quotes([Raw(sql, [])]) == [Quote(Raw(sql, []))];
  }

  /** An aggregate selects `FUNC(quoted)` with limit 1, and the raw field's
      values come before anything the rendering appends. */
  lemma AggregateSelect(q: State, func: string, field: Ident)
    ensures Aggregate(q, func, field).limit == Some(1)
    ensures SelectFrag(Aggregate(q, func, field).select).text == "SELECT " + func + "(" + QuoteText(field) + ")"
    ensures SelectFrag(Aggregate(q, func, field).select).vals == []
    ensures Aggregate(q, func, field).values == q.values + IdentValues(field)
  {
    SelectOneRaw(func + "(" + QuoteText(field) + ")");
  }

  /** `count()` counts `*`, which is left unquoted. */
  lemma CountStar(q: State)
    ensures SelectFrag(Aggregate(q, "COUNT", Plain("*")).select).text == "SELECT COUNT(*)"
  {
    AggregateSelect(q, "COUNT", Plain("*"));
    QuoteNameStar("*");
  }
}

=== FILE: errors.dfy ===
/** The exceptions the query builder throws, one constructor per message. */
module Errors {

  datatype QueryError =
    | InvalidOperator(op: string)      // "Invalid operator: <op>"
    | CallbackWithOperator(op: string) // "<op> query can not be a callback"
    | InvalidJoinType                  // "Invalid join type"
    | InvalidOrderDirection            // "Invalid order direction"
    | MissingBetweenValues             // "Missing BETWEEN values"
    | MissingInValues                  // "Missing WHERE in values"
    | MissingFrom                      // "Missing FROM statement"
    | TableNotSpecified                // "Table name is not specified"
    | TableNotString                   // "Table name must be a string"
    | EmptyUpdateData                  // "Update data can not be empty"
    | EmptyInsertData                  // "Insert data can not be empty"
    | InvalidCallback                  // "Invalid $callback argument"
    | LimitRejected                    // the database refuses `LIMIT o,-n` in `query()`
}

=== FILE: history.dfy ===
/** The shared query history (`putQueryHistory` and its caller `query` in
    src/Query/QueryBuilder.php): every executed statement is logged in one
    static array shared by all builders, and the oldest entry is shifted
    out once the log is longer than the logging builder's `historyMax`. */
module History {
  import opened Values

  /** A log entry: the SQL alone when nothing was bound, otherwise the SQL
      and its values. */
  datatype Entry = SqlOnly(sql: string) | SqlWithValues(sql: string, values: seq<Value>)

  /** `empty($values) ? $sql : array($sql, $values)`. */
  function EntryOf(sql: string, values: seq<Value>): (r: Entry)
    ensures r.sql == sql
    ensures r.SqlOnly? <==> values == []
    ensures r.SqlWithValues? ==> r.values == values
  {
    if values == [] then SqlOnly(sql) else SqlWithValues(sql, values)
  }

  /** The values a log entry records: none for the bare SQL. */
  function EntryValues(e: Entry): seq<Value>
  {
    match e
    case SqlOnly(_) => []
    case SqlWithValues(_, vs) => vs
  }

  /** An entry records its statement exactly: the SQL and the values can be
      read back from it, and every entry the log can hold (a bare SQL, or
      an SQL with some values) is the entry of what it records. */
  lemma EntryRoundTrip(sql: string, values: seq<Value>, e: Entry)
    ensures EntryOf(sql, values).sql == sql && EntryValues(EntryOf(sql, values)) == values
    ensures (e.SqlWithValues? ==> e.values != []) ==> EntryOf(e.sql, EntryValues(e)) == e
  {
  }

  /** `putQueryHistory` as written: the oldest entry is shifted out only
      when the log is already LONGER than `historyMax` (shifting an empty
      log does nothing), then the new entry is appended. */
  function Put(log: seq<Entry>, max: int, e: Entry): (r: seq<Entry>)
    ensures |r| > 0 && r[|r| - 1] == e
  {
    var kept := if |log| > max && |log| > 0 then log[1..] else log;
    kept + [e]
  }

  /** The log after a run of statements, oldest first. */
  function PutAll(log: seq<Entry>, max: int, es: seq<Entry>): seq<Entry>
    decreases |es|
  {
    if |es| == 0 then log else PutAll(Put(log, max, es[0]), max, es[1..])
  }

  /** `s` is a suffix of `t`. */
  predicate SuffixOf(s: seq<Entry>, t: seq<Entry>)
  {
    |s| <= |t| && s == t[|t| - |s|..]
  }

  /** One put keeps the log a suffix of everything logged, newest last. */
  lemma PutSuffix(log: seq<Entry>, max: int, e: Entry)
    ensures SuffixOf(Put(log, max, e), log + [e])
  {
    if |log| > max && |log| > 0 {
      assert (log + [e])[1..] == log[1..] + [e];
    }
  }

  /** The log is always the newest entries of the whole insertion history:
      a suffix of the initial log followed by every statement, in order. */
  lemma {:induction false} PutAllSuffix(log: seq<Entry>, max: int, es: seq<Entry>)
    ensures SuffixOf(PutAll(log, max, es), log + es)
    decreases |es|
  {
    if |es| > 0 {
      var next := Put(log, max, es[0]);
      var rest := PutAll(next, max, es[1..]);
      assert PutAll(log, max, es) == rest;
      PutSuffix(log, max, es[0]);
      PutAllSuffix(next, max, es[1..]);
      ShiftFirst(log, es);
      SuffixTrans(rest, next + es[1..], log + es, next, log + [es[0]], es[1..]);
    }
  }

  lemma ShiftFirst(log: seq<Entry>, es: seq<Entry>)
    requires |es| > 0
    ensures log + es == (log + [es[0]]) + es[1..]
  {
    assert es == [es[0]] + es[1..];
  }

  lemma SuffixTrans(r: seq<Entry>, a: seq<Entry>, b: seq<Entry>, s: seq<Entry>, t: seq<Entry>, u: seq<Entry>)
    requires SuffixOf(r, a) && a == s + u && b == t + u && SuffixOf(s, t)
    ensures SuffixOf(r, b)
  {
    assert a == b[|t| - |s|..];
  }

  /** One put never grows a log of at most `historyMax + 1` entries beyond
      that bound. */
  lemma PutBound(log: seq<Entry>, max: int, e: Entry)
    requires max >= 0 && |log| <= max + 1
    ensures |Put(log, max, e)| <= max + 1
  {
  }

  /** From an empty log the length never exceeds `historyMax + 1`. */
  lemma {:induction false} PutAllBound(log: seq<Entry>, max: int, es: seq<Entry>)
    requires max >= 0 && |log| <= max + 1
    ensures |PutAll(log, max, es)| <= max + 1
    decreases |es|
  {
    if |es| > 0 {
      PutBound(log, max, es[0]);
      PutAllBound(Put(log, max, es[0]), max, es[1..]);
    }
  }

  /** ... and that bound is reached: `historyMax + 1` statements, not
      `historyMax`, stay in the log. */
  lemma {:induction false} PutAllReaches(log: seq<Entry>, max: int, es: seq<Entry>)
    requires max >= 0 && |log| <= max + 1
    ensures |PutAll(log, max, es)| == if |log| + |es| <= max + 1 then |log| + |es| else max + 1
    decreases |es|
  {
    if |es| > 0 {
      PutAllReaches(Put(log, max, es[0]), max, es[1..]);
    }
  }

  /** With the default bound of 10, eleven statements are all kept. */
  lemma ElevenKept(es: seq<Entry>)
    requires |es| == 11
    ensures PutAll([], 10, es) == es
  {
    PutAllReaches([], 10, es);
    PutAllSuffix([], 10, es);
    assert [] + es == es;
  }

  /** The log is one static array shared by every builder, and a model's
      builder bounds it by 5 while a plain builder keeps 10: once plain
      builders have logged eleven statements, a model's builder sees
      eleven entries, well past its own `historyMax + 1`. The bounds
      above hold only while every put uses the same `historyMax`. */
  lemma {:induction false} SharedLogMixedBounds(es: seq<Entry>, e: Entry)
    requires |es| == 11
    ensures |Put(PutAll([], 10, es), 5, e)| == 11 > 5 + 1
  {
    ElevenKept(es);
  }

  // ---------------------------------------------------------------------
  // The evidently intended bound: at most `historyMax` entries.

  /** The newest `max` entries of the log with `e` appended (none for a
      bound of zero or less). */
  function PutBounded(log: seq<Entry>, max: int, e: Entry): (r: seq<Entry>)
  {
    var all := log + [e];
    if max <= 0 then [] else if |all| > max then all[|all| - max..] else all
  }

  function PutAllBounded(log: seq<Entry>, max: int, es: seq<Entry>): seq<Entry>
    decreases |es|
  {
    if |es| == 0 then log else PutAllBounded(PutBounded(log, max, es[0]), max, es[1..])
  }

  /** The corrected put keeps at most `max` entries, the newest last, and
      the log stays a suffix of everything logged. */
  lemma PutBoundedSpec(log: seq<Entry>, max: int, e: Entry)
    ensures |PutBounded(log, max, e)| <= if max <= 0 then 0 else max
    ensures max > 0 ==> |PutBounded(log, max, e)| > 0 && PutBounded(log, max, e)[|PutBounded(log, max, e)| - 1] == e
    ensures SuffixOf(PutBounded(log, max, e), log + [e])
  {
  }

  /** It agrees with the source whenever the source's log is still short
      enough for the two bounds not to differ. */
  lemma PutBoundedAgrees(log: seq<Entry>, max: int, e: Entry)
    requires max > 0 && |log| < max
    ensures PutBounded(log, max, e) == Put(log, max, e)
  {
  }

  /** Every run of corrected puts keeps at most `max` entries ... */
  lemma {:induction false} PutAllBoundedLength(log: seq<Entry>, max: int, es: seq<Entry>)
    requires max > 0 && |log| <= max
    ensures |PutAllBounded(log, max, es)| <= max
    decreases |es|
  {
    if |es| > 0 {
      PutBoundedSpec(log, max, es[0]);
      PutAllBoundedLength(PutBounded(log, max, es[0]), max, es[1..]);
    }
  }

  /** One corrected put keeps the log a suffix of everything logged. */
  lemma PutBoundedSuffix(log: seq<Entry>, max: int, e: Entry)
    ensures SuffixOf(PutBounded(log, max, e), log + [e])
  {
  }

  /** ... and they are the newest ones, in order. */
  lemma {:induction false} PutAllBoundedSuffix(log: seq<Entry>, max: int, es: seq<Entry>)
    ensures SuffixOf(PutAllBounded(log, max, es), log + es)
    decreases |es|
  {
    if |es| > 0 {
      var next := PutBounded(log, max, es[0]);
      var rest := PutAllBounded(next, max, es[1..]);
      assert PutAllBounded(log, max, es) == rest;
      PutBoundedSuffix(log, max, es[0]);
      PutAllBoundedSuffix(next, max, es[1..]);
      ShiftFirst(log, es);
      SuffixTrans(rest, next + es[1..], log + es, next, log + [es[0]], es[1..]);
    }
  }
}

=== FILE: identifiers.dfy ===
/** Identifier quoting: `quoteColumn` (src/Query/QueryBuilder.php) in the
    MySQL backtick style. An identifier is a plain name or a raw fragment
    (`raw($sql, $values)`), which is passed through verbatim. */
module Identifiers {
  import opened Values
  import opened Tokens
  import Text
  import opened Results

  datatype Ident = Plain(name: string) | Raw(sql: string, values: seq<Value>)

  /** `str_replace("`", "``", s)`: every backtick doubled. */
  function EscapeTicks(s: string): (r: string)
    ensures |r| == |s| + TickCount(s)
  {
    if |s| == 0 then ""
    else EscapeTicks(s[..|s| - 1]) + (if s[|s| - 1] == '`' then "``" else [s[|s| - 1]])
  }

  function TickCount(s: string): nat
  {
    if |s| == 0 then 0 else TickCount(s[..|s| - 1]) + if s[|s| - 1] == '`' then 1 else 0
  }

  /** Reads an escaped name back: a doubled backtick is one backtick, a lone
      backtick is malformed. */
  function UnescapeTicks(s: string): Option<string>
  {
    if |s| == 0 then Some("")
    else if s[0] != '`' then
      match UnescapeTicks(s[1..])
      case Some(t) => Some([s[0]] + t)
      case None => None
    else if |s| >= 2 && s[1] == '`' then
      match UnescapeTicks(s[2..])
      case Some(t) => Some("`" + t)
      case None => None
    else None
  }

  lemma {:induction false} UnescapeAppend(a: string, b: string)
    requires UnescapeTicks(a).Some?
    requires UnescapeTicks(b).Some?
    ensures UnescapeTicks(a + b) == Some(UnescapeTicks(a).value + UnescapeTicks(b).value)
    decreases |a|
  {
    if |a| > 0 {
      var ub := UnescapeTicks(b).value;
      if a[0] != '`' {
        assert (a + b)[1..] == a[1..] + b;
        UnescapeAppend(a[1..], b);
        var ua := UnescapeTicks(a[1..]).value;
        assert UnescapeTicks(a) == Some([a[0]] + ua);
        assert UnescapeTicks(a + b) == Some([a[0]] + (ua + ub));
        assert [a[0]] + (ua + ub) == ([a[0]] + ua) + ub;
      } else {
        assert (a + b)[2..] == a[2..] + b;
        UnescapeAppend(a[2..], b);
        var ua := UnescapeTicks(a[2..]).value;
        assert UnescapeTicks(a) == Some("`" + ua);
        assert UnescapeTicks(a + b) == Some("`" + (ua + ub));
        assert "`" + (ua + ub) == ("`" + ua) + ub;
      }
    } else {
      assert a + b == b;
      assert UnescapeTicks(a).value + UnescapeTicks(b).value == UnescapeTicks(b).value;
    }
  }

  /** Escaping is undone by reading back: distinct names stay distinct once
      quoted. */
  lemma {:induction false} EscapeRoundTrip(s: string)
    ensures UnescapeTicks(EscapeTicks(s)) == Some(s)
  {
    if |s| > 0 {
      var init := s[..|s| - 1];
      var c := s[|s| - 1];
      EscapeRoundTrip(init);
      if c == '`' {
        assert "``"[2..] == "";
        assert "``"[0] == '`' && "``"[1] == '`';
        assert "`" + "" == "`";
        assert UnescapeTicks("``") == Some("`");
        UnescapeAppend(EscapeTicks(init), "``");
      } else {
        assert [c][1..] == "";
        assert [c] + "" == [c];
        assert UnescapeTicks([c]) == Some([c]);
        UnescapeAppend(EscapeTicks(init), [c]);
      }
      assert s == init + [c];
    }
  }

  /** A name wrapped in backticks with its own backticks doubled. */
  function Wrap(s: string): string
  {
    "`" + EscapeTicks(s) + "`"
  }

  /** `quoteColumn` on a plain name: `*` passes through; a name with a `.`
      is split with `explode` and only its first two pieces are quoted, each
      on its own; any other name is wrapped in backticks. */
  function QuoteName(name: string): string
  {
    if name == "*" then name
    else if '.' in name then
      var pieces := Text.Explode(name, '.');
      assert |pieces| >= 2;
      Wrap(pieces[0]) + "." + Wrap(pieces[1])
    else Wrap(name)
  }

  /** The result of `quoteColumn` as a fragment: a plain name becomes literal
      text; a raw identifier contributes its SQL verbatim and appends its
      values to the builder's value list. */
  function Quote(id: Ident): (r: Frag)
    ensures id.Plain? ==> r.vals == [] && r.text == QuoteName(id.name)
    ensures id.Raw? ==> r.vals == id.values && r.text == id.sql
  {
    match id
    case Plain(n) => Literal(QuoteName(n))
    case Raw(sql, vs) => RawSql(sql, vs)
  }

  /** A quoted identifier's tokens spell its text and bind its values: no
      placeholder, and a raw identifier's values at its position. */
  lemma QuoteAligned(id: Ident)
    ensures Quote(id).Aligned() && Holes(Quote(id).toks) == 0 && RawCount(Quote(id).toks) == |Quote(id).vals|
  {
    match id
    case Plain(n) => LiteralAligned(QuoteName(n)); LiteralCounts(QuoteName(n));
    case Raw(sql, vs) => RawSqlAligned(sql, vs);
  }

  /** The string `quoteColumn` returns (aggregate splices it into new raw SQL). */
  function QuoteText(id: Ident): string
  {
    Quote(id).text
  }

  /** The values `quoteColumn` appends. */
  function IdentValues(id: Ident): seq<Value>
  {
    if id.Raw? then id.values else []
  }

  /** `*` is the one name `quoteColumn` passes through bare: every other
      name comes back wrapped in backticks. */
  lemma QuoteNameStar(name: string)
    ensures QuoteName(name) == "*" <==> name == "*"
  {
    if name != "*" {
      assert |Wrap(name)| >= 2;
    }
  }

  /** A name without `.` comes back in backticks, and collapsing the
      doubled backticks inside gives the name again. */
  lemma QuoteNameSimple(name: string)
    requires name != "*" && '.' !in name
    ensures var r := QuoteName(name);
      && |r| >= 2 && r[0] == '`' && r[|r| - 1] == '`'
      && UnescapeTicks(r[1..|r| - 1]) == Some(name)
  {
    var r := QuoteName(name);
    assert r[1..|r| - 1] == EscapeTicks(name);
    EscapeRoundTrip(name);
  }

  /** A quoted plain name is never empty and ends in a backtick or `*`. */
  lemma QuoteNameEnds(name: string)
    ensures |QuoteName(name)| > 0
    ensures QuoteName(name)[|QuoteName(name)| - 1] in {'`', '*'}
  {
  }

  /** `a.b.rest` quotes `a` and `b` on their own and drops `rest`. */
  lemma QuoteNameDotted(a: string, b: string, rest: string)
    requires '.' !in a && '.' !in b
    requires rest == "" || rest[0] == '.'
    ensures QuoteName(a + "." + b + rest) == Wrap(a) + "." + Wrap(b)
  {
    var name := a + "." + b + rest;
    ExplodeFirstTwo(a, b, rest);
    assert name[|a|] == '.';
    assert '.' in name;
    assert name != "*" by {
      assert '.' !in "*";
    }
    var pieces := Text.Explode(name, '.');
    assert QuoteName(name) == Wrap(pieces[0]) + "." + Wrap(pieces[1]);
  }

  lemma ExplodeFirstTwo(a: string, b: string, rest: string)
    requires '.' !in a && '.' !in b
    requires rest == "" || rest[0] == '.'
    ensures |Text.Explode(a + "." + b + rest, '.')| >= 2
    ensures Text.Explode(a + "." + b + rest, '.')[0] == a
    ensures Text.Explode(a + "." + b + rest, '.')[1] == b
  {
    var tail := b + rest;
    assert a + "." + b + rest == a + ['.'] + tail;
    Text.ExplodeCons(a, '.', tail);
    if rest == "" {
      assert tail == b;
      Text.ExplodeNone(b, '.');
    } else {
      assert tail == b + ['.'] + rest[1..];
      Text.ExplodeCons(b, '.', rest[1..]);
    }
  }
}

=== FILE: ordered_maps.dfy ===
/** PHP arrays used as dictionaries: entries in insertion order, looked up
    by key. Assigning to a key that is present overwrites its value in
    place; assigning to a new key appends it at the end. */
module OrderedMaps {

  /** The keys of the entries, in order. */
  function Keys<K(!new), V(!new)>(m: seq<(K, V)>): (r: seq<K>)
    ensures |r| == |m|
    ensures forall i :: 0 <= i < |m| ==> r[i] == m[i].0
    decreases |m|
  {
    if |m| == 0 then [] else [m[0].0] + Keys(m[1..])
  }

  /** No key occurs twice. */
  predicate Distinct<K(==,!new)>(ks: seq<K>)
  {
    forall i, j :: 0 <= i < j < |ks| ==> ks[i] != ks[j]
  }

  /** A well-formed PHP array: every key once. */
  predicate Valid<K(==,!new), V(!new)>(m: seq<(K, V)>)
  {
    Distinct(Keys(m))
  }

  lemma KeysTail<K(!new), V(!new)>(m: seq<(K, V)>)
    requires |m| > 0
    ensures Keys(m) == [m[0].0] + Keys(m[1..])
  {
  }

  /** `$m[$k]` for a key that is present: the value of its entry. */
  function Get<K(==,!new), V(!new)>(m: seq<(K, V)>, k: K): (r: V)
    requires k in Keys(m)
    ensures exists i :: 0 <= i < |m| && m[i] == (k, r)
    ensures Valid(m) ==> forall i :: 0 <= i < |m| && m[i].0 == k ==> m[i].1 == r
    decreases |m|
  {
    KeysTail(m);
    if m[0].0 == k then m[0].1 else Get(m[1..], k)
  }

  /** `$m[$k] = $v`. */
  function Set<K(==,!new), V(!new)>(m: seq<(K, V)>, k: K, v: V): (r: seq<(K, V)>)
    ensures (k, v) in r
    decreases |m|
  {
    if |m| == 0 then [(k, v)]
    else if m[0].0 == k then [(k, v)] + m[1..]
    else [m[0]] + Set(m[1..], k, v)
  }

  /** `$m[$k] = $v` keeps the keys where they are and appends a new key. */
  lemma {:induction false} SetKeys<K(!new), V(!new)>(m: seq<(K, V)>, k: K, v: V)
    ensures Keys(Set(m, k, v)) == if k in Keys(m) then Keys(m) else Keys(m) + [k]
    decreases |m|
  {
    if |m| > 0 {
      KeysTail(m);
      if m[0].0 == k {
        KeysTail(Set(m, k, v));
      } else {
        var rest := Set(m[1..], k, v);
        SetKeys(m[1..], k, v);
        KeysTail([m[0]] + rest);
        assert ([m[0]] + rest)[1..] == rest;
        if k !in Keys(m) {
          assert [m[0].0] + (Keys(m[1..]) + [k]) == ([m[0].0] + Keys(m[1..])) + [k];
        }
      }
    }
  }

  /** On a well-formed array, `$m[$k] = $v` replaces the entry of `k` (or
      adds one) and keeps every other entry. */
  lemma SetEntries<K(!new), V(!new)>(m: seq<(K, V)>, k: K, v: V)
    requires Valid(m)
    ensures Valid(Set(m, k, v))
    ensures forall e :: e in Set(m, k, v) <==> e == (k, v) || (e in m && e.0 != k)
  {
    SetKeys(m, k, v);
    if k !in Keys(m) {
      DistinctSnoc(Keys(m), k);
    }
    SetMembers(m, k, v);
  }

  /** A new key appended to distinct keys keeps them distinct. */
  lemma DistinctSnoc<K(!new)>(ks: seq<K>, k: K)
    requires Distinct(ks) && k !in ks
    ensures Distinct(ks + [k])
  {
  }

  lemma {:induction false} SetMembers<K(!new), V(!new)>(m: seq<(K, V)>, k: K, v: V)
    requires Valid(m)
    ensures forall e :: e in Set(m, k, v) <==> e == (k, v) || (e in m && e.0 != k)
    decreases |m|
  {
    if |m| > 0 {
      ValidTail(m);
      if m[0].0 == k {
        forall e | e in m[1..]
          ensures e.0 != k
        {
          KeyOfEntry(m[1..], e);
        }
        assert m == [m[0]] + m[1..];
      } else {
        SetMembers(m[1..], k, v);
        assert m == [m[0]] + m[1..];
      }
    }
  }

  /** The key of an entry is among the keys. */
  lemma {:induction false} KeyOfEntry<K(!new), V(!new)>(m: seq<(K, V)>, e: (K, V))
    requires e in m
    ensures e.0 in Keys(m)
    decreases |m|
  {
    if m[0] != e {
      KeyOfEntry(m[1..], e);
    }
  }

  /** The first key of a well-formed array does not recur, and the rest is
      well formed. */
  lemma ValidTail<K(!new), V(!new)>(m: seq<(K, V)>)
    requires Valid(m) && |m| > 0
    ensures m[0].0 !in Keys(m[1..])
    ensures Valid(m[1..])
  {
    var ks := Keys(m);
    assert ks[1..] == Keys(m[1..]);
    forall i | 0 <= i < |ks| - 1
      ensures ks[1..][i] != m[0].0
    {
      assert ks[1..][i] == ks[i + 1];
    }
  }

  /** In a well-formed array an entry's value is what a lookup returns. */
  lemma GetEntry<K(!new), V(!new)>(m: seq<(K, V)>, k: K, v: V)
    requires Valid(m) && (k, v) in m
    ensures k in Keys(m) && Get(m, k) == v
  {
    var i :| 0 <= i < |m| && m[i] == (k, v);
    assert Keys(m)[i] == k;
  }

  /** After `$m[$k] = $v` the key reads back `$v` and every other key
      reads as before. */
  lemma GetSet<K(!new), V(!new)>(m: seq<(K, V)>, k: K, v: V, j: K)
    requires Valid(m)
    requires j == k || j in Keys(m)
    ensures j in Keys(Set(m, k, v))
    ensures Get(Set(m, k, v), j) == if j == k then v else Get(m, j)
  {
    var r := Set(m, k, v);
    SetEntries(m, k, v);
    if j == k {
      GetEntry(r, k, v);
    } else {
      var w := Get(m, j);
      assert (j, w) in r;
      GetEntry(r, j, w);
    }
  }

  /** `foreach ($es as $k => $v) $m[$k] = $v;`. */
  function SetAll<K(==,!new), V(!new)>(m: seq<(K, V)>, es: seq<(K, V)>): seq<(K, V)>
    decreases |es|
  {
    if |es| == 0 then m else SetAll(Set(m, es[0].0, es[0].1), es[1..])
  }

  /** Assignments keep a well-formed array well formed. */
  lemma {:induction false} SetAllValid<K(!new), V(!new)>(m: seq<(K, V)>, es: seq<(K, V)>)
    requires Valid(m)
    ensures Valid(SetAll(m, es))
    decreases |es|
  {
    if |es| > 0 {
      SetEntries(m, es[0].0, es[0].1);
      SetAllValid(Set(m, es[0].0, es[0].1), es[1..]);
    }
  }

  /** The keys of `ks` not in `seen`, each once, in order of first
      occurrence. */
  function NewKeys<K(==,!new)>(ks: seq<K>, seen: seq<K>): (r: seq<K>)
    ensures forall x :: x in r <==> x in ks && x !in seen
    decreases |ks|
  {
    if |ks| == 0 then []
    else if ks[0] in seen then NewKeys(ks[1..], seen)
    else [ks[0]] + NewKeys(ks[1..], seen + [ks[0]])
  }

  /** The value of the last entry with key `k`. */
  function Last<K(==,!new), V(!new)>(es: seq<(K, V)>, k: K): (r: V)
    requires k in Keys(es)
    ensures exists i :: 0 <= i < |es| && es[i] == (k, r) && forall j :: i < j < |es| ==> es[j].0 != k
    decreases |es|
  {
    KeysTail(es);
    if k in Keys(es[1..]) then Last(es[1..], k) else es[0].1
  }

  /** Assigning a run of entries keeps the existing keys where they are
      and appends each new key once, at its first assignment. */
  lemma {:induction false} SetAllKeys<K(!new), V(!new)>(m: seq<(K, V)>, es: seq<(K, V)>)
    ensures Keys(SetAll(m, es)) == Keys(m) + NewKeys(Keys(es), Keys(m))
    decreases |es|
  {
    if |es| > 0 {
      var k := es[0].0;
      var next := Set(m, k, es[0].1);
      SetKeys(m, k, es[0].1);
      SetAllKeys(next, es[1..]);
      NewKeysStep(Keys(m), k, Keys(es[1..]));
    }
  }

  /** One step of `NewKeys`, with the old keys as the seen set. */
  lemma NewKeysStep<K(!new)>(seen: seq<K>, k: K, rest: seq<K>)
    ensures (if k in seen then seen else seen + [k]) + NewKeys(rest, if k in seen then seen else seen + [k])
         == seen + NewKeys([k] + rest, seen)
  {
    assert ([k] + rest)[1..] == rest;
  }

  /** ... and every key reads the value of its last assignment, or its old
      value when the run does not assign it. */
  lemma {:induction false} SetAllGet<K(!new), V(!new)>(m: seq<(K, V)>, es: seq<(K, V)>, k: K)
    requires Valid(m)
    requires k in Keys(m) || k in Keys(es)
    ensures k in Keys(SetAll(m, es))
    ensures Get(SetAll(m, es), k) == if k in Keys(es) then Last(es, k) else Get(m, k)
    decreases |es|
  {
    SetAllKeys(m, es);
    if |es| > 0 {
      var next := Set(m, es[0].0, es[0].1);
      KeysTail(es);
      SetEntries(m, es[0].0, es[0].1);
      if k == es[0].0 || k in Keys(m) {
        GetSet(m, es[0].0, es[0].1, k);
      }
      SetAllGet(next, es[1..], k);
    }
  }

  /** The entries whose key is (`keep`) or is not (`!keep`) among `keys`,
      in order: `array_intersect_key` and `array_diff_key` against
      `array_flip($keys)`. */
  function Select<K(==,!new), V(!new)>(m: seq<(K, V)>, keys: seq<K>, keep: bool): (r: seq<(K, V)>)
    ensures forall e :: e in r <==> e in m && (e.0 in keys) == keep
    ensures Keys(r) == SelectKeys(Keys(m), keys, keep)
    decreases |m|
  {
    if |m| == 0 then []
    else
      KeysTail(m);
      var rest := Select(m[1..], keys, keep);
      if (m[0].0 in keys) == keep then
        KeysTail([m[0]] + rest);
        assert ([m[0]] + rest)[1..] == rest;
        [m[0]] + rest
      else rest
  }

  /** The members of `ks` that are (`keep`) or are not (`!keep`) in `keys`,
      in order. */
  function SelectKeys<K(==,!new)>(ks: seq<K>, keys: seq<K>, keep: bool): (r: seq<K>)
    ensures forall x :: x in r <==> x in ks && (x in keys) == keep
    decreases |ks|
  {
    if |ks| == 0 then []
    else if (ks[0] in keys) == keep then [ks[0]] + SelectKeys(ks[1..], keys, keep)
    else SelectKeys(ks[1..], keys, keep)
  }

  /** Selecting keeps a well-formed array well formed. */
  lemma {:induction false} SelectValid<K(!new), V(!new)>(m: seq<(K, V)>, keys: seq<K>, keep: bool)
    requires Valid(m)
    ensures Valid(Select(m, keys, keep))
    decreases |m|
  {
    if |m| > 0 {
      ValidTail(m);
      SelectValid(m[1..], keys, keep);
    }
  }

  /** Keeping and dropping by the same keys split the entries between
      them. */
  lemma {:induction false} SelectSplits<K(!new), V(!new)>(m: seq<(K, V)>, keys: seq<K>)
    ensures multiset(Select(m, keys, true)) + multiset(Select(m, keys, false)) == multiset(m)
    ensures |Select(m, keys, true)| + |Select(m, keys, false)| == |m|
    decreases |m|
  {
    if |m| > 0 {
      var st, sf := Select(m, keys, true), Select(m, keys, false);
      var t, f := Select(m[1..], keys, true), Select(m[1..], keys, false);
      SelectSplits(m[1..], keys);
      assert m == [m[0]] + m[1..];
      var head := multiset{m[0]};
      assert multiset(m) == head + multiset(m[1..]);
      if m[0].0 in keys {
        assert st == [m[0]] + t && sf == f;
        assert multiset(st) == head + multiset(t);
      } else {
        assert st == t && sf == [m[0]] + f;
        assert multiset(sf) == head + multiset(f);
      }
      assert multiset(st) + multiset(sf) == head + (multiset(t) + multiset(f));
    }
  }

  /** Selection depends only on which keys are listed, not on their order
      or repetition. */
  lemma {:induction false} SelectSameKeys<K(!new), V(!new)>(m: seq<(K, V)>, keys: seq<K>, keys2: seq<K>, keep: bool)
    requires forall x :: x in keys <==> x in keys2
    ensures Select(m, keys, keep) == Select(m, keys2, keep)
    decreases |m|
  {
    if |m| > 0 {
      SelectSameKeys(m[1..], keys, keys2, keep);
    }
  }

  /** In a well-formed array the last assignment of a key is its only one. */
  lemma LastIsGet<K(!new), V(!new)>(es: seq<(K, V)>, k: K)
    requires Valid(es) && k in Keys(es)
    ensures Last(es, k) == Get(es, k)
  {
  }
}

=== FILE: predicates.dfy ===
/** WHERE and HAVING predicate lists and their rendering: `getWhereState`
    and `getHavingState` of src/Query/QueryBuilder.php, which have the same
    shape and are modelled by one renderer parameterised by the keyword. */
module Predicates {
  import opened Values
  import opened Tokens
  import opened Identifiers
  import opened Results
  import opened Errors
  import Text

  /** The connector (`type`) stored with each predicate. */
  datatype Conn = And | Or

  function ConnText(c: Conn): string
  {
    match c
    case And => "AND"
    case Or => "OR"
  }

  /** One stored predicate.
      - `Cond`: a field, an upper-cased whitelisted operator and its value;
        the renderer dispatches on the operator.
      - `RawPred`: `whereRaw`/`havingRaw` SQL and its values.
      - `Group`: the predicate list a callback built on a fresh builder. */
  datatype Pred =
    | Cond(conn: Conn, field: Ident, op: string, value: Value)
    | RawPred(conn: Conn, sql: string, values: seq<Value>)
    | Group(conn: Conn, preds: seq<Pred>)

  predicate IsNullOp(op: string) { op == "IS NULL" || op == "IS NOT NULL" }
  predicate IsBetweenOp(op: string) { op == "BETWEEN" || op == "NOT BETWEEN" }
  predicate IsInOp(op: string) { op == "IN" || op == "NOT IN" }

  /** `?` placeholders for the values of an IN list, separated by `,`. */
  function InList(xs: seq<Value>): (r: Frag)
    ensures r.vals == xs
  {
    if |xs| == 0 then Empty
    else if |xs| == 1 then Placeholder(xs[0])
    else InList(xs[..|xs| - 1]).Then(Literal(",")).Then(Placeholder(xs[|xs| - 1]))
  }

  /** The statement one predicate renders to, before its connector. */
  function Statement(p: Pred): Result<Frag, QueryError>
    decreases p
  {
    match p
    case RawPred(_, sql, vs) => Ok(RawSql(sql, vs))
    case Group(_, qs) =>
      if |qs| == 0 then Ok(Empty)
      else
        var inner :- Entries(qs);
        Ok(Literal("(").Then(inner).Then(Literal(")")))
    case Cond(_, field, op, v) =>
      var f := Quote(field);
      if IsNullOp(op) then Ok(f.Then(Literal(" " + op)))
      else if IsBetweenOp(op) then
        if Count(v) < 2 then Err(MissingBetweenValues)
        else
          var lo := v.items[0];
          var hi := v.items[1];
          Ok(f.Then(Literal(" " + op + " ")).Then(Placeholder(lo)).Then(Literal(" AND ")).Then(Placeholder(hi)))
      else if IsInOp(op) then
        if v.Null? then Err(MissingInValues)
        else Ok(f.Then(Literal(" " + op + " (")).Then(InList(Flatten(v))).Then(Literal(")")))
      else Ok(f.Then(Literal(" " + op + " ")).Then(Placeholder(v)))
  }

  /** The entries of a list joined with single spaces; every entry but the
      first is prefixed by its own connector. */
  function Entries(ps: seq<Pred>): Result<Frag, QueryError>
    decreases ps
  {
    if |ps| == 0 then Ok(Empty)
    else
      var init :- Entries(ps[..|ps| - 1]);
      var last :- Statement(ps[|ps| - 1]);
      if |ps| == 1 then Ok(last)
      else Ok(init.Then(Literal(" ")).Then(Literal(ConnText(ps[|ps| - 1].conn) + " ")).Then(last))
  }

  /** A whole clause: nothing for an empty list, otherwise the keyword
      (`WHERE` or `HAVING`), a space and the entries. */
  function Clause(ps: seq<Pred>, keyword: string): Result<Frag, QueryError>
  {
    if |ps| == 0 then Ok(Empty)
    else
      var e :- Entries(ps);
      Ok(Literal(keyword + " ").Then(e))
  }

  /** A predicate that renders without an exception: every BETWEEN (at any
      depth) has at least two bounds and every IN has a non-null value. */
  predicate WellFormed(p: Pred)
    decreases p
  {
    match p
    case RawPred(_, _, _) => true
    case Group(_, qs) => forall k :: 0 <= k < |qs| ==> WellFormed(qs[k])
    case Cond(_, _, op, v) =>
      (IsBetweenOp(op) ==> Count(v) >= 2) && (!IsBetweenOp(op) && IsInOp(op) ==> !v.Null?)
  }

  /** Neither a raw predicate nor a raw field anywhere in the predicate. */
  predicate NoRaw(p: Pred)
    decreases p
  {
    match p
    case RawPred(_, _, _) => false
    case Group(_, qs) => forall k :: 0 <= k < |qs| ==> NoRaw(qs[k])
    case Cond(_, field, _, _) => field.Plain?
  }

  function Repeat(s: string, n: nat): (r: seq<string>)
    ensures |r| == n && forall k :: 0 <= k < n ==> r[k] == s
  {
    if n == 0 then [] else Repeat(s, n - 1) + [s]
  }

  /** An IN list is one `?` per value, separated by `,`, binding the values
      in order and nothing else. */
  lemma {:induction false} InListShape(xs: seq<Value>)
    ensures InList(xs).Aligned()
    ensures Holes(InList(xs).toks) == |xs| && RawCount(InList(xs).toks) == 0
    ensures InList(xs).text == Text.Join(",", Repeat("?", |xs|))
  {
    if |xs| > 1 {
      var init := xs[..|xs| - 1];
      var comma := InList(init).Then(Literal(","));
      InListShape(init);
      LiteralAligned(",");
      PlaceholderAligned(xs[|xs| - 1]);
      LiteralCounts(",");
      PlaceholderCounts(xs[|xs| - 1]);
      ThenAligned(InList(init), Literal(","));
      ThenAligned(comma, Placeholder(xs[|xs| - 1]));
      ThenCounts(InList(init), Literal(","));
      ThenCounts(comma, Placeholder(xs[|xs| - 1]));
      Text.JoinSnoc(",", Repeat("?", |init|), "?");
      assert Repeat("?", |xs|) == Repeat("?", |init|) + ["?"];
    } else if |xs| == 1 {
      PlaceholderAligned(xs[0]);
      PlaceholderCounts(xs[0]);
      assert Repeat("?", 1) == ["?"];
    } else {
      assert InList(xs) == Empty;
      assert Empty.toks == [];
    }
  }

  /** The text of an IN list alone: one `?` per value, comma-separated. */
  lemma {:induction false} InListText(xs: seq<Value>)
    ensures InList(xs).text == Text.Join(",", Repeat("?", |xs|))
  {
    if |xs| > 1 {
      var init := xs[..|xs| - 1];
      InListText(init);
      Text.JoinSnoc(",", Repeat("?", |init|), "?");
      assert Repeat("?", |xs|) == Repeat("?", |init|) + ["?"];
    } else if |xs| == 1 {
      assert Repeat("?", 1) == ["?"];
    }
  }

  /** Rendering keeps the text and the appended values aligned: the values
      appended are exactly the placeholders' values and the raw fragments'
      values, in the order they appear in the text. */
  lemma {:induction false} StatementAligned(p: Pred)
    requires Statement(p).Ok?
    ensures Statement(p).value.Aligned()
    decreases p
  {
    match p
    case RawPred(_, sql, vs) =>
      RawSqlAligned(sql, vs);
    case Group(_, qs) =>
      if |qs| > 0 {
        EntriesAligned(qs);
        ParenAligned(Entries(qs).value);
      } else {
        assert Empty.toks == [];
      }
    case Cond(c, field, op, v) =>
      CondAligned(c, field, op, v);
  }

  lemma ParenAligned(inner: Frag)
    requires inner.Aligned()
    ensures Literal("(").Then(inner).Then(Literal(")")).Aligned()
  {
    LiteralAligned("(");
    LiteralAligned(")");
    ThenAligned(Literal("("), inner);
    ThenAligned(Literal("(").Then(inner), Literal(")"));
  }

  lemma CondAligned(c: Conn, field: Ident, op: string, v: Value)
    requires Statement(Cond(c, field, op, v)).Ok?
    ensures Statement(Cond(c, field, op, v)).value.Aligned()
  {
    var f := Quote(field);
    QuoteAligned(field);
    if IsNullOp(op) {
      LiteralAligned(" " + op);
      ThenAligned(f, Literal(" " + op));
    } else if IsBetweenOp(op) {
      BetweenFrag(c, field, op, v);
      var a := f.Then(Literal(" " + op + " "));
      var b := a.Then(Placeholder(v.items[0]));
      var d := b.Then(Literal(" AND "));
      LiteralAligned(" " + op + " ");
      LiteralAligned(" AND ");
      PlaceholderAligned(v.items[0]);
      PlaceholderAligned(v.items[1]);
      ThenAligned(f, Literal(" " + op + " "));
      ThenAligned(a, Placeholder(v.items[0]));
      ThenAligned(b, Literal(" AND "));
      ThenAligned(d, Placeholder(v.items[1]));
    } else if IsInOp(op) {
      InFrag(c, field, op, v);
      var open := Literal(" " + op + " (");
      var xs := InList(Flatten(v));
      InListShape(Flatten(v));
      LiteralAligned(" " + op + " (");
      LiteralAligned(")");
      ThenAligned(f, open);
      ThenAligned(f.Then(open), xs);
      ThenAligned(f.Then(open).Then(xs), Literal(")"));
    } else {
      CompareFrag(c, field, op, v);
      LiteralAligned(" " + op + " ");
      PlaceholderAligned(v);
      ThenAligned(f, Literal(" " + op + " "));
      ThenAligned(f.Then(Literal(" " + op + " ")), Placeholder(v));
    }
  }

  lemma {:induction false} EntriesAligned(ps: seq<Pred>)
    requires Entries(ps).Ok?
    ensures Entries(ps).value.Aligned()
    decreases ps
  {
    if |ps| > 0 {
      var init := Entries(ps[..|ps| - 1]).value;
      var last := Statement(ps[|ps| - 1]).value;
      EntriesAligned(ps[..|ps| - 1]);
      StatementAligned(ps[|ps| - 1]);
      if |ps| > 1 {
        var sep := Literal(ConnText(ps[|ps| - 1].conn) + " ");
        LiteralAligned(" ");
        LiteralAligned(ConnText(ps[|ps| - 1].conn) + " ");
        ThenAligned(init, Literal(" "));
        ThenAligned(init.Then(Literal(" ")), sep);
        ThenAligned(init.Then(Literal(" ")).Then(sep), last);
      }
    } else {
      assert Empty.toks == [];
    }
  }

  lemma ClauseAligned(ps: seq<Pred>, keyword: string)
    requires Clause(ps, keyword).Ok?
    ensures Clause(ps, keyword).value.Aligned()
  {
    if |ps| > 0 {
      EntriesAligned(ps);
      LiteralAligned(keyword + " ");
      ThenAligned(Literal(keyword + " "), Entries(ps).value);
    } else {
      assert Empty.toks == [];
    }
  }

  /** A clause renders exactly when every predicate in it is well formed;
      a malformed BETWEEN or IN anywhere fails the whole clause, so no
      partial SQL is ever produced. */
  lemma {:induction false} StatementOkIff(p: Pred)
    ensures Statement(p).Ok? <==> WellFormed(p)
    decreases p
  {
    match p
    case RawPred(_, _, _) =>
    case Cond(_, _, _, _) =>
    case Group(_, qs) =>
      EntriesOkIff(qs);
  }

  lemma {:induction false} EntriesOkIff(ps: seq<Pred>)
    ensures Entries(ps).Ok? <==> forall k :: 0 <= k < |ps| ==> WellFormed(ps[k])
    decreases ps
  {
    if |ps| > 0 {
      var init := ps[..|ps| - 1];
      EntriesOkIff(init);
      StatementOkIff(ps[|ps| - 1]);
      EntriesOkStep(ps);
      AllWellFormedSnoc(ps, init);
    }
  }

  lemma AllWellFormedSnoc(ps: seq<Pred>, init: seq<Pred>)
    requires |ps| > 0 && init == ps[..|ps| - 1]
    ensures (forall k :: 0 <= k < |ps| ==> WellFormed(ps[k]))
        <==> (forall k :: 0 <= k < |init| ==> WellFormed(init[k])) && WellFormed(ps[|ps| - 1])
  {
    assert forall k :: 0 <= k < |init| ==> init[k] == ps[k];
  }

  /** One more entry renders exactly when the earlier ones and it do. */
  lemma EntriesOkStep(ps: seq<Pred>)
    requires |ps| > 0
    ensures Entries(ps).Ok? <==> Entries(ps[..|ps| - 1]).Ok? && Statement(ps[|ps| - 1]).Ok?
  {
  }

  lemma ClauseOkIff(ps: seq<Pred>, keyword: string)
    ensures Clause(ps, keyword).Ok? <==> forall k :: 0 <= k < |ps| ==> WellFormed(ps[k])
  {
    EntriesOkIff(ps);
  }

  /** IS NULL / IS NOT NULL: the quoted field and the operator, no
      placeholder; only a raw field's own values are appended. */
  lemma CondNullCheck(c: Conn, field: Ident, op: string, v: Value)
    requires IsNullOp(op)
    ensures Statement(Cond(c, field, op, v)).Ok?
    ensures Statement(Cond(c, field, op, v)).value.vals == IdentValues(field)
    ensures Holes(Statement(Cond(c, field, op, v)).value.toks) == 0
    ensures Statement(Cond(c, field, op, v)).value.text == QuoteText(field) + " " + op
  {
    LiteralCounts(" " + op);
    ThenCounts(Quote(field), Literal(" " + op));
  }

  /** The fragment a BETWEEN statement is built from. */
  lemma BetweenFrag(c: Conn, field: Ident, op: string, v: Value)
    requires IsBetweenOp(op) && Count(v) >= 2
    ensures Statement(Cond(c, field, op, v))
         == Ok(Quote(field).Then(Literal(" " + op + " ")).Then(Placeholder(v.items[0]))
                 .Then(Literal(" AND ")).Then(Placeholder(v.items[1])))
  {
  }

  lemma BetweenChain(f: Frag, op: string, lo: Value, hi: Value)
    ensures var e := f.Then(Literal(" " + op + " ")).Then(Placeholder(lo))
                      .Then(Literal(" AND ")).Then(Placeholder(hi));
      && e.vals == f.vals + [lo, hi]
      && Holes(e.toks) == Holes(f.toks) + 2
      && e.text == f.text + " " + op + " ? AND ?"
  {
    var a := f.Then(Literal(" " + op + " "));
    var b := a.Then(Placeholder(lo));
    var d := b.Then(Literal(" AND "));
    LiteralCounts(" " + op + " ");
    LiteralCounts(" AND ");
    PlaceholderCounts(lo);
    PlaceholderCounts(hi);
    ThenCounts(f, Literal(" " + op + " "));
    ThenCounts(a, Placeholder(lo));
    ThenCounts(b, Literal(" AND "));
    ThenCounts(d, Placeholder(hi));
  }

  /** [NOT] BETWEEN: fails with fewer than two bounds; otherwise exactly two
      placeholders, bound to the first two bounds in order. */
  lemma CondBetween(c: Conn, field: Ident, op: string, v: Value)
    requires IsBetweenOp(op)
    ensures Count(v) < 2 <==> Statement(Cond(c, field, op, v)) == Err(MissingBetweenValues)
    ensures Count(v) >= 2 ==>
      && Statement(Cond(c, field, op, v)).Ok?
      && Statement(Cond(c, field, op, v)).value.vals == IdentValues(field) + [v.items[0], v.items[1]]
      && Holes(Statement(Cond(c, field, op, v)).value.toks) == 2
      && Statement(Cond(c, field, op, v)).value.text == QuoteText(field) + " " + op + " ? AND ?"
  {
    if Count(v) >= 2 {
      BetweenFrag(c, field, op, v);
      BetweenChain(Quote(field), op, v.items[0], v.items[1]);
    }
  }

  /** The fragment an IN statement is built from. */
  lemma InFrag(c: Conn, field: Ident, op: string, v: Value)
    requires IsInOp(op) && !v.Null?
    ensures Statement(Cond(c, field, op, v))
         == Ok(Quote(field).Then(Literal(" " + op + " (")).Then(InList(Flatten(v))).Then(Literal(")")))
  {
  }

  lemma InChain(f: Frag, op: string, l: Frag)
    ensures var e := f.Then(Literal(" " + op + " (")).Then(l).Then(Literal(")"));
      && e.vals == f.vals + l.vals
      && Holes(e.toks) == Holes(f.toks) + Holes(l.toks)
      && e.text == f.text + " " + op + " (" + l.text + ")"
  {
    var a := f.Then(Literal(" " + op + " ("));
    LiteralCounts(" " + op + " (");
    LiteralCounts(")");
    ThenCounts(f, Literal(" " + op + " ("));
    ThenCounts(a, l);
    ThenCounts(a.Then(l), Literal(")"));
  }

  /** [NOT] IN: fails on a null value; otherwise one placeholder per
      flattened element, joined by `,` with no space, in parentheses (an
      empty list gives `()`). */
  lemma CondIn(c: Conn, field: Ident, op: string, v: Value)
    requires IsInOp(op)
    ensures v.Null? <==> Statement(Cond(c, field, op, v)) == Err(MissingInValues)
    ensures !v.Null? ==>
      && Statement(Cond(c, field, op, v)).Ok?
      && Statement(Cond(c, field, op, v)).value.vals == IdentValues(field) + Flatten(v)
      && Holes(Statement(Cond(c, field, op, v)).value.toks) == |Flatten(v)|
      && Statement(Cond(c, field, op, v)).value.text
         == QuoteText(field) + " " + op + " (" + Text.Join(",", Repeat("?", |Flatten(v)|)) + ")"
  {
    if !v.Null? {
      InFrag(c, field, op, v);
      InListShape(Flatten(v));
      InChain(Quote(field), op, InList(Flatten(v)));
    }
  }

  /** The fragment a comparison statement is built from. */
  lemma CompareFrag(c: Conn, field: Ident, op: string, v: Value)
    requires !IsNullOp(op) && !IsBetweenOp(op) && !IsInOp(op)
    ensures Statement(Cond(c, field, op, v)) == Ok(Quote(field).Then(Literal(" " + op + " ")).Then(Placeholder(v)))
  {
  }

  lemma CompareChain(f: Frag, op: string, v: Value)
    ensures var e := f.Then(Literal(" " + op + " ")).Then(Placeholder(v));
      && e.vals == f.vals + [v]
      && Holes(e.toks) == Holes(f.toks) + 1
      && e.text == f.text + " " + op + " ?"
  {
    LiteralCounts(" " + op + " ");
    PlaceholderCounts(v);
    ThenCounts(f, Literal(" " + op + " "));
    ThenCounts(f.Then(Literal(" " + op + " ")), Placeholder(v));
  }

  /** Any other operator: the quoted field, the operator and one placeholder
      bound to the value. */
  lemma CondCompare(c: Conn, field: Ident, op: string, v: Value)
    requires !IsNullOp(op) && !IsBetweenOp(op) && !IsInOp(op)
    ensures Statement(Cond(c, field, op, v)).Ok?
    ensures Statement(Cond(c, field, op, v)).value.vals == IdentValues(field) + [v]
    ensures Holes(Statement(Cond(c, field, op, v)).value.toks) == 1
    ensures Statement(Cond(c, field, op, v)).value.text == QuoteText(field) + " " + op + " ?"
  {
    CompareFrag(c, field, op, v);
    CompareChain(Quote(field), op, v);
  }

  /** The text one entry contributes to the list: its statement, prefixed
      by its own connector unless it is the first entry. */
  function Word(p: Pred, first: bool): string
    requires WellFormed(p)
  {
    StatementOkIff(p);
    var stmt := Statement(p).value.text;
    if first then stmt else ConnText(p.conn) + " " + stmt
  }

  function Words(ps: seq<Pred>): (r: seq<string>)
    requires forall k :: 0 <= k < |ps| ==> WellFormed(ps[k])
    ensures |r| == |ps|
  {
    if |ps| == 0 then []
    else Words(ps[..|ps| - 1]) + [Word(ps[|ps| - 1], |ps| == 1)]
  }

  /** A predicate list is its entries' words joined by single spaces: the
      first entry carries no connector, every later one its own; an empty
      group still occupies a position (its word is empty or a bare
      connector). */
  lemma {:induction false} EntriesText(ps: seq<Pred>)
    requires forall k :: 0 <= k < |ps| ==> WellFormed(ps[k])
    ensures Entries(ps).Ok? && Entries(ps).value.text == Text.Join(" ", Words(ps))
  {
    EntriesOkIff(ps);
    if |ps| > 1 {
      var init := ps[..|ps| - 1];
      AllWellFormedSnoc(ps, init);
      EntriesText(init);
      EntriesTextStep(ps, init);
      assert Words(ps) == Words(init) + [Word(ps[|ps| - 1], false)];
      Text.JoinSnoc(" ", Words(init), Word(ps[|ps| - 1], false));
    } else if |ps| == 1 {
      assert Words(ps) == [Word(ps[0], true)];
    }
  }

  /** A later entry adds a space and its word to the text so far. */
  lemma EntriesTextStep(ps: seq<Pred>, init: seq<Pred>)
    requires |ps| > 1 && init == ps[..|ps| - 1]
    requires forall k :: 0 <= k < |ps| ==> WellFormed(ps[k])
    requires Entries(init).Ok?
    ensures Entries(ps).Ok? && Entries(ps).value.text == Entries(init).value.text + " " + Word(ps[|ps| - 1], false)
  {
    var p := ps[|ps| - 1];
    StatementOkIff(p);
    var e := Entries(init).value;
    var l := Statement(p).value;
    var c := ConnText(p.conn);
    assert Entries(ps) == Ok(e.Then(Literal(" ")).Then(Literal(c + " ")).Then(l));
    ConnectedText(e, c, l);
    Text.SpacedWord(e.text, c, l.text);
  }

  /** A clause adds its keyword and a space in front of the entries, and
      nothing at all for an empty list. */
  lemma ClauseText(ps: seq<Pred>, keyword: string)
    requires forall k :: 0 <= k < |ps| ==> WellFormed(ps[k])
    ensures Clause(ps, keyword).Ok?
    ensures |ps| == 0 ==> Clause(ps, keyword).value == Empty
    ensures |ps| > 0 ==> Clause(ps, keyword).value.text == keyword + " " + Text.Join(" ", Words(ps))
  {
    EntriesText(ps);
  }

  /** Appending one predicate to a list: the clause renders exactly when
      the old clause and the new statement do, and then it is the old
      clause followed by a space, the new entry's connector and its
      statement (or the keyword and the statement, for the first entry),
      with the new statement's values after the old ones. */
  lemma ClauseSnoc(ps: seq<Pred>, p: Pred, keyword: string)
    ensures Clause(ps + [p], keyword).Ok? <==> Clause(ps, keyword).Ok? && Statement(p).Ok?
    ensures Clause(ps + [p], keyword).Ok? ==>
      && Clause(ps + [p], keyword).value.text
         == (if |ps| == 0 then keyword + " " + Statement(p).value.text
             else Clause(ps, keyword).value.text + " " + ConnText(p.conn) + " " + Statement(p).value.text)
      && Clause(ps + [p], keyword).value.vals == Clause(ps, keyword).value.vals + Statement(p).value.vals
  {
    var qs := ps + [p];
    assert qs[..|qs| - 1] == ps;
    assert qs[|qs| - 1] == p;
    if |ps| > 0 && Entries(ps).Ok? && Statement(p).Ok? {
      ClauseSnocText(ps, p, keyword);
      ClauseSnocVals(ps, p, keyword);
    }
  }

  /** The text of a clause extended by a later entry. */
  lemma ClauseSnocText(ps: seq<Pred>, p: Pred, keyword: string)
    requires |ps| > 0 && Entries(ps).Ok? && Statement(p).Ok?
    ensures Clause(ps + [p], keyword).Ok?
    ensures Clause(ps + [p], keyword).value.text
      == Clause(ps, keyword).value.text + " " + ConnText(p.conn) + " " + Statement(p).value.text
  {
    var e := Entries(ps).value;
    var l := Statement(p).value;
    var c := ConnText(p.conn);
    var n := e.Then(Literal(" ")).Then(Literal(c + " ")).Then(l);
    var head := keyword + " ";
    var tail := c + " " + l.text;
    var et := head + e.text;
    assert Clause(ps + [p], keyword) == Ok(Literal(head).Then(n)) by {
      EntriesSnoc(ps, p);
    }
    assert Clause(ps, keyword) == Ok(Literal(head).Then(e));
    assert Literal(head).Then(n).text == et + " " + c + " " + l.text by {
      ConnectedText(e, c, l);
      Text.Regroup(head, e.text, " ", tail);
      Text.SpacedWord(et, c, l.text);
    }
  }

  /** The values of a clause extended by a later entry. */
  lemma ClauseSnocVals(ps: seq<Pred>, p: Pred, keyword: string)
    requires |ps| > 0 && Entries(ps).Ok? && Statement(p).Ok?
    ensures Clause(ps + [p], keyword).Ok?
    ensures Clause(ps + [p], keyword).value.vals == Clause(ps, keyword).value.vals + Statement(p).value.vals
  {
    var e := Entries(ps).value;
    var l := Statement(p).value;
    var n := e.Then(Literal(" ")).Then(Literal(ConnText(p.conn) + " ")).Then(l);
    assert Clause(ps + [p], keyword) == Ok(Literal(keyword + " ").Then(n)) by {
      EntriesSnoc(ps, p);
    }
    ConnectedVals(e, ConnText(p.conn), l, keyword + " ");
    ConnectedVals(n, "", Empty, keyword + " ");
    assert Clause(ps, keyword) == Ok(Literal(keyword + " ").Then(e));
  }

  /** The entries of a list extended by a later predicate. */
  lemma EntriesSnoc(ps: seq<Pred>, p: Pred)
    requires |ps| > 0 && Entries(ps).Ok? && Statement(p).Ok?
    ensures Entries(ps + [p]) ==
      Ok(Entries(ps).value.Then(Literal(" ")).Then(Literal(ConnText(p.conn) + " ")).Then(Statement(p).value))
  {
    var qs := ps + [p];
    assert qs[..|qs| - 1] == ps;
    assert qs[|qs| - 1] == p;
  }
}

=== FILE: quote_value.dfy ===
/** `quoteValue` (src/Query/QueryBuilder.php), the debug-only escaper: a
    string is passed through seven `str_replace` steps, a list is mapped
    element by element, anything else is returned as it is. */
module QuoteValue {
  import opened Values
  import opened Results

  /** `str_replace` of one character: every occurrence of `c` becomes `rep`. */
  function Replace(s: string, c: char, rep: string): string
  {
    if |s| == 0 then []
    else (if s[0] == c then rep else [s[0]]) + Replace(s[1..], c, rep)
  }

  /** The search list paired with the replacement list, applied in order:
      `\` first, then NUL, newline, carriage return, `'`, `"` and SUB. */
  function ReplaceSteps(s: string): string
  {
    var s1 := Replace(s, '\\', "\\\\");
    var s2 := Replace(s1, 0 as char, "\\0");
    var s3 := Replace(s2, '\n', "\\n");
    var s4 := Replace(s3, '\r', "\\r");
    var s5 := Replace(s4, '\'', "\\'");
    var s6 := Replace(s5, '"', "\\\"");
    Replace(s6, 26 as char, "\\Z")
  }

  /** The characters the escaper rewrites. */
  predicate Special(c: char)
  {
    c == '\\' || c == 0 as char || c == '\n' || c == '\r' || c == '\'' || c == '"' || c == 26 as char
  }

  /** What one character becomes: a backslash and a letter or itself. */
  function EscapeChar(c: char): (r: string)
    ensures Special(c) ==> |r| == 2 && r[0] == '\\'
    ensures !Special(c) ==> r == [c]
  {
    if c == '\\' then "\\\\"
    else if c == 0 as char then "\\0"
    else if c == '\n' then "\\n"
    else if c == '\r' then "\\r"
    else if c == '\'' then "\\'"
    else if c == '"' then "\\\""
    else if c == 26 as char then "\\Z"
    else [c]
  }

  /** The reference escaper: each character on its own. */
  function Escape(s: string): string
  {
    if |s| == 0 then [] else EscapeChar(s[0]) + Escape(s[1..])
  }

  /** `quoteValue`: lists element-wise; a non-empty string other than `"0"`
      is escaped; everything else is returned unchanged. */
  function Quote(v: Value): Value
  {
    match v
    case List(items) => List(seq(|items|, k requires 0 <= k < |items| => Quote(items[k])))
    case Str(s) => if s != "" && s != "0" then Str(ReplaceSteps(s)) else v
    case _ => v
  }

  // ---------------------------------------------------------------------
  // Properties

  lemma {:induction false} ReplaceAppend(a: string, b: string, c: char, rep: string)
    ensures Replace(a + b, c, rep) == Replace(a, c, rep) + Replace(b, c, rep)
    decreases |a|
  {
    if |a| > 0 {
      assert (a + b)[1..] == a[1..] + b;
      ReplaceAppend(a[1..], b, c, rep);
    } else {
      assert a + b == b;
    }
  }

  lemma {:induction false} ReplaceAbsent(s: string, c: char, rep: string)
    requires c !in s
    ensures Replace(s, c, rep) == s
    decreases |s|
  {
    if |s| > 0 {
      ReplaceAbsent(s[1..], c, rep);
    }
  }

  lemma StepsAppend(a: string, b: string)
    ensures ReplaceSteps(a + b) == ReplaceSteps(a) + ReplaceSteps(b)
  {
    var a1 := Replace(a, '\\', "\\\\");
    var b1 := Replace(b, '\\', "\\\\");
    ReplaceAppend(a, b, '\\', "\\\\");
    var a2 := Replace(a1, 0 as char, "\\0");
    var b2 := Replace(b1, 0 as char, "\\0");
    ReplaceAppend(a1, b1, 0 as char, "\\0");
    var a3 := Replace(a2, '\n', "\\n");
    var b3 := Replace(b2, '\n', "\\n");
    ReplaceAppend(a2, b2, '\n', "\\n");
    var a4 := Replace(a3, '\r', "\\r");
    var b4 := Replace(b3, '\r', "\\r");
    ReplaceAppend(a3, b3, '\r', "\\r");
    var a5 := Replace(a4, '\'', "\\'");
    var b5 := Replace(b4, '\'', "\\'");
    ReplaceAppend(a4, b4, '\'', "\\'");
    var a6 := Replace(a5, '"', "\\\"");
    var b6 := Replace(b5, '"', "\\\"");
    ReplaceAppend(a5, b5, '"', "\\\"");
    ReplaceAppend(a6, b6, 26 as char, "\\Z");
  }

  lemma ReplaceOne(x: char, c: char, rep: string)
    ensures Replace([x], c, rep) == if x == c then rep else [x]
  {
    assert [x][1..] == [];
  }

  /** The seven steps on a single character give its escape: no later
      search character occurs in what an earlier step wrote, so nothing is
      escaped twice. */
  lemma StepsChar(c: char)
    ensures ReplaceSteps([c]) == EscapeChar(c)
  {
    if c == '\\' { StepsBackslash(); }
    else if c == 0 as char { StepsNul(); }
    else if c == '\n' { StepsNewline(); }
    else if c == '\r' { StepsReturn(); }
    else if c == '\'' { StepsQuote(); }
    else if c == '"' { StepsDoubleQuote(); }
    else if c == 26 as char { StepsSub(); }
    else { StepsPlain(c); }
  }

  /** A character that is not special passes every step unchanged. */
  lemma StepsPlain(c: char)
    requires !Special(c)
    ensures ReplaceSteps([c]) == [c]
  {
    ReplaceOne(c, '\\', "\\\\");
    ReplaceOne(c, 0 as char, "\\0");
    ReplaceOne(c, '\n', "\\n");
    ReplaceOne(c, '\r', "\\r");
    ReplaceOne(c, '\'', "\\'");
    ReplaceOne(c, '"', "\\\"");
    ReplaceOne(c, 26 as char, "\\Z");
  }

  // Each special character is rewritten by its own step; what that step
  // writes holds none of the later search characters.

  lemma StepsBackslash()
    ensures ReplaceSteps(['\\']) == "\\\\"
  {
    ReplaceOne('\\', '\\', "\\\\");
    ReplaceAbsent("\\\\", 0 as char, "\\0");
    ReplaceAbsent("\\\\", '\n', "\\n");
    ReplaceAbsent("\\\\", '\r', "\\r");
    ReplaceAbsent("\\\\", '\'', "\\'");
    ReplaceAbsent("\\\\", '"', "\\\"");
    ReplaceAbsent("\\\\", 26 as char, "\\Z");
  }

  lemma StepsNul()
    ensures ReplaceSteps([0 as char]) == "\\0"
  {
    ReplaceOne(0 as char, '\\', "\\\\");
    ReplaceOne(0 as char, 0 as char, "\\0");
    ReplaceAbsent("\\0", '\n', "\\n");
    ReplaceAbsent("\\0", '\r', "\\r");
    ReplaceAbsent("\\0", '\'', "\\'");
    ReplaceAbsent("\\0", '"', "\\\"");
    ReplaceAbsent("\\0", 26 as char, "\\Z");
  }

  lemma StepsNewline()
    ensures ReplaceSteps(['\n']) == "\\n"
  {
    ReplaceOne('\n', '\\', "\\\\");
    ReplaceOne('\n', 0 as char, "\\0");
    ReplaceOne('\n', '\n', "\\n");
    ReplaceAbsent("\\n", '\r', "\\r");
    ReplaceAbsent("\\n", '\'', "\\'");
    ReplaceAbsent("\\n", '"', "\\\"");
    ReplaceAbsent("\\n", 26 as char, "\\Z");
  }

  lemma StepsReturn()
    ensures ReplaceSteps(['\r']) == "\\r"
  {
    ReplaceOne('\r', '\\', "\\\\");
    ReplaceOne('\r', 0 as char, "\\0");
    ReplaceOne('\r', '\n', "\\n");
    ReplaceOne('\r', '\r', "\\r");
    ReplaceAbsent("\\r", '\'', "\\'");
    ReplaceAbsent("\\r", '"', "\\\"");
    ReplaceAbsent("\\r", 26 as char, "\\Z");
  }

  lemma StepsQuote()
    ensures ReplaceSteps(['\'']) == "\\'"
  {
    ReplaceOne('\'', '\\', "\\\\");
    ReplaceOne('\'', 0 as char, "\\0");
    ReplaceOne('\'', '\n', "\\n");
    ReplaceOne('\'', '\r', "\\r");
    ReplaceOne('\'', '\'', "\\'");
    ReplaceAbsent("\\'", '"', "\\\"");
    ReplaceAbsent("\\'", 26 as char, "\\Z");
  }

  lemma StepsDoubleQuote()
    ensures ReplaceSteps(['"']) == "\\\""
  {
    ReplaceOne('"', '\\', "\\\\");
    ReplaceOne('"', 0 as char, "\\0");
    ReplaceOne('"', '\n', "\\n");
    ReplaceOne('"', '\r', "\\r");
    ReplaceOne('"', '\'', "\\'");
    ReplaceOne('"', '"', "\\\"");
    ReplaceAbsent("\\\"", 26 as char, "\\Z");
  }

  lemma StepsSub()
    ensures ReplaceSteps([26 as char]) == "\\Z"
  {
    ReplaceOne(26 as char, '\\', "\\\\");
    ReplaceOne(26 as char, 0 as char, "\\0");
    ReplaceOne(26 as char, '\n', "\\n");
    ReplaceOne(26 as char, '\r', "\\r");
    ReplaceOne(26 as char, '\'', "\\'");
    ReplaceOne(26 as char, '"', "\\\"");
    ReplaceOne(26 as char, 26 as char, "\\Z");
  }

  /** The source's chain of `str_replace` calls is the per-character
      escaper. */
  lemma {:induction false} StepsAreEscape(s: string)
    ensures ReplaceSteps(s) == Escape(s)
    decreases |s|
  {
    if |s| > 0 {
      assert s == [s[0]] + s[1..];
      StepsAppend([s[0]], s[1..]);
      StepsChar(s[0]);
      StepsAreEscape(s[1..]);
    }
  }

  /** The character a backslash sequence stands for, by its second
      character. */
  function Unquote(x: char): Option<char>
  {
    if x == '\\' then Some('\\')
    else if x == '0' then Some(0 as char)
    else if x == 'n' then Some('\n')
    else if x == 'r' then Some('\r')
    else if x == '\'' then Some('\'')
    else if x == '"' then Some('"')
    else if x == 'Z' then Some(26 as char)
    else None
  }

  /** The reading of an escaped string back: `\` and a letter give the
      character it stands for; a bare special character cannot occur. */
  function Unescape(s: string): Option<string>
    decreases |s|
  {
    if |s| == 0 then Some([])
    else if s[0] == '\\' then
      if |s| < 2 || Unquote(s[1]).None? then None
      else match Unescape(s[2..])
        case None => None
        case Some(rest) => Some([Unquote(s[1]).value] + rest)
    else if Special(s[0]) then None
    else match Unescape(s[1..])
      case None => None
      case Some(rest) => Some([s[0]] + rest)
  }

  /** The escape of a special character reads back as that character. */
  lemma UnquoteEscape(c: char)
    requires Special(c)
    ensures Unquote(EscapeChar(c)[1]) == Some(c)
  {
  }

  /** Reading back one escaped character, then the rest. */
  lemma UnescapeChar(c: char, t: string)
    ensures Unescape(EscapeChar(c) + t) == match Unescape(t)
      case None => None
      case Some(x) => Some([c] + x)
  {
    var e := EscapeChar(c);
    if Special(c) {
      UnquoteEscape(c);
      assert (e + t)[0] == '\\' && (e + t)[1] == e[1];
      assert (e + t)[2..] == t;
    } else {
      assert (e + t)[0] == c;
      assert (e + t)[1..] == t;
    }
  }

  /** Escaping loses nothing: the original string can be read back. */
  lemma {:induction false} EscapeRoundTrip(s: string)
    ensures Unescape(Escape(s)) == Some(s)
    decreases |s|
  {
    if |s| > 0 {
      UnescapeChar(s[0], Escape(s[1..]));
      EscapeRoundTrip(s[1..]);
      assert s == [s[0]] + s[1..];
    }
  }

  /** Escaping never shortens a string, and it leaves the length alone
      exactly when there is nothing to escape. */
  lemma {:induction false} EscapeLength(s: string)
    ensures |Escape(s)| >= |s|
    ensures |Escape(s)| == |s| <==> forall k :: 0 <= k < |s| ==> !Special(s[k])
    decreases |s|
  {
    if |s| > 0 {
      EscapeLength(s[1..]);
      assert forall k :: 1 <= k < |s| ==> s[k] == s[1..][k - 1];
    }
  }

  /** On a string, the `!empty` guard changes nothing: `""` and `"0"` come
      out of the escaper unchanged anyway. */
  lemma QuoteString(s: string)
    ensures Quote(Str(s)) == Str(Escape(s))
  {
    StepsAreEscape(s);
    if s == "0" {
      assert Escape(s) == EscapeChar('0') + Escape([]);
    }
  }

  /** Non-string scalars are returned unchanged; a string is escaped
      character by character (the `!empty` guard makes no difference); a
      list is quoted element by element, keeping its length and order. */
  lemma QuoteShape(v: Value)
    ensures !v.Str? && !v.List? ==> Quote(v) == v
    ensures v.Str? ==> Quote(v) == Str(Escape(v.s))
    ensures v.Str? ==> |Quote(v).s| >= |v.s|
    ensures v.List? ==> Quote(v).List? && |Quote(v).items| == |v.items|
    ensures v.List? ==> forall k :: 0 <= k < |v.items| ==> Quote(v).items[k] == Quote(v.items[k])
  {
    if v.Str? {
      QuoteString(v.s);
      EscapeLength(v.s);
    }
  }
}

=== FILE: results.dfy ===
/** Failure-compatible wrappers shared by every module of the model.
    `Result` stands for a PHP call that either returns or throws; `Option`
    stands for a PHP value that may be `null`. */
module Results {

  datatype Option<+T> = None | Some(value: T) {

    /** The wrapped value, or `default` for `None`. */
    function GetOr(default: T): T
    {
      match this
      case Some(v) => v
      case None => default
    }
  }

  /** Either a returned value or the exception the source would throw. */
  datatype Result<+T, +E> = Ok(value: T) | Err(error: E) {

    predicate IsFailure() {
      Err?
    }

    function PropagateFailure<U>(): Result<U, E>
      requires Err?
    {
      Err(error)
    }

    function Extract(): T
      requires Ok?
    {
      value
    }
  }
}

=== FILE: text.dfy ===
/** The PHP string built-ins the query builder relies on, over `string`
    (a sequence of characters, one per byte of the PHP string). */
module Text {

  /** `strtoupper` on one character: ASCII letters only (PHP 8 semantics). */
  function UpperChar(c: char): char
  {
    if 'a' <= c <= 'z' then (c as int - 32) as char else c
  }

  /** `strtoupper`. */
  function Upper(s: string): (r: string)
    ensures |r| == |s|
    ensures forall i :: 0 <= i < |s| ==> r[i] == UpperChar(s[i])
  {
    if |s| == 0 then "" else [UpperChar(s[0])] + Upper(s[1..])
  }

  /** Upper-casing is idempotent, and leaves a string without lower-case
      ASCII letters unchanged. */
  lemma UpperIdempotent(s: string)
    ensures Upper(Upper(s)) == Upper(s)
  {
  }

  lemma UpperKeeps(s: string)
    requires forall i :: 0 <= i < |s| ==> !('a' <= s[i] <= 'z')
    ensures Upper(s) == s
  {
  }

  /** The characters `trim` strips by default: space, tab, newline,
      carriage return, NUL and vertical tab. */
  predicate IsTrimmed(c: char)
  {
    c == ' ' || c == '\t' || c == '\n' || c == '\r' || c == 0 as char || c == 11 as char
  }

  function TrimLeft(s: string): string
  {
    if |s| > 0 && IsTrimmed(s[0]) then TrimLeft(s[1..]) else s
  }

  function TrimRight(s: string): string
  {
    if |s| > 0 && IsTrimmed(s[|s| - 1]) then TrimRight(s[..|s| - 1]) else s
  }

  /** `ltrim` drops a prefix made only of whitespace and stops at the first
      other character. */
  lemma {:induction false} TrimLeftSpec(s: string)
    ensures var r := TrimLeft(s);
      && |r| <= |s| && r == s[|s| - |r|..]
      && (forall i :: 0 <= i < |s| - |r| ==> IsTrimmed(s[i]))
      && (|r| > 0 ==> !IsTrimmed(r[0]))
  {
    if |s| > 0 && IsTrimmed(s[0]) {
      TrimLeftSpec(s[1..]);
    }
  }

  /** `rtrim` drops a suffix made only of whitespace and stops at the last
      other character. */
  lemma {:induction false} TrimRightSpec(s: string)
    ensures var r := TrimRight(s);
      && |r| <= |s| && r == s[..|r|]
      && (forall i :: |r| <= i < |s| ==> IsTrimmed(s[i]))
      && (|r| > 0 ==> !IsTrimmed(r[|r| - 1]))
  {
    if |s| > 0 && IsTrimmed(s[|s| - 1]) {
      TrimRightSpec(s[..|s| - 1]);
    }
  }

  /** `trim`: strips the default whitespace set from both ends. */
  function Trim(s: string): string
  {
    TrimLeft(TrimRight(s))
  }

  /** A string that starts and ends with a non-whitespace character is left
      alone by `trim`. */
  lemma TrimKeeps(s: string)
    requires |s| > 0 && !IsTrimmed(s[0]) && !IsTrimmed(s[|s| - 1])
    ensures Trim(s) == s
  {
  }

  /** What `trim` leaves starts and ends with a character it keeps. */
  lemma TrimEnds(s: string)
    ensures var r := Trim(s);
      |r| <= |s| && (|r| > 0 ==> !IsTrimmed(r[0]) && !IsTrimmed(r[|r| - 1]))
  {
    var t := TrimRight(s);
    TrimRightSpec(s);
    TrimLeftSpec(t);
    var r := TrimLeft(t);
    if |r| > 0 {
      assert r[|r| - 1] == t[|t| - 1];
    }
  }

  /** Trimming twice is trimming once. */
  lemma TrimIdempotent(s: string)
    ensures Trim(Trim(s)) == Trim(s)
  {
    TrimEnds(s);
    if |Trim(s)| > 0 {
      TrimKeeps(Trim(s));
    }
  }

  /** A trailing space (an empty last piece after `implode(' ', ...)`) is
      removed by `trim`. */
  lemma TrimSpace(s: string)
    requires |s| > 0 && !IsTrimmed(s[0]) && !IsTrimmed(s[|s| - 1])
    ensures Trim(s + " ") == s
  {
    assert (s + " ")[..|s|] == s;
    assert TrimRight(s + " ") == TrimRight(s);
  }

  /** `implode(sep, parts)`. */
  function Join(sep: string, parts: seq<string>): string
  {
    if |parts| == 0 then ""
    else if |parts| == 1 then parts[0]
    else parts[0] + sep + Join(sep, parts[1..])
  }

  /** Appending one more part adds the separator and the part. */
  lemma {:induction false} JoinSnoc(sep: string, parts: seq<string>, last: string)
    requires |parts| > 0
    ensures Join(sep, parts + [last]) == Join(sep, parts) + sep + last
    decreases |parts|
  {
    if |parts| == 1 {
      assert parts + [last] == [parts[0], last];
    } else {
      assert (parts + [last])[1..] == parts[1..] + [last];
      JoinSnoc(sep, parts[1..], last);
    }
  }

  /** Appending a connector word and its statement after a space. */
  lemma SpacedWord(e: string, c: string, t: string)
    ensures e + " " + (c + " " + t) == e + " " + c + " " + t
  {
  }

  /** Moving a prefix in front of a separated pair. */
  lemma Regroup(h: string, e: string, sep: string, t: string)
    ensures h + (e + sep + t) == (h + e) + sep + t
  {
  }

  /** Position of the first occurrence of `d` in `s`. */
  function IndexOf(s: string, d: char): (i: nat)
    requires d in s
    ensures i < |s| && s[i] == d && d !in s[..i]
  {
    if s[0] == d then 0 else 1 + IndexOf(s[1..], d)
  }

  /** `explode(d, s)` for a one-character delimiter: the pieces contain no
      delimiter and put back together with it they give `s` again. */
  function Explode(s: string, d: char): (r: seq<string>)
    ensures |r| >= 1
    ensures forall k :: 0 <= k < |r| ==> d !in r[k]
    decreases |s|
  {
    if d !in s then [s]
    else
      var i := IndexOf(s, d);
      [s[..i]] + Explode(s[i + 1..], d)
  }

  /** Joining the pieces of `explode` with the delimiter gives the string back. */
  lemma {:induction false} ExplodeJoin(s: string, d: char)
    ensures Join([d], Explode(s, d)) == s
    decreases |s|
  {
    if d in s {
      var i := IndexOf(s, d);
      var rest := Explode(s[i + 1..], d);
      ExplodeJoin(s[i + 1..], d);
      JoinCons([d], s[..i], rest);
      assert s == s[..i] + [d] + s[i + 1..];
    }
  }

  lemma JoinCons(sep: string, first: string, rest: seq<string>)
    requires |rest| > 0
    ensures Join(sep, [first] + rest) == first + sep + Join(sep, rest)
  {
    assert ([first] + rest)[1..] == rest;
  }

  /** The first piece of `explode` is everything before the first delimiter,
      and the pieces after it are those of the rest. */
  lemma ExplodeCons(a: string, d: char, rest: string)
    requires d !in a
    ensures Explode(a + [d] + rest, d) == [a] + Explode(rest, d)
  {
    var s := a + [d] + rest;
    var i := IndexOf(s, d);
    assert s[|a|] == d;
    assert forall j :: 0 <= j < |a| ==> s[j] == a[j];
    assert i == |a| by {
      assert i >= |a| by { assert s[i] == d; }
    }
    assert s[..i] == a;
    assert s[i + 1..] == rest;
  }

  /** A delimiter-free string is its own only piece. */
  lemma ExplodeNone(a: string, d: char)
    requires d !in a
    ensures Explode(a, d) == [a]
  {
  }

  function DigitChar(n: nat): char
    requires n < 10
  {
    ('0' as int + n) as char
  }

  /** Decimal rendering of a natural number, as PHP casts an int to a string. */
  function NatStr(n: nat): (r: string)
    ensures |r| >= 1
    ensures forall i :: 0 <= i < |r| ==> '0' <= r[i] <= '9'
  {
    if n < 10 then [DigitChar(n)] else NatStr(n / 10) + [DigitChar(n % 10)]
  }

  /** Decimal rendering of an integer, with a leading `-` when negative. */
  function IntStr(i: int): (r: string)
    ensures |r| >= 1
  {
    if i < 0 then "-" + NatStr(-i) else NatStr(i)
  }

  /** Reads back a string of decimal digits. */
  function ParseNat(s: string): nat
    requires forall i :: 0 <= i < |s| ==> '0' <= s[i] <= '9'
  {
    if |s| == 0 then 0 else 10 * ParseNat(s[..|s| - 1]) + (s[|s| - 1] as int - '0' as int)
  }

  /** The decimal rendering is read back as the same number. */
  lemma {:induction false} NatStrRoundTrip(n: nat)
    ensures ParseNat(NatStr(n)) == n
  {
    if n >= 10 {
      var s := NatStr(n);
      assert s[..|s| - 1] == NatStr(n / 10);
      NatStrRoundTrip(n / 10);
    }
  }
}

=== FILE: tokens.dfy ===
/** Rendered SQL as a token stream. A `Hole` is a `?` placeholder together
    with the value bound to it, so that "the k-th placeholder is bound to the
    k-th value" can be stated without counting `?` characters that appear
    inside quoted identifiers or raw SQL. */
module Tokens {
  import opened Values
  import Text

  datatype Token =
    | Lit(text: string)                       // literal SQL text
    | Hole(value: Value)                      // one `?` placeholder
    | Inline(sql: string, values: seq<Value>) // caller-trusted raw SQL and its values

  /** The SQL text of one token: a placeholder is written `?`. */
  function TokenSql(t: Token): string
  {
    match t
    case Lit(s) => s
    case Hole(_) => "?"
    case Inline(sql, _) => sql
  }

  /** The values one token binds. */
  function TokenBindings(t: Token): seq<Value>
  {
    match t
    case Lit(_) => []
    case Hole(v) => [v]
    case Inline(_, vs) => vs
  }

  /** The SQL text the tokens spell. */
  function Sql(ts: seq<Token>): string
  {
    if |ts| == 0 then "" else Sql(ts[..|ts| - 1]) + TokenSql(ts[|ts| - 1])
  }

  /** The values bound by the tokens, left to right: one per placeholder,
      and a raw fragment's own values at its position. */
  function Bindings(ts: seq<Token>): seq<Value>
  {
    if |ts| == 0 then [] else Bindings(ts[..|ts| - 1]) + TokenBindings(ts[|ts| - 1])
  }

  /** The number of `?` placeholders. */
  function Holes(ts: seq<Token>): nat
  {
    if |ts| == 0 then 0 else Holes(ts[..|ts| - 1]) + if ts[|ts| - 1].Hole? then 1 else 0
  }

  /** The number of values raw fragments contribute. */
  function RawCount(ts: seq<Token>): nat
  {
    if |ts| == 0 then 0
    else RawCount(ts[..|ts| - 1]) + if ts[|ts| - 1].Inline? then |ts[|ts| - 1].values| else 0
  }

  /** Text, bindings and counts distribute over concatenation. */
  lemma Concat(a: seq<Token>, b: seq<Token>)
    ensures Sql(a + b) == Sql(a) + Sql(b)
    ensures Bindings(a + b) == Bindings(a) + Bindings(b)
    ensures Holes(a + b) == Holes(a) + Holes(b)
    ensures RawCount(a + b) == RawCount(a) + RawCount(b)
  {
    ConcatSql(a, b);
    ConcatBindings(a, b);
    ConcatHoles(a, b);
    ConcatRaw(a, b);
  }

  lemma {:induction false} ConcatSql(a: seq<Token>, b: seq<Token>)
    ensures Sql(a + b) == Sql(a) + Sql(b)
    decreases |b|
  {
    if |b| > 0 {
      var b' := b[..|b| - 1];
      assert (a + b)[..|a + b| - 1] == a + b';
      ConcatSql(a, b');
    } else {
      assert a + b == a;
    }
  }

  lemma {:induction false} ConcatBindings(a: seq<Token>, b: seq<Token>)
    ensures Bindings(a + b) == Bindings(a) + Bindings(b)
    decreases |b|
  {
    if |b| > 0 {
      var b' := b[..|b| - 1];
      assert (a + b)[..|a + b| - 1] == a + b';
      ConcatBindings(a, b');
    } else {
      assert a + b == a;
    }
  }

  lemma {:induction false} ConcatHoles(a: seq<Token>, b: seq<Token>)
    ensures Holes(a + b) == Holes(a) + Holes(b)
    decreases |b|
  {
    if |b| > 0 {
      var b' := b[..|b| - 1];
      assert (a + b)[..|a + b| - 1] == a + b';
      ConcatHoles(a, b');
    } else {
      assert a + b == a;
    }
  }

  lemma {:induction false} ConcatRaw(a: seq<Token>, b: seq<Token>)
    ensures RawCount(a + b) == RawCount(a) + RawCount(b)
    decreases |b|
  {
    if |b| > 0 {
      var b' := b[..|b| - 1];
      assert (a + b)[..|a + b| - 1] == a + b';
      ConcatRaw(a, b');
    } else {
      assert a + b == a;
    }
  }

  /** Every bound value is either a placeholder's or a raw fragment's. */
  lemma {:induction false} BindingCount(ts: seq<Token>)
    ensures |Bindings(ts)| == Holes(ts) + RawCount(ts)
  {
    if |ts| > 0 {
      BindingCount(ts[..|ts| - 1]);
    }
  }

  /** A rendered fragment: the SQL text the source builds, the values it
      appends to the builder's value list while building it, and the token
      stream that accounts for both. */
  datatype Frag = Frag(text: string, toks: seq<Token>, vals: seq<Value>) {

    /** The tokens spell the text, and the values appended are exactly the
        placeholders' and raw fragments' values, in text order. */
    predicate Aligned()
    {
      text == Sql(toks) && vals == Bindings(toks)
    }

    function Then(next: Frag): Frag
    {
      Frag(text + next.text, toks + next.toks, vals + next.vals)
    }
  }

  const Empty := Frag("", [], [])

  function Literal(s: string): Frag
  {
    Frag(s, [Lit(s)], [])
  }

  /** One placeholder bound to `v`. */
  function Placeholder(v: Value): Frag
  {
    Frag("?", [Hole(v)], [v])
  }

  /** Caller-trusted raw SQL spliced in verbatim with its own values. */
  function RawSql(sql: string, values: seq<Value>): Frag
  {
    Frag(sql, [Inline(sql, values)], values)
  }

  /** Text, bindings and counts of single tokens. */
  lemma Single(t: Token)
    ensures Sql([t]) == TokenSql(t)
    ensures Bindings([t]) == TokenBindings(t)
    ensures Holes([t]) == (if t.Hole? then 1 else 0)
    ensures RawCount([t]) == (if t.Inline? then |t.values| else 0)
  {
    assert [t][..0] == [];
  }

  lemma LiteralAligned(s: string)
    ensures Literal(s).Aligned()
  {
    Single(Lit(s));
  }

  lemma LiteralCounts(s: string)
    ensures Holes(Literal(s).toks) == 0 && RawCount(Literal(s).toks) == 0
  {
    Single(Lit(s));
  }

  lemma PlaceholderAligned(v: Value)
    ensures Placeholder(v).Aligned()
  {
    Single(Hole(v));
  }

  lemma PlaceholderCounts(v: Value)
    ensures Holes(Placeholder(v).toks) == 1 && RawCount(Placeholder(v).toks) == 0
  {
    Single(Hole(v));
  }

  lemma RawSqlAligned(sql: string, values: seq<Value>)
    ensures RawSql(sql, values).Aligned() && Holes(RawSql(sql, values).toks) == 0
    ensures RawCount(RawSql(sql, values).toks) == |values|
  {
    Single(Inline(sql, values));
  }

  /** The text of a later list entry: a space, the connector word and a
      space, then the entry. */
  lemma ConnectedText(e: Frag, c: string, l: Frag)
    ensures e.Then(Literal(" ")).Then(Literal(c + " ")).Then(l).text == e.text + " " + (c + " " + l.text)
  {
  }

  /** Literal text binds nothing, so a later entry adds just its own
      values, and a keyword in front adds none. */
  lemma ConnectedVals(e: Frag, c: string, l: Frag, head: string)
    ensures e.Then(Literal(" ")).Then(Literal(c + " ")).Then(l).vals == e.vals + l.vals
    ensures Literal(head).Then(e).vals == e.vals
  {
    assert e.Then(Literal(" ")).vals == e.vals;
    assert e.Then(Literal(" ")).Then(Literal(c + " ")).vals == e.vals;
    assert Literal(head).Then(e).vals == [] + e.vals;
  }

  /** Placeholder and raw counts of a concatenation of fragments. */
  lemma ThenCounts(a: Frag, b: Frag)
    ensures Holes(a.Then(b).toks) == Holes(a.toks) + Holes(b.toks)
    ensures RawCount(a.Then(b).toks) == RawCount(a.toks) + RawCount(b.toks)
  {
    ConcatHoles(a.toks, b.toks);
    ConcatRaw(a.toks, b.toks);
  }

  /** Concatenating aligned fragments keeps them aligned. */
  lemma ThenAligned(a: Frag, b: Frag)
    requires a.Aligned() && b.Aligned()
    ensures a.Then(b).Aligned()
  {
    ConcatSql(a.toks, b.toks);
    ConcatBindings(a.toks, b.toks);
  }

  /** `implode(sep, ...)` of fragments: texts joined with `sep`, values
      concatenated in order. */
  function JoinFrags(sep: string, parts: seq<Frag>): (r: Frag)
  {
    if |parts| == 0 then Empty
    else if |parts| == 1 then parts[0]
    else JoinFrags(sep, parts[..|parts| - 1]).Then(Literal(sep)).Then(parts[|parts| - 1])
  }

  lemma {:induction false} JoinFragsAligned(sep: string, parts: seq<Frag>)
    requires forall k :: 0 <= k < |parts| ==> parts[k].Aligned()
    ensures JoinFrags(sep, parts).Aligned()
  {
    if |parts| > 1 {
      JoinFragsAligned(sep, parts[..|parts| - 1]);
      LiteralAligned(sep);
      ThenAligned(JoinFrags(sep, parts[..|parts| - 1]), Literal(sep));
      ThenAligned(JoinFrags(sep, parts[..|parts| - 1]).Then(Literal(sep)), parts[|parts| - 1]);
    }
  }

  /** The texts of a list of fragments, in order. */
  function Texts(parts: seq<Frag>): (r: seq<string>)
    ensures |r| == |parts| && forall k :: 0 <= k < |parts| ==> r[k] == parts[k].text
  {
    if |parts| == 0 then [] else Texts(parts[..|parts| - 1]) + [parts[|parts| - 1].text]
  }

  /** The values of a list of fragments, concatenated in order. */
  function AllVals(parts: seq<Frag>): seq<Value>
  {
    if |parts| == 0 then [] else AllVals(parts[..|parts| - 1]) + parts[|parts| - 1].vals
  }

  /** Joining fragments joins their texts with the separator and
      concatenates their values in order. */
  lemma {:induction false} JoinFragsShape(sep: string, parts: seq<Frag>)
    ensures JoinFrags(sep, parts).text == Text.Join(sep, Texts(parts))
    ensures JoinFrags(sep, parts).vals == AllVals(parts)
  {
    if |parts| > 1 {
      var init := parts[..|parts| - 1];
      JoinFragsShape(sep, init);
      Text.JoinSnoc(sep, Texts(init), parts[|parts| - 1].text);
      assert Texts(parts) == Texts(init) + [parts[|parts| - 1].text];
    } else if |parts| == 1 {
      assert Texts(parts) == [parts[0].text];
      assert AllVals(parts) == AllVals([]) + parts[0].vals;
    }
  }

  /** Joining two non-empty lists one after the other is joining each and
      putting the separator between them: `implode` of a longer list
      extends the shorter one's text and values. */
  lemma {:induction false} JoinFragsAppend(sep: string, a: seq<Frag>, b: seq<Frag>)
    requires |a| > 0 && |b| > 0
    ensures JoinFrags(sep, a + b).text == JoinFrags(sep, a).text + sep + JoinFrags(sep, b).text
    ensures JoinFrags(sep, a + b).vals == JoinFrags(sep, a).vals + JoinFrags(sep, b).vals
    decreases |b|
  {
    var ab := a + b;
    var last := b[|b| - 1];
    assert ab[|ab| - 1] == last;
    if |b| == 1 {
      assert ab[..|ab| - 1] == a;
    } else {
      var init := b[..|b| - 1];
      assert ab[..|ab| - 1] == a + init;
      JoinFragsAppend(sep, a, init);
    }
  }
}

=== FILE: values.dfy ===
/** The PHP values that flow through the builder: bound parameters, attribute
    values and raw-fragment values. Floats, objects and resources are not
    modelled; a PHP list is a `List`. */
module Values {

  datatype Value = Null | Bool(b: bool) | Int(i: int) | Str(s: string) | List(items: seq<Value>)

  /** `Helper::flattenArray`: the non-list leaves of a (nested) list, in
      order; a value that is not a list stands for itself. */
  function Flatten(v: Value): (r: seq<Value>)
    ensures forall k :: 0 <= k < |r| ==> !r[k].List?
    ensures !v.List? ==> r == [v]
    decreases v
  {
    match v
    case List(xs) => FlattenAll(xs)
    case _ => [v]
  }

  function FlattenAll(xs: seq<Value>): (r: seq<Value>)
    ensures forall k :: 0 <= k < |r| ==> !r[k].List?
    decreases xs
  {
    if |xs| == 0 then [] else FlattenAll(xs[..|xs| - 1]) + Flatten(xs[|xs| - 1])
  }

  /** Flattening a list that is already flat changes nothing. */
  lemma {:induction false} FlattenFlat(xs: seq<Value>)
    requires forall k :: 0 <= k < |xs| ==> !xs[k].List?
    ensures FlattenAll(xs) == xs
  {
    if |xs| > 0 {
      FlattenFlat(xs[..|xs| - 1]);
      assert xs == xs[..|xs| - 1] + [xs[|xs| - 1]];
    }
  }

  /** PHP `count` on the value of a BETWEEN predicate: the number of entries
      of a list; `count(null)` is 0 and any other scalar counts as 1. */
  function Count(v: Value): nat
  {
    match v
    case List(xs) => |xs|
    case Null => 0
    case _ => 1
  }
}

=== FILE: vocabulary.dfy ===
/** The fixed vocabularies the builder validates against: the operator
    whitelist and the join types of src/Query/QueryBuilder.php. */
module Vocabulary {
  import Text

  /** The operator whitelist. */
  const Operators: set<string> :=
    {">", "<", ">=", "<=", "=", "!=", "<>", "IN", "LIKE", "BETWEEN", "NOT BETWEEN",
     "NOT IN", "IS NULL", "IS NOT NULL"}

  const JoinTypes: set<string> := {"INNER", "LEFT", "RIGHT"}

  /** Every whitelist entry is upper-case and has no surrounding blanks, so
      the `trim(strtoupper(...))` applied before storing changes nothing. */
  lemma OperatorsNormal(op: string)
    requires op in Operators
    ensures Text.Upper(op) == op && Text.Trim(op) == op
  {
    OperatorsSpelled(op);
    SpelledUpper(op);
    SpelledTrim(op);
  }

  /** The characters whitelist entries are spelled with. */
  predicate OpChar(c: char)
  {
    c == ' ' || c == '<' || c == '>' || c == '=' || c == '!' || 'A' <= c <= 'Z'
  }

  /** Non-empty, no blank at either end, only operator characters. */
  predicate Spelled(s: string)
  {
    |s| > 0 && s[0] != ' ' && s[|s| - 1] != ' ' && forall i :: 0 <= i < |s| ==> OpChar(s[i])
  }

  lemma OperatorsSpelled(op: string)
    requires op in Operators
    ensures Spelled(op)
  {
    if op == "BETWEEN" {
    } else if op == "NOT BETWEEN" {
    } else if op == "IS NOT NULL" {
    } else if op == "IS NULL" {
    } else if op == "NOT IN" {
    } else if op == "LIKE" {
    }
  }

  lemma SpelledUpper(s: string)
    requires Spelled(s)
    ensures Text.Upper(s) == s
  {
    Text.UpperKeeps(s);
  }

  lemma SpelledTrim(s: string)
    requires Spelled(s)
    ensures Text.Trim(s) == s
  {
    Text.TrimKeeps(s);
  }
}

=== FILE: writes.dfy ===
/** The data-modifying statements of src/Query/QueryBuilder.php:
    `update`, `insert` and `delete`, up to the call that runs them. Each
    starts a fresh value list and returns the statement text with the
    values it binds. */
module Writes {
  import opened Values
  import opened Tokens
  import opened Identifiers
  import opened Predicates
  import opened Builder
  import opened Results
  import opened Errors
  import opened Compile
  import Text

  /** PHP's `empty()` on the stored table name: no table, `""` or `"0"`. */
  predicate TableEmpty(t: Option<Ident>)
  {
    t.None? || (t.value.Plain? && (t.value.name == "" || t.value.name == "0"))
  }

  /** A value in `update`'s data: bound through a placeholder, or a raw
      expression spliced in with its own values. */
  datatype SetValue = Bind(value: Value) | RawSet(sql: string, values: seq<Value>)

  /** One `column=value` item of the SET list. */
  function SetItem(column: string, v: SetValue): Frag
  {
    match v
    case Bind(x) => Literal(QuoteName(column) + "=").Then(Placeholder(x))
    case RawSet(sql, vs) => Literal(QuoteName(column) + "=").Then(RawSql(sql, vs))
  }

  function SetItems(data: seq<(string, SetValue)>): seq<Frag>
  {
    seq(|data|, k requires 0 <= k < |data| => SetItem(data[k].0, data[k].1))
  }

  /** The SET list: the items joined by `,`. */
  function SetList(data: seq<(string, SetValue)>): Frag
  {
    JoinFrags(",", SetItems(data))
  }

  /** The text `update` implodes: `UPDATE t`, `SET items`, the WHERE clause. */
  function UpdateFrag(table: Ident, items: Frag, w: Frag): Frag
  {
    Literal("UPDATE ").Then(Quote(table)).Then(Literal(" SET ")).Then(items).Then(Literal(" ")).Then(w)
  }

  /** `update($data)` as written: the table check, then the data check,
      then the SET values, the table's own values (quoted after the loop),
      and the WHERE values, on a fresh list. The text names the table
      before the SET list, so a raw table that carries values gets them
      bound out of text order. */
  function Update(q: State, data: seq<(string, SetValue)>): Result<Compiled, QueryError>
  {
    if TableEmpty(q.table) then Err(TableNotSpecified)
    else if |data| == 0 then Err(EmptyUpdateData)
    else
      var w :- Clause(q.wheres, "WHERE");
      var items := SetList(data);
      Ok(Compiled(Text.Trim(UpdateFrag(q.table.value, items, w).text),
                  items.vals + IdentValues(q.table.value) + w.vals))
  }

  /** `update` corrected: the same checks and text, with the table's values
      bound first, where the text names the table. */
  function UpdateCorrected(q: State, data: seq<(string, SetValue)>): Result<Compiled, QueryError>
  {
    if TableEmpty(q.table) then Err(TableNotSpecified)
    else if |data| == 0 then Err(EmptyUpdateData)
    else
      var w :- Clause(q.wheres, "WHERE");
      var items := SetList(data);
      Ok(Compiled(Text.Trim(UpdateFrag(q.table.value, items, w).text),
                  IdentValues(q.table.value) + items.vals + w.vals))
  }

  /** The text `insert` implodes: `INSERT INTO t(columns)` and `VALUES(?,...)`. */
  function InsertFrag(table: Ident, columns: seq<string>, values: seq<Value>): Frag
  {
    Literal("INSERT INTO ").Then(Quote(table))
      .Then(Literal("(" + Text.Join(",", QuoteNames(columns)) + ")"))
      .Then(Literal(" VALUES(")).Then(InList(values)).Then(Literal(")"))
  }

  function QuoteNames(columns: seq<string>): (r: seq<string>)
    ensures |r| == |columns| && forall k :: 0 <= k < |columns| ==> r[k] == QuoteName(columns[k])
  {
    seq(|columns|, k requires 0 <= k < |columns| => QuoteName(columns[k]))
  }

  function Columns(data: seq<(string, Value)>): seq<string>
  {
    seq(|data|, k requires 0 <= k < |data| => data[k].0)
  }

  function DataValues(data: seq<(string, Value)>): seq<Value>
  {
    seq(|data|, k requires 0 <= k < |data| => data[k].1)
  }

  /** `insert($data)` as written: the checks, then every value bound in
      order, then the table's own values (quoted after the loop), although
      the text names the table first. */
  function Insert(q: State, data: seq<(string, Value)>): Result<Compiled, QueryError>
  {
    if TableEmpty(q.table) then Err(TableNotSpecified)
    else if |data| == 0 then Err(EmptyInsertData)
    else
      Ok(Compiled(Text.Trim(InsertFrag(q.table.value, Columns(data), DataValues(data)).text),
                  DataValues(data) + IdentValues(q.table.value)))
  }

  /** `insert` corrected: the table's values first, then the data values. */
  function InsertCorrected(q: State, data: seq<(string, Value)>): Result<Compiled, QueryError>
  {
    if TableEmpty(q.table) then Err(TableNotSpecified)
    else if |data| == 0 then Err(EmptyInsertData)
    else
      Ok(Compiled(Text.Trim(InsertFrag(q.table.value, Columns(data), DataValues(data)).text),
                  IdentValues(q.table.value) + DataValues(data)))
  }

  /** The text `delete` implodes: `DELETE FROM t` and the WHERE clause. */
  function DeleteFrag(table: Ident, w: Frag): Frag
  {
    Literal("DELETE FROM ").Then(Quote(table)).Then(Literal(" ")).Then(w)
  }

  /** `delete()`: the table check, then the table's values and the WHERE
      values, on a fresh list. */
  function Delete(q: State): Result<Compiled, QueryError>
  {
    if TableEmpty(q.table) then Err(TableNotSpecified)
    else
      var w :- Clause(q.wheres, "WHERE");
      Ok(Compiled(Text.Trim(DeleteFrag(q.table.value, w).text), IdentValues(q.table.value) + w.vals))
  }
}

/** Properties of the data-modifying statements: when they fail, and that
    the values each binds are exactly those its text calls for. */
module WriteProps {
  import opened Values
  import opened Tokens
  import opened Identifiers
  import opened Predicates
  import opened Builder
  import opened Results
  import opened Errors
  import opened Compile
  import opened Writes
  import Text

  // ---------------------------------------------------------------------
  // When they fail

  lemma UpdateOkIff(q: State, data: seq<(string, SetValue)>)
    ensures TableEmpty(q.table) ==> Update(q, data) == Err(TableNotSpecified)
    ensures !TableEmpty(q.table) && |data| == 0 ==> Update(q, data) == Err(EmptyUpdateData)
    ensures Update(q, data).Ok? <==>
      !TableEmpty(q.table) && |data| > 0 && forall k :: 0 <= k < |q.wheres| ==> WellFormed(q.wheres[k])
  {
    ClauseOkIff(q.wheres, "WHERE");
  }

  lemma InsertOkIff(q: State, data: seq<(string, Value)>)
    ensures TableEmpty(q.table) ==> Insert(q, data) == Err(TableNotSpecified)
    ensures !TableEmpty(q.table) && |data| == 0 ==> Insert(q, data) == Err(EmptyInsertData)
    ensures Insert(q, data).Ok? <==> !TableEmpty(q.table) && |data| > 0
  {
  }

  lemma DeleteOkIff(q: State)
    ensures TableEmpty(q.table) ==> Delete(q) == Err(TableNotSpecified)
    ensures Delete(q).Ok? <==>
      !TableEmpty(q.table) && forall k :: 0 <= k < |q.wheres| ==> WellFormed(q.wheres[k])
  {
    ClauseOkIff(q.wheres, "WHERE");
  }

  // ---------------------------------------------------------------------
  // What they bind

  lemma SetItemsAligned(data: seq<(string, SetValue)>)
    ensures forall k :: 0 <= k < |data| ==> SetItems(data)[k].Aligned()
  {
    forall k | 0 <= k < |data|
      ensures SetItems(data)[k].Aligned()
    {
      var head := Literal(QuoteName(data[k].0) + "=");
      LiteralAligned(QuoteName(data[k].0) + "=");
      match data[k].1
      case Bind(x) =>
        PlaceholderAligned(x);
        ThenAligned(head, Placeholder(x));
      case RawSet(sql, vs) =>
        RawSqlAligned(sql, vs);
        ThenAligned(head, RawSql(sql, vs));
    }
  }

  lemma SetListAligned(data: seq<(string, SetValue)>)
    ensures SetList(data).Aligned()
  {
    SetItemsAligned(data);
    JoinFragsAligned(",", SetItems(data));
  }

  lemma SetListVals(data: seq<(string, SetValue)>)
    ensures SetList(data).vals == AllVals(SetItems(data))
  {
    JoinFragsShape(",", SetItems(data));
  }

  lemma UpdateFragAligned(table: Ident, items: Frag, w: Frag)
    requires items.Aligned() && w.Aligned()
    ensures UpdateFrag(table, items, w).Aligned()
  {
    var a := Literal("UPDATE ").Then(Quote(table));
    var b := a.Then(Literal(" SET "));
    var c := b.Then(items);
    QuoteAligned(table);
    LiteralAligned("UPDATE ");
    LiteralAligned(" SET ");
    LiteralAligned(" ");
    ThenAligned(Literal("UPDATE "), Quote(table));
    ThenAligned(a, Literal(" SET "));
    ThenAligned(b, items);
    ThenAligned(c, Literal(" "));
    ThenAligned(c.Then(Literal(" ")), w);
  }

  lemma UpdateFragVals(table: Ident, items: Frag, w: Frag)
    ensures UpdateFrag(table, items, w).vals == IdentValues(table) + items.vals + w.vals
  {
  }

  /** Corrected `update` binds, in text order, exactly the values its text
      calls for: the table's raw values, the SET values, then the WHERE
      values, whatever the table is. */
  lemma UpdateAligned(q: State, data: seq<(string, SetValue)>)
    requires UpdateCorrected(q, data).Ok?
    ensures var body := UpdateFrag(q.table.value, SetList(data), Clause(q.wheres, "WHERE").value);
      && body.Aligned()
      && UpdateCorrected(q, data).value.sql == Text.Trim(body.text)
      && UpdateCorrected(q, data).value.values == body.vals
  {
    var w := Clause(q.wheres, "WHERE").value;
    ClauseAligned(q.wheres, "WHERE");
    SetListAligned(data);
    UpdateFragAligned(q.table.value, SetList(data), w);
    UpdateFragVals(q.table.value, SetList(data), w);
  }

  /** The correction changes only the order of the values, and nothing at
      all for a plain table name, which carries none. */
  lemma UpdateCorrectedAgrees(q: State, data: seq<(string, SetValue)>)
    ensures UpdateCorrected(q, data).Ok? <==> Update(q, data).Ok?
    ensures Update(q, data).Err? ==> UpdateCorrected(q, data) == Update(q, data)
    ensures Update(q, data).Ok? ==> UpdateCorrected(q, data).value.sql == Update(q, data).value.sql
    ensures Update(q, data).Ok? && q.table.value.Plain? ==> UpdateCorrected(q, data) == Update(q, data)
  {
    if !TableEmpty(q.table) && |data| > 0 && Clause(q.wheres, "WHERE").Ok? {
      var t := q.table.value;
      var w := Clause(q.wheres, "WHERE").value;
      var items := SetList(data);
      var text := Text.Trim(UpdateFrag(t, items, w).text);
      assert Update(q, data) == Ok(Compiled(text, items.vals + IdentValues(t) + w.vals));
      assert UpdateCorrected(q, data) == Ok(Compiled(text, IdentValues(t) + items.vals + w.vals));
      if t.Plain? {
        assert IdentValues(t) == [];
        assert [] + items.vals + w.vals == items.vals + [] + w.vals;
      }
    }
  }

  /** As written, a raw table that binds a value has it bound after the SET
      values although the text names the table first. */
  lemma UpdateRawMisaligned(fetchClass: string)
    ensures var q := From(New(fetchClass), [Raw("t_?", [Int(1)])]);
            var data := [("a", Bind(Int(2)))];
            var body := UpdateFrag(q.table.value, SetList(data), Clause(q.wheres, "WHERE").value);
      && Update(q, data).Ok?
      && Update(q, data).value.values == [Int(2), Int(1)]
      && body.Aligned() && body.vals == [Int(1), Int(2)]
  {
    var t := Raw("t_?", [Int(1)]);
    var q := From(New(fetchClass), [t]);
    assert q.table == Some(t) && q.wheres == [];
    UpdateOneBind(q, "a", Int(2));
  }

  /** `update` of one bound column with no predicates: the value goes
      before the table's, although the text puts it after. */
  lemma UpdateOneBind(q: State, column: string, x: Value)
    requires !TableEmpty(q.table) && q.wheres == []
    ensures var data := [(column, Bind(x))];
            var body := UpdateFrag(q.table.value, SetList(data), Clause(q.wheres, "WHERE").value);
      && Update(q, data).Ok?
      && Update(q, data).value.values == [x] + IdentValues(q.table.value)
      && body.Aligned() && body.vals == IdentValues(q.table.value) + [x]
  {
    var t := q.table.value;
    var data := [(column, Bind(x))];
    assert Clause(q.wheres, "WHERE") == Ok(Empty);
    var items := SetList(data);
    assert SetItems(data) == [SetItem(column, Bind(x))];
    assert items == SetItem(column, Bind(x));
    assert items.vals == [x];
    assert Update(q, data).value.values == items.vals + IdentValues(t) + [];
    SetListAligned(data);
    UpdateFragAligned(t, items, Empty);
    UpdateFragVals(t, items, Empty);
  }

  lemma UpdateOkValues(q: State, data: seq<(string, SetValue)>)
    requires Update(q, data).Ok?
    ensures Clause(q.wheres, "WHERE").Ok?
    ensures Update(q, data).value.values
         == SetList(data).vals + IdentValues(q.table.value) + Clause(q.wheres, "WHERE").value.vals
  {
  }

  lemma DeleteFragAligned(table: Ident, w: Frag)
    requires w.Aligned()
    ensures DeleteFrag(table, w).Aligned()
  {
    var a := Literal("DELETE FROM ").Then(Quote(table));
    QuoteAligned(table);
    LiteralAligned("DELETE FROM ");
    ThenAligned(Literal("DELETE FROM "), Quote(table));
    LiteralAligned(" ");
    ThenAligned(a, Literal(" "));
    ThenAligned(a.Then(Literal(" ")), w);
  }

  lemma DeleteFragVals(table: Ident, w: Frag)
    ensures DeleteFrag(table, w).vals == IdentValues(table) + w.vals
  {
  }

  /** `delete` binds the table's values and then the WHERE values, exactly
      those its text calls for, in text order. */
  lemma DeleteAligned(q: State)
    requires Delete(q).Ok?
    ensures var body := DeleteFrag(q.table.value, Clause(q.wheres, "WHERE").value);
      && body.Aligned()
      && Delete(q).value.sql == Text.Trim(body.text)
      && Delete(q).value.values == body.vals
  {
    ClauseAligned(q.wheres, "WHERE");
    DeleteFragAligned(q.table.value, Clause(q.wheres, "WHERE").value);
    DeleteFragVals(q.table.value, Clause(q.wheres, "WHERE").value);
  }

  /** Without conditions, `delete` empties the whole table: the trailing
      space the empty WHERE clause leaves is trimmed away. */
  lemma DeleteEverything(q: State)
    requires !TableEmpty(q.table) && q.table.value.Plain? && q.wheres == []
    ensures Delete(q) == Ok(Compiled("DELETE FROM " + QuoteName(q.table.value.name), []))
  {
    var t := q.table.value;
    assert Clause(q.wheres, "WHERE") == Ok(Empty);
    assert Delete(q) == Ok(Compiled(Text.Trim(DeleteFrag(t, Empty).text), []));
    DeleteText(t.name);
  }

  /** The text of an unconditional DELETE, before and after trimming. */
  lemma DeleteText(name: string)
    ensures DeleteFrag(Plain(name), Empty).text == "DELETE FROM " + QuoteName(name) + " "
    ensures Text.Trim(DeleteFrag(Plain(name), Empty).text) == "DELETE FROM " + QuoteName(name)
  {
    var s := "DELETE FROM " + QuoteName(name);
    assert DeleteFrag(Plain(name), Empty).text == s + " ";
    QuoteNameEnds(name);
    assert s[|s| - 1] == QuoteName(name)[|QuoteName(name)| - 1];
    assert s[0] == 'D';
    Text.TrimSpace(s);
  }

  lemma InsertFragAligned(table: Ident, columns: seq<string>, values: seq<Value>)
    ensures InsertFrag(table, columns, values).Aligned()
  {
    var cols := "(" + Text.Join(",", QuoteNames(columns)) + ")";
    var a := Literal("INSERT INTO ").Then(Quote(table));
    var b := a.Then(Literal(cols));
    var c := b.Then(Literal(" VALUES("));
    var d := c.Then(InList(values));
    QuoteAligned(table);
    LiteralAligned("INSERT INTO ");
    LiteralAligned(cols);
    LiteralAligned(" VALUES(");
    LiteralAligned(")");
    InListShape(values);
    ThenAligned(Literal("INSERT INTO "), Quote(table));
    ThenAligned(a, Literal(cols));
    ThenAligned(b, Literal(" VALUES("));
    ThenAligned(c, InList(values));
    ThenAligned(d, Literal(")"));
  }

  /** One placeholder per value, and the table's raw values inlined. */
  lemma InsertFragCounts(table: Ident, columns: seq<string>, values: seq<Value>)
    ensures Holes(InsertFrag(table, columns, values).toks) == |values|
    ensures RawCount(InsertFrag(table, columns, values).toks) == |IdentValues(table)|
  {
    var cols := "(" + Text.Join(",", QuoteNames(columns)) + ")";
    var a := Literal("INSERT INTO ").Then(Quote(table));
    var b := a.Then(Literal(cols));
    var c := b.Then(Literal(" VALUES("));
    var d := c.Then(InList(values));
    QuoteAligned(table);
    LiteralCounts("INSERT INTO ");
    LiteralCounts(cols);
    LiteralCounts(" VALUES(");
    LiteralCounts(")");
    InListShape(values);
    ThenCounts(Literal("INSERT INTO "), Quote(table));
    ThenCounts(a, Literal(cols));
    ThenCounts(b, Literal(" VALUES("));
    ThenCounts(c, InList(values));
    ThenCounts(d, Literal(")"));
  }

  lemma InsertFragText(table: Ident, columns: seq<string>, values: seq<Value>)
    ensures InsertFrag(table, columns, values).text
         == "INSERT INTO " + QuoteText(table) + ("(" + Text.Join(",", QuoteNames(columns)) + ")")
            + " VALUES(" + InList(values).text + ")"
  {
    var head := Literal("INSERT INTO ").Then(Quote(table));
    assert head.text == "INSERT INTO " + QuoteText(table);
  }

  /** Corrected `insert`, for any table: the exact statement text, with the
      quoted columns and one `?` per column, and the table's values
      followed by the data values in column order. */
  lemma InsertShape(q: State, data: seq<(string, Value)>)
    requires InsertCorrected(q, data).Ok?
    ensures InsertCorrected(q, data).value.sql
         == "INSERT INTO " + QuoteText(q.table.value) + ("(" + Text.Join(",", QuoteNames(Columns(data))) + ")")
            + " VALUES(" + Text.Join(",", Repeat("?", |data|)) + ")"
    ensures InsertCorrected(q, data).value.values == IdentValues(q.table.value) + DataValues(data)
  {
    var t := q.table.value;
    InsertFragText(t, Columns(data), DataValues(data));
    InListText(DataValues(data));
    InsertTrimmed(QuoteText(t), "(" + Text.Join(",", QuoteNames(Columns(data))) + ")",
                  InList(DataValues(data)).text);
  }

  /** The correction changes only the order of the values, and nothing at
      all for a plain table name. */
  lemma InsertCorrectedAgrees(q: State, data: seq<(string, Value)>)
    ensures InsertCorrected(q, data).Ok? <==> Insert(q, data).Ok?
    ensures Insert(q, data).Err? ==> InsertCorrected(q, data) == Insert(q, data)
    ensures Insert(q, data).Ok? ==> InsertCorrected(q, data).value.sql == Insert(q, data).value.sql
    ensures Insert(q, data).Ok? && q.table.value.Plain? ==> InsertCorrected(q, data) == Insert(q, data)
  {
    if Insert(q, data).Ok? && q.table.value.Plain? {
      assert IdentValues(q.table.value) == [];
      assert [] + DataValues(data) == DataValues(data) + [];
    }
  }

  /** An INSERT statement text starts with `I` and ends with `)`, so `trim`
      leaves it alone. */
  lemma InsertTrimmed(table: string, columns: string, marks: string)
    ensures var s := "INSERT INTO " + table + columns + " VALUES(" + marks + ")";
            Text.Trim(s) == s
  {
    var s := "INSERT INTO " + table + columns + " VALUES(" + marks + ")";
    assert s[0] == 'I' && s[|s| - 1] == ')';
    Text.TrimKeeps(s);
  }

  /** Corrected `insert` binds exactly what its text calls for, whatever
      the table: one placeholder per data entry, in column order, after the
      table's raw values, and nothing else raw. */
  lemma InsertAligned(q: State, data: seq<(string, Value)>)
    requires InsertCorrected(q, data).Ok?
    ensures var body := InsertFrag(q.table.value, Columns(data), DataValues(data));
      && body.Aligned() && Holes(body.toks) == |data| && RawCount(body.toks) == |IdentValues(q.table.value)|
      && InsertCorrected(q, data).value.values == body.vals
  {
    InsertFragAligned(q.table.value, Columns(data), DataValues(data));
    InsertFragCounts(q.table.value, Columns(data), DataValues(data));
    InsertFragVals(q.table.value, Columns(data), DataValues(data));
  }

  /** As written, a raw table that binds a value has it bound after the
      data values although the text names the table first. */
  lemma InsertRawMisaligned(fetchClass: string)
    ensures var q := From(New(fetchClass), [Raw("t_?", [Int(1)])]);
            var data := [("a", Int(2))];
            var body := InsertFrag(q.table.value, Columns(data), DataValues(data));
      && Insert(q, data).Ok?
      && Insert(q, data).value.values == [Int(2), Int(1)]
      && body.Aligned() && body.vals == [Int(1), Int(2)]
  {
    var q := From(New(fetchClass), [Raw("t_?", [Int(1)])]);
    var data := [("a", Int(2))];
    assert DataValues(data) == [Int(2)];
    InsertFragAligned(q.table.value, Columns(data), DataValues(data));
    InsertFragVals(q.table.value, Columns(data), DataValues(data));
  }

  lemma InsertFragVals(table: Ident, columns: seq<string>, values: seq<Value>)
    ensures InsertFrag(table, columns, values).vals == IdentValues(table) + values
  {
  }
}
